=== FILE: README.md ===
# Property price predictor — a Dafny model of its data path

The system scrapes Moroccan property listings, cleans them, turns them into
a numeric feature matrix, runs several trained regressors over it and
writes the predictions back to a spreadsheet. This project models that data
path: listing fields in, feature matrix and prediction table out. It covers:

- the field cleaners and the `preprocess` pass of `DataPreprocessor`;
- `encode_and_scale` in both its fit and its transform mode;
- the extractors and validators of `PropertyScraper` and `DataValidator`;
- `PricePredictor.load_models`, `predict`, `predict_ensemble` and
  `predict_with_confidence`;
- `prepare_output`, which assembles the rows written back.

A pandas table is modelled column by column (`Frames`). A table is a height
plus a sequence of labelled columns. Cells are untyped scalars: missing,
text, integer, float (an exact real) or boolean (`Cells`). Python's `str()`,
`float()`, `int()`, `str.strip`, `str.find` and `str.replace` are written
out in `Text` and `Cells`, because the cleaners' behaviour hangs on them. An
operation that raises in Python returns `Failure(e)` of `Wrappers.Result`,
with `e` one of the errors in `Errors.Exc`. A trained model is an opaque
function from a table to its predictions, or `None` where `model.predict`
raises. The square root inside `np.std` and `StandardScaler` is a
parameter `root`. The lemmas that need it require `Stats.IsRoot(root)`:
zero at zero, positive on positive values.

Modules follow the source files:

| module | source |
|---|---|
| `Config` | `configs/config.py`: the column lists, the model registry and the bounds |
| `Text`, `Cells`, `Frames`, `Stats` | Python and pandas semantics the core relies on |
| `Fields` | `clean_price`, `clean_surface`, and one entry of `extract_location` |
| `Preprocess` | `preprocess` and `extract_location` on whole tables |
| `Encoder` | `encode_and_scale`: fit (`Fit`) and transform (`Transform`) |
| `Utils` | `extract_number`, `extract_price`, `extract_surface`, the three validators |
| `Predictor` | `load_models`, `predict`, `predict_ensemble`, `predict_with_confidence` |
| `Output` | `prepare_output` |

Where the code behaves differently from what its names and comments suggest, the model follows the code:

- **Imputation does not always run.** The numeric columns are imputed with
  `fillna(col.median())`, and the median is taken over the column *before*
  `to_numeric` coerces it. pandas infers the type of the column's present
  values first. It refuses the median when no integer is present and the
  column holds text, or a float beside a boolean. Otherwise it casts the
  values to float, which fails on text that `float()` rejects. `preprocess`
  raises on such a column instead of imputing it (`Preprocess.Impute`,
  `Preprocess.PreprocessFails`). Beside an integer, numeric text is imputed
  as its number (`Preprocess.ImputeMixedInteger`). A column with no
  number at all keeps its missing cells, because its median is `NaN`. A
  numeric column can therefore still be missing after the pass.
- **A malformed price can raise.** The price cleaners convert the matched
  run without a `try`, so a run that `float()` rejects raises instead of
  degrading to a missing value. One such run is a digit, a tab and digits
  before `DH` (`Fields.CleanPriceTabRaises`).
- **Model errors are not always contained.** `predict_ensemble` and
  `predict_with_confidence` call each model without a `try`. The first model
  that raises stops them; only `predict` records a failing model as missing
  values.

## Model

| member | source | states |
|---|---|---|
| Cells.FloatTextWhole | src/preprocessor.py:33 | `str()` of a whole-valued float is the integer's text followed by `.0` |
| Cells.NumericOfStr | src/preprocessor.py:33-45 | `float(str(v))` gives back the number of any integer and of any whole-valued float |
| Cells.NumericFlag | src/utils.py:70-72 | `float()` of a boolean is the number of the integer 1 or 0, while `float()` of its text `True` or `False` raises |
| Text.NatTextValue | src/utils.py:29 | reading back the decimal text of a natural number gives that number (`int(str(n)) == n`) |
| Text.ParseDecimalNat | src/preprocessor.py:44-45 | `float()` of the text of a natural number is that number |
| Text.ParseDecimalDigits | src/preprocessor.py:38 | `float()` of a non-empty digit string is the number those digits spell |
| Text.ParseDecimalNegated | src/preprocessor.py:45 | a minus sign in front of an unsigned literal negates its value |
| Text.ParseDecimal | src/preprocessor.py:44-47 | `float()` succeeds only on text that holds at least one digit |
| Text.StripUnchanged | src/preprocessor.py:66-69 | `strip()` leaves text alone when it neither starts nor ends with whitespace |
| Text.IndexOf | src/preprocessor.py:64-65 | the separator is found at its first occurrence: it occurs there, nowhere before, and `None` means nowhere at all |
| Text.WithoutDistributes | src/utils.py:28 | deleting a character from joined text deletes it from each part |
| Fields.CleanPrice | src/preprocessor.py:28-47 | a missing price stays missing, and the only error is an unreadable matched run |
| Fields.MarkerStart | src/preprocessor.py:36 | `re.search` reports the leftmost position where the pattern matches, and no match when it matches nowhere |
| Fields.MarkerFound | src/preprocessor.py:36 | after digit-free text, the leftmost match starts at the first digit of a digit-and-space run, and the captured group is that run with its optional space |
| Fields.CleanPriceRaisesOnMatch | src/preprocessor.py:35-47 | the cleaner raises only when one of the two currency patterns matched |
| Fields.CleanPriceDirhams | src/preprocessor.py:35-38 | a dirham price after digit-free text reads as the digits of its run, spaces removed |
| Fields.CleanPriceEuros | src/preprocessor.py:39-42 | a euro price, in text without `DH`, reads as its digits times 10.5 |
| Fields.CleanPriceExample | src/preprocessor.py:35-38 | "1 200 000 DH" cleans to 1200000 |
| Fields.CleanPriceTabRaises | src/preprocessor.py:36-38 | a tab inside the run survives `replace(" ", "")`, so "1\t200 DH" makes the cleaner raise |
| Fields.CleanPriceNoDigit | src/preprocessor.py:28-47 | text without a digit never becomes a price: it cleans to `NaN` |
| Fields.CleanPriceWholeFloat | src/preprocessor.py:33-45 | a whole-valued float price comes back unchanged, so a second cleaning pass over `prix_dh` keeps it |
| Fields.CleanSurface | src/preprocessor.py:49-54 | the surface is missing exactly when the value is missing or its text has no digit |
| Fields.CleanSurfaceText | src/preprocessor.py:53-54 | "85 m²", a number followed by digit-free text, reads as that number |
| Fields.CleanSurfaceInt | src/preprocessor.py:53-54 | an integer surface reads as its magnitude, because the minus sign is not a digit |
| Fields.CleanSurfaceWholeFloat | src/preprocessor.py:53-54 | a float surface 85.0 reads as 850, because every digit of "85.0" is kept |
| Fields.SplitLocation | src/preprocessor.py:60-70 | a missing location is unknown on both sides, and a location without `" à "` is all city with an unknown zone |
| Fields.SplitLocationJoin | src/preprocessor.py:64-67 | splitting `zone + " à " + city` gives back the stripped zone and city when the zone holds no `" à"` |
| Fields.SplitLocationOf | src/preprocessor.py:64-67 | a clean zone and a clean city joined by the separator split back into exactly those two parts |
| Fields.SplitLocationExample | src/preprocessor.py:64-67 | "Maarif à Casablanca" splits into zone "Maarif" and city "Casablanca" |
| Fields.SplitLocationTrailing | src/preprocessor.py:64-67 | a trailing separator leaves an empty city |
| Fields.SplitLocationCityOnly | src/preprocessor.py:68-70 | a bare city name has an unknown zone |
| Fields.NoSeparator | src/preprocessor.py:64 | text without an `à` never holds the separator |
| Utils.FirstNumber | src/utils.py:28 | `\d+` finds nothing exactly when the text has no digit, and otherwise finds a non-empty run of digits |
| Utils.ExtractNumber | src/utils.py:23-29 | missing and falsy values give `None`; any other value gives `None` exactly when its text, commas deleted, has no digit |
| Utils.ExtractNumberOf | src/utils.py:28-29 | in comma-free text, the first number after digit-free words is read whole |
| Utils.ExtractNumberFalsy | src/utils.py:26-27 | 0, 0.0, "" and False give `None`, though 0 is a number |
| Utils.ExtractNumberInt | src/utils.py:28-29 | a non-zero integer gives its magnitude |
| Utils.ExtractNumberThousands | src/utils.py:28-29 | commas are deleted before the digits are read, so `a,b` reads as the number whose digits are `ab` |
| Utils.ExtractNumberExample | src/utils.py:28-29 | "1,200 m²" gives 1200 |
| Utils.ExtractPrice | src/utils.py:31-51 | the scraper's price extractor agrees with the preprocessor's price cleaner on every value |
| Utils.ExtractAgreesDirhams | src/utils.py:39-42 | on text where the `DH` pattern matches, the extractor reads the group or raises with its error |
| Utils.ExtractAgreesEuros | src/utils.py:43-46 | on text without `DH` where the `EUR` pattern matches, the extractor converts the group at 10.5 or raises |
| Utils.ExtractAgreesUnmarked | src/utils.py:48-51 | when neither branch matches, the extractor is `float()` of the text, or `None` |
| Utils.ExtractSurface | src/utils.py:53-59 | the extractor, written as one pass that accumulates the integer of the digits of `str(value)`, equals the preprocessor's surface cleaner on every value |
| Utils.ExtractSurfaceOf | src/utils.py:53-59 | a number followed by a digit-free unit, such as `85 m²`, extracts to that number |
| Utils.Trunc | src/utils.py:93 | `int()` of a float truncates toward zero |
| Utils.IntValueRoundTrip | src/utils.py:93 | `int(str(i))` and `int()` of `i` as a float both give back `i` |
| Utils.IntValueFloat | src/utils.py:93 | `int()` of a float truncates toward zero: the result has the float's sign and lies less than one away |
| Utils.IntValuePoint | src/utils.py:93-95 | `int()` refuses text with a decimal point between digits, such as `3.5` |
| Utils.ValidPriceRange | src/utils.py:66-72 | a numeric price is valid exactly when it lies between 10000 and 100000000, both included |
| Utils.ValidPriceRejects | src/utils.py:68-74 | a missing price and a text `float()` cannot read are invalid |
| Utils.ValidPriceText | src/utils.py:70-72 | a price written as digits is valid exactly when its number is in range |
| Utils.ValidSurfaceRange | src/utils.py:77-83 | a numeric surface is valid exactly when it lies between 10 and 10000, both included |
| Utils.ValidSurfaceRejects | src/utils.py:79-85 | a missing surface and a text `float()` cannot read are invalid |
| Utils.ValidRoomsFloat | src/utils.py:87-95 | a float room count is truncated first, so exactly the floats strictly between -1 and 21 pass |
| Utils.ValidRoomsExamples | src/utils.py:87-95 | 20.9, -0.5 and a missing count pass; 21, 21.0 and -1 do not |
| Utils.ValidRoomsInt | src/utils.py:92-93 | an integer room count passes exactly from 0 to 20 |
| Stats.SortSeq | src/preprocessor.py:115 | the values the median is read from are sorted and a permutation of the column's values |
| Stats.Median | src/preprocessor.py:115 | the median exists exactly when there is at least one value |
| Stats.MedianBounds | src/preprocessor.py:115 | the median lies between the least and the greatest value |
| Stats.MedianConstant | src/preprocessor.py:115 | the median of equal values is that value |
| Stats.DeviationsFromMean | src/preprocessor.py:168-171 | the deviations from the mean sum to zero |
| Stats.VarianceZero | src/models.py:81 | the population variance is zero exactly when all values are equal |
| Stats.StdSign | src/models.py:81 | the standard deviation is non-negative, and zero exactly when all values are equal |
| Frames.Get | src/preprocessor.py:105 | `df.get` finds a column exactly when the label is present, and it is as tall as the table |
| Frames.AssignGet | src/preprocessor.py:72-73 | after `df[name] = cells` the label reads back the new cells, and the table stays shaped |
| Frames.AssignOther | src/preprocessor.py:72-73 | assigning one column leaves every other label reading what it read before |
| Frames.AssignLabels | src/preprocessor.py:72-73 | assigning an existing label keeps the labels, and a new label is appended at the end |
| Frames.DropLabels | src/preprocessor.py:74 | `drop(errors='ignore')` removes exactly the listed labels, whether or not they were there |
| Frames.DropGet | src/preprocessor.py:110 | dropping leaves every unlisted label reading what it read before |
| Preprocess.NormaliseCells | src/preprocessor.py:82-88 | exactly the blank strings become missing, an all-boolean column becomes 0/1 integers, and nothing else changes |
| Preprocess.CleanPrices | src/preprocessor.py:91-94 | applying the cleaner succeeds exactly when every cell cleans, and then gives each cell's cleaned price |
| Preprocess.PriceStepGet | src/preprocessor.py:90-94 | `prix_dh` is cleaned from `prix` when there is one, else re-cleaned from itself; no other column changes |
| Preprocess.SurfaceStepGet | src/preprocessor.py:96-98 | only the surface column changes, and only when it exists |
| Preprocess.ExtractLocation | src/preprocessor.py:56-74 | called on its own, the split succeeds exactly when the table has a location column or no row; with rows but no location column, assigning the empty lists fails with a length mismatch |
| Preprocess.ExtractLocationGet | src/preprocessor.py:56-74 | zone and city columns hold the split of each location, and the location column is gone |
| Preprocess.ExtractLocationOther | src/preprocessor.py:72-74 | the split leaves every other column as it was |
| Preprocess.FillStepGet | src/preprocessor.py:105-106 | `zone` or `ville` ends with no missing cell, as a column of "Unknown" when the table had none, and no other column changes |
| Preprocess.Impute | src/preprocessor.py:115 | imputing a column fails, with that column's error, exactly when pandas refuses its median: text or a float beside a boolean with no integer present, or text `float()` rejects; a column of numbers and missing cells never fails |
| Preprocess.ToNumberKeeps | src/preprocessor.py:115 | `to_numeric` keeps the value of a cell that reads as a number, as an integer or a float, and leaves integers and floats alone |
| Preprocess.ImputeMixedInteger | src/preprocessor.py:115 | an integer beside numeric text and a missing cell (`[1, "3", None]`) has a median, so imputation succeeds |
| Preprocess.ImputeFloatFlag | src/preprocessor.py:115 | a float beside a boolean with no integer makes imputation fail with the column's error |
| Preprocess.ImputeTextOnly | src/preprocessor.py:115 | a column with text and no integer fails, however numeric the text reads |
| Preprocess.ImputeCells | src/preprocessor.py:115 | when the median is defined, present cells keep their value as an integer or a float (integers and floats unchanged), missing ones take the median of the present numbers, and a column with none is unchanged |
| Preprocess.ImputeBounds | src/preprocessor.py:115 | a filled-in value lies between the least and the greatest number of the column |
| Preprocess.ImputeAllGet | src/preprocessor.py:113-115 | each listed column that is present is imputed, and an absent one is not created |
| Preprocess.ImputeAllOther | src/preprocessor.py:113-115 | unlisted columns are untouched |
| Preprocess.ImputeAllFails | src/preprocessor.py:113-115 | the pass fails exactly when a listed present column has no median, naming one of the listed columns |
| Preprocess.NumericKept | configs/config.py:70-77 | the numeric columns are distinct and none of them is in the drop list |
| Preprocess.CleanedSucceeds | src/preprocessor.py:80-110 | before imputation only the price step can fail, only with an unreadable run, and the table keeps its shape and height |
| Preprocess.CleanedPrice | src/preprocessor.py:90-94 | `prix_dh` after cleaning holds the cleaned prices of its source column, and cleaning fails exactly when that source does not clean |
| Preprocess.CleanedSurface | src/preprocessor.py:96-98 | the surface after cleaning holds the digits of each normalised cell |
| Preprocess.CleanedOther | src/preprocessor.py:80-110 | a column no step names holds its normalised cells after cleaning |
| Preprocess.CleanedPlace | src/preprocessor.py:100-106 | zone and city come from the location when there is one, else from their own column with missing cells filled, else "Unknown"; the location column is gone |
| Preprocess.CleanedPlaceFilled | src/preprocessor.py:104-106 | after cleaning, zone and city have one cell per row and none missing |
| Preprocess.PreprocessPlaces | src/preprocessor.py:104-106 | after `preprocess`, zone and city are present, full height and never missing |
| Preprocess.PreprocessDropped | src/preprocessor.py:108-110 | after `preprocess`, no drop-list column and no location column is left |
| Preprocess.PreprocessNumeric | src/preprocessor.py:112-115 | a numeric column is present afterwards exactly when it was before, and it is the median imputation of its normalised cells |
| Preprocess.PreprocessSurface | src/preprocessor.py:96-115 | the surface is present exactly when it was before; it holds the digits of every cell with missing ones imputed, and its median is always defined |
| Preprocess.PreprocessPrice | src/preprocessor.py:90-94 | `prix_dh` afterwards holds the cleaned prices of `prix`, else of the existing `prix_dh`, and is absent when the table had neither |
| Preprocess.PreprocessOther | src/preprocessor.py:80-118 | every other column comes out with booleans as integers and blanks as missing, and otherwise unchanged |
| Preprocess.PreprocessFails | src/preprocessor.py:76-118 | `preprocess` raises exactly when a price run cannot be read or the median of a numeric column is refused, with one of those two errors |
| Encoder.CoerceBoolsCells | src/preprocessor.py:127-134 | a column whose present values are all boolean-like becomes 1.0 at the spellings of true, 0.0 at the others, and stays missing where it was; any other column is untouched |
| Encoder.CoerceBoolsIdempotent | src/preprocessor.py:127-134 | coercing twice is coercing once |
| Encoder.FillZeroTwice | src/preprocessor.py:141 | filling missing cells with 0 twice is filling once |
| Encoder.FillNumericGet | src/preprocessor.py:137-141 | every numeric column exists afterwards, with 0 in each missing cell or as a new column of 0; other columns are as they were |
| Encoder.DetachGet | src/preprocessor.py:144-147 | `prix_dh` is removed from the table and handed back whole; nothing else changes |
| Encoder.PrepareGet | src/preprocessor.py:124-147 | the table both modes start from: booleans coerced, numeric columns filled or created, the price detached and handed back coerced |
| Encoder.PrepareLayout | src/preprocessor.py:124-147 | preparation keeps the shape, the height and the categorical columns, and holds every numeric column |
| Encoder.ColumnsApart | configs/config.py:77-78 | the numeric and categorical lists are duplicate-free, disjoint, and apart from `prix_dh` |
| Encoder.Select | src/preprocessor.py:152 | `df[CATEGORICAL_COLUMNS]` succeeds exactly when every listed column is present, and gives those columns in list order |
| Encoder.Categories | src/preprocessor.py:151-152 | the learned categories of a column are values of the column, no two of them equal as Python set elements (`1`, `1.0` and `True` are one), and every value of the column equals one of them |
| Encoder.CategoriesMerge | src/preprocessor.py:151-152 | `1`, `1.0` and `True` in one column give a single category, kept apart from the string `"1"` |
| Encoder.OneHot | src/preprocessor.py:150-163 | a row whose value equals a category has a 1 in exactly that category's indicator and 0 in the others; a value equal to no category has 0 in every indicator (`handle_unknown='ignore'`) |
| Encoder.FitOneHot | src/preprocessor.py:150-152 | every value of a column equals one of the categories learned from it, so each row at fit time sets an indicator |
| Encoder.EncodeGet | src/preprocessor.py:164 | appending the indicator columns, all named `ville_…` or `zone_…`, leaves every label not starting with `v` or `z` reading as before |
| Encoder.EncodeKeeps | src/preprocessor.py:164 | appending full-height indicator columns keeps the table shaped and every existing label reading as before |
| Encoder.Numbers | src/preprocessor.py:169-170 | a column reads as numbers exactly when every cell converts, and then gives each cell's value |
| Encoder.ApplyInverse | src/preprocessor.py:168-177 | standardising can be undone: the mean plus the scale times the standardised value gives the value back |
| Encoder.FittedSumZero | src/preprocessor.py:168-171 | the standardised values of a fitted column sum to zero |
| Encoder.FitAffineScale | src/preprocessor.py:168-171 | the fitted scale is positive; a constant column gets scale 1 and standardises to zeros, any other its standard deviation |
| Encoder.FitScalerGet | src/preprocessor.py:168-171 | the scaler learns, per numeric column, the mean and deviation of that column's numbers |
| Encoder.FitScalerSucceeds | src/preprocessor.py:168-171 | the scaler fits exactly when every listed column reads as numbers and has a row |
| Encoder.ScaleWithGet | src/preprocessor.py:169-177 | each listed column is replaced by its standardised values |
| Encoder.ScaleWithOther | src/preprocessor.py:169-177 | scaling leaves unlisted columns alone |
| Encoder.ScaleWithLabels | src/preprocessor.py:169-177 | scaling keeps the labels, the height and the shape |
| Encoder.ScaleWithSucceeds | src/preprocessor.py:169-177 | scaling fails exactly when a listed column does not read as numbers |
| Encoder.Reindex | src/preprocessor.py:186 | a reindexed table carries exactly the listed labels and keeps its height; a listed label the table lacks becomes a column of 0, and under distinct labels a present one keeps its cells; it fails, with the repeated-label error, exactly when the labels repeat and differ from the list |
| Encoder.EncodeFitSucceeds | src/preprocessor.py:149-164 | the fit's one-hot step fails on a missing `ville`, then a missing `zone`, then an empty table, then a `ville` and then a `zone` that mixes strings with numbers, and otherwise succeeds |
| Encoder.EncodeFitWith | src/preprocessor.py:149-164 | a successful fit learns one category list per categorical column, and encoding the same table with those lists gives the fit's own output |
| Encoder.EncodeFitLayout | src/preprocessor.py:149-164 | the one-hot step keeps the height, the shape, `prix_dh` and both categorical columns |
| Encoder.EncodeFitNumeric | src/preprocessor.py:164 | the encoded table reads every numeric column as prepared |
| Encoder.EncodeWithNumeric | src/preprocessor.py:156-164 | the transform's one-hot step keeps every numeric column as prepared |
| Encoder.EncodeNumeric | src/preprocessor.py:164 | indicator columns never replace a numeric column |
| Encoder.ScaleFitSucceeds | src/preprocessor.py:166-171 | the fit's scaling step succeeds exactly when every numeric column reads as numbers |
| Encoder.ScaleFitColumn | src/preprocessor.py:166-171 | each numeric column's learned map is its own mean and deviation, and its output is the column standardised by that map |
| Encoder.ScaleFitLayout | src/preprocessor.py:166-180 | after scaling, the categorical columns are dropped, `prix_dh` is kept, and the height and shape are kept |
| Encoder.FitSucceeds | src/preprocessor.py:120-189 | the fit succeeds exactly when both categorical columns are present, the table has a row, neither categorical column mixes strings with numbers, and every numeric column reads as numbers; otherwise it fails with the first failing check's error |
| Encoder.FitLayout | src/preprocessor.py:120-189 | the fitted table is as tall as the input, has no price or categorical column, and its labels are the recorded feature list; the price comes back separately |
| Encoder.FitStandardised | src/preprocessor.py:166-171 | every numeric output column is its prepared input standardised by the map the fit records, and it sums to zero |
| Encoder.FitTransform | src/preprocessor.py:120-189 | transforming the fitted table with the learned state reproduces the fit's output exactly |
| Encoder.TransformPreparedLayout | src/preprocessor.py:156-186 | a transformed table carries exactly the recorded feature labels and keeps the height; a feature the prepared table lacks, and that cannot be an indicator's name, is a column of 0 |
| Encoder.TransformLayout | src/preprocessor.py:124-189 | a transform keeps the input's height, produces the recorded feature columns in order and returns the input's coerced price; a non-numeric feature missing from the input, and that cannot be an indicator's name, is zero-filled |
| Encoder.TransformErrors | src/preprocessor.py:153-177 | a transform refuses, in this order: an unfitted encoder, a missing `ville` or `zone`, an empty table, an unfitted scaler |
| Predictor.LoadModels | src/models.py:25-38 | loading either yields at least one model or fails with the no-model error |
| Predictor.LoadedFrom | src/models.py:29-32 | every loaded model comes from a registry entry whose artifact loaded, and runs what that artifact holds |
| Predictor.LoadedAll | src/models.py:29-35 | every registry entry whose artifact loads is among the loaded models |
| Predictor.LoadedOrder | src/models.py:29-32 | the loaded models keep the registry's order |
| Predictor.LoadModelsFails | src/models.py:37-38 | loading fails exactly when no artifact of the registry loads |
| Predictor.PredictEntry | src/models.py:46-53 | each entry is keyed `prix_predit_<name>` and holds that model's predictions, or one missing value per row when the model raised |
| Predictor.PredictKeys | src/models.py:49 | models with distinct names give distinct keys |
| Predictor.PredictEnsemble | src/models.py:57-69 | the ensemble succeeds exactly when every model predicts a broadcastable result; each row is then the weighted sum of the models' predictions, and otherwise the first misfit's error is reported |
| Predictor.WeightedUniform | src/models.py:59-67 | weights are not renormalised: equal weights `c` give `c` times the sum of the predictions |
| Predictor.EnsembleDefaultMean | src/models.py:59-60 | without weights the ensemble is the mean of the models' predictions |
| Predictor.EnsembleWeights | src/models.py:65 | a model without a weight gets `1/n`, and weights naming no loaded model have no effect |
| Predictor.Collect | src/models.py:75-77 | collecting succeeds exactly when every model predicts, and gives each model's predictions in order |
| Predictor.CollectFails | src/models.py:75-77 | the first raising model stops the collection with its own error |
| Predictor.ConfidenceSucceeds | src/models.py:71-87 | the band is built exactly when every model predicts, all of the same length; otherwise the first raising model's error is reported, and when every model predicts but the lengths differ, the shape error |
| Predictor.ConfidenceRow | src/models.py:80-86 | each row's centre is the mean of the models' predictions, and the bounds lie 1.96 standard deviations below and above it |
| Predictor.ConfidenceBand | src/models.py:80-86 | with a square root, lower ≤ centre ≤ upper on every row |
| Predictor.ConfidenceAgree | src/models.py:80-86 | when all models agree on a row, the band closes on their common value |
| Predictor.ConfidenceIsEnsemble | src/models.py:57-87 | the band's centre equals the ensemble with default weights |
| Output.KnownPriceSource | src/sheets_handler.py:105-109 | `prix_reel` is the given price, else the input's `prix_dh`, else its `prix`, else one `None` per input row |
| Output.AddPredictionsSucceeds | src/sheets_handler.py:111-113 | adding the predictions succeeds exactly when each has one value per row |
| Output.AddPredictionsLabels | src/sheets_handler.py:111-113 | with fresh, distinct keys each prediction adds one column at the end, in order |
| Output.AddPredictionsGet | src/sheets_handler.py:111-113 | each prediction column holds its values, and every other column is unchanged |
| Output.AddContextLabels | src/sheets_handler.py:115-118 | the context columns the input has are appended in their fixed order |
| Output.AddContextGet | src/sheets_handler.py:115-118 | a copied context column holds the input's column aligned to the output rows; nothing else changes |
| Output.OutputSucceeds | src/sheets_handler.py:101-120 | the output is built exactly when every prediction has one value per known price, and it is then shaped and as tall as the known price |
| Output.OutputLabels | src/sheets_handler.py:101-120 | `prix_reel` always comes first; with distinct keys the columns are exactly `prix_reel`, the prediction keys in order, and the present context columns in order |
| Output.OutputColumns | src/sheets_handler.py:101-120 | each output column holds its source: the known price, a prediction's values, or the aligned input column; an absent context column stays absent |
| Output.OutputOfPredict | src/sheets_handler.py:111-113 | writing out what `predict` returned succeeds exactly when every model that predicted gave one value per listing |

## Left out

- Logging, `ensure_directory` and `get_logger` are left out: they have no effect on the data.
- The scraper, the spreadsheet reads and writes, and the scripts are left out: they are I/O.
- `save_transformers` and `load_transformers` are left out: they are `joblib` I/O. The transformer state is a value (`Encoder.State`) passed from `Fit` to `Transform`.
- `ModelEvaluator` is outside the modelled core.
- Trained models are opaque: a model is a function from the feature table to its predictions, or `None` where it raises. `joblib.load` is the parameter `load` of `Predictor.LoadModels`.
- Predictions are taken to be one-dimensional. `flatten()` of a multi-output model is not modelled.
- Floats are exact reals. There is no float64 rounding, no `inf`, and no `nan` arithmetic.
- `float()` accepts only positional decimal literals. Exponents, `inf`, `nan` and underscores are not modelled.
- `int()` accepts only an optional sign and ASCII digits. Python also accepts underscores between digits (`int("1_0") == 10`), so `is_valid_rooms` returns True on such text where `Utils.IsValidRooms` is false.
- `\d`, `int()` and `float()` accept only the ASCII digits `0`-`9`. Python also accepts other Unicode decimal digits. Whitespace (`\s`, `isspace()`, `strip()`) is Python's full Unicode whitespace set.
- `str()` of a float is written positionally with up to 17 fraction digits. Python's shortest round-trip text and its exponent form for very large and very small values are not modelled.
- Cells.FloatTextWhole: a whole-valued float prints as Python prints it only below 10^16. From 10^16 on, Python uses the exponent form (`1e+16`), which is not modelled.
- Encoder.Categories keeps a column's categories in order of first appearance, where scikit-learn sorts them. The indicator columns therefore come in a different order. Where equal numbers are spelled differently (`1` and `1.0`), the category and its indicator name use the first spelling. pandas would store such a column as float64 and name the indicator after `1.0`.
- Preprocess.Impute: pandas dtypes are not modelled. Coerced text becomes a float cell and a coerced boolean an integer cell, whatever dtype pandas gives the whole column.
- Encoder.FitAffine treats only an exactly zero deviation as constant. scikit-learn also treats deviations within a few machine epsilons as zero, which exact reals do not need.
- The square root is the parameter `root`. The lemmas that use it require only what a square root guarantees at zero and on positive values.
- pandas dtypes are not modelled. The columns created by `fillna(0)` or `reindex(fill_value=0)` hold integer zeros. The indicators are integers, as after `astype(int)`.
- Reading a repeated label gives its first column. pandas gives a sub-table in that case. Assigning to a repeated label replaces its first column only. pandas replaces every one.
- Encoder.Reindex on a table with repeated labels fails unless the labels already equal the feature list. That is when pandas raises.
- Encoder.TransformLayout: the zero-fill is stated for features that start with neither `v` nor `z`, a sufficient condition for no indicator (`ville_…`, `zone_…`) to carry the name. A present feature's contents follow from `Encoder.Reindex` under distinct labels, but are not restated for the whole transform.
- Encoder.Fit and Encoder.Transform return the new state instead of mutating the preprocessor. A failure leaves no partial state behind. In Python, a fit that fails after the encoder was fitted keeps the new encoder.
- Encoder.Transform: requires that a recorded scaler has no zero scale. Every scaler `Fit` produces satisfies this (`Encoder.FitTransform`).
- Encoder.FitSucceeds: requires a shaped table, with every column as tall as the table. Every pandas frame is shaped.
- Encoder.ScaleFitSucceeds: requires every numeric column to have at least one cell. `EncodeFitSucceeds` shows the fit fails earlier on an empty table.
- Preprocess lemmas about whole tables: these require a shaped table, for the same reason.
- Predictor.LoadModels models loading on a fresh predictor only. Calling `load_models` again would keep the models already loaded.
- Predictor.PredictEnsemble: requires at least one model. With no model, Python returns zeros, but `__init__` raises before a predictor without models exists.
- Predictor.PredictWithConfidence: requires at least one model, for the same reason. Predictions of unequal lengths cannot be stacked, so they give a shape error.
- Numpy broadcasting in `predict_ensemble` is modelled for the two shapes that can occur: one value per row, or a single value. Any other length is a shape error.
- Preprocess.FillStep: the default `Unknown` column for a missing `zone` or `ville` is aligned with the rows by position. On a table whose index is not the default one, pandas would realign it by label and fill it with `NaN`, which is not modelled.
- Output.Align: in `prepare_output`, input columns are aligned with the output rows by position, as pandas does with two default indexes. A `price_real` series with another index, which pandas would realign by label, is not modelled.
- Output.OutputLabels: the full column list is stated for prediction keys that are distinct and differ from `prix_reel` and the context names. `predict`'s keys `prix_predit_<name>` always are.
- Output.OutputColumns: same condition as `Output.OutputLabels`.

=== FILE: cells.dfy ===
/** A table cell: the untyped scalar a pandas frame holds for one listing field,
    with the conversions Python applies to it (`str()`, `float()`, `int()`). */
module Cells {
  import opened Wrappers
  import opened Text

  /** `Missing` is `None` / `NaN`; `Int` a Python or numpy integer; `Float` a
      finite float; `Flag` a boolean. */
  datatype Cell = Missing | Text(s: string) | Int(i: int) | Float(x: real) | Flag(b: bool)

  /** Up to `fuel` decimal digits of a fraction `0 <= f < 1`, stopping once it is exhausted. */
  function FracDigits(f: real, fuel: nat): (s: string)
    requires 0.0 <= f < 1.0
    ensures AllDigits(s)
    decreases fuel
  {
    if f == 0.0 || fuel == 0 then ""
    else
      var d := (f * 10.0).Floor;
      [DigitChar(d)] + FracDigits(f * 10.0 - d as real, fuel - 1)
  }

  /** Python's `str()` of a float in positional notation: the whole part, a
      point, and the fraction digits (a lone `0` when there are none). */
  function FloatText(x: real): string {
    var a := if x < 0.0 then -x else x;
    var frac := FracDigits(a - a.Floor as real, 17);
    (if x < 0.0 then "-" else "") + NatText(a.Floor) + "." + (if frac == "" then "0" else frac)
  }

  /** A whole-valued float prints as its integer followed by `.0`. */
  lemma FloatTextWhole(n: int)
    ensures FloatText(n as real) == IntText(n) + ".0"
  {
    var x := n as real;
    var a := if x < 0.0 then -x else x;
    assert a.Floor == (if n < 0 then -n else n);
    assert FracDigits(a - a.Floor as real, 17) == "";
  }

  /** Python's `str(value)`. */
  function Str(c: Cell): string {
    match c
    case Missing => "nan"
    case Text(s) => s
    case Int(i) => IntText(i)
    case Float(x) => FloatText(x)
    case Flag(b) => if b then "True" else "False"
  }

  /** Python's `float(value)` / numpy's conversion to float64; `None` where it raises. */
  function NumericValue(c: Cell): (r: Option<real>)
    ensures c.Int? ==> r == Some(c.i as real)
    ensures c.Float? ==> r == Some(c.x)
    ensures c.Missing? ==> r.None?
  {
    match c
    case Missing => None
    case Text(s) => ParseDecimal(s)
    case Int(i) => Some(i as real)
    case Float(x) => Some(x)
    case Flag(b) => Some(if b then 1.0 else 0.0)
  }

  /** `float(str(v))` reads back the number of an integer and of a whole float. */
  lemma NumericOfStr(i: int)
    ensures NumericValue(Text(Str(Int(i)))) == NumericValue(Int(i))
    ensures NumericValue(Text(Str(Float(i as real)))) == NumericValue(Float(i as real))
  {
    ParseDecimalInt(i);
    FloatTextWhole(i);
    WholeTextValue(i);
  }

  /** A boolean counts as 1 or 0, yet its text "True" or "False" is no number. */
  lemma NumericFlag(b: bool)
    ensures NumericValue(Flag(b)) == NumericValue(Int(if b then 1 else 0))
    ensures NumericValue(Text(Str(Flag(b)))).None?
  {
    var s := Str(Flag(b));
    assert forall i :: 0 <= i < |s| ==> !IsDigit(s[i]);
  }

  /** The strings pandas' `replace` turns into missing: empty or up to four spaces. */
  predicate IsBlank(c: Cell) {
    c.Text? && c.s in {"", " ", "  ", "   ", "    "}
  }

  /** Python's truth value of the cell (`NaN` is truthy). */
  predicate Truthy(c: Cell) {
    match c
    case Missing => true
    case Text(s) => s != ""
    case Int(i) => i != 0
    case Float(x) => x != 0.0
    case Flag(b) => b
  }
}

=== FILE: config.dfy ===
/** The fixed configuration of configs/config.py the core depends on. */
module Config {

  /** Columns imputed and standardised as numbers. */
  const NumericalColumns: seq<string> := ["surface", "pi\U{E8}ces", "chambres", "salles_de_bain"]

  /** Columns one-hot encoded, in encoder feature order. */
  const CategoricalColumns: seq<string> := ["ville", "zone"]

  /** Columns that must never reach the model. */
  const ColumnsToDrop: seq<string> := [
    "titre", "url", "prix", "type de bien", "\U{E9}tage du bien", "Porte blind\U{E9}e",
    "Jardin", "R\U{E9}frig\U{E9}rateur", "Four", "type_bien", "Machine \U{E0} laver",
    "Fa\U{E7}ade ext\U{E9}rieure", "Antenne parabolique", "Salon Marocain", "Meubl\U{E9}"
  ]

  /** The model registry: name and artifact file, in registry order. */
  const Models: seq<(string, string)> := [
    ("Linear_Regression", "modele_Linear_Regression.pkl"),
    ("Random_Forest", "modele_Random_Forest.pkl"),
    ("Gradient_Boosting", "modele_Gradient_Boosting.pkl"),
    ("SVR", "modele_SVR.pkl")
  ]

  /** Default validation bounds of the row validator. */
  const PriceMin: real := 10000.0
  const PriceMax: real := 100000000.0
  const SurfaceMin: real := 10.0
  const SurfaceMax: real := 10000.0

  /** Euro to dirham rate applied by the price cleaner. */
  const EurRate: real := 10.5
}

=== FILE: encoder.dfy ===
/** `DataPreprocessor.encode_and_scale`, split into its two modes: `Fit`
    (`fit=True`) learns the transformer state — the encoder's categories, the
    scaler's per-column statistics and the feature column list — and `Transform`
    (`fit=False`) applies a state without changing it. Both return the model
    table and the detached `prix_dh` column. */
module Encoder {
  import opened Wrappers
  import opened Errors
  import opened Cells
  import opened Frames
  import Config
  import Stats

  /** The scaler's learned map for one column: `x ↦ (x - mean) / scale`. */
  datatype Affine = Affine(mean: real, scale: real)

  /** The transformer state `(encoder, scaler, features_columns)`; `None` is an
      attribute still unset. The encoder is a category list per categorical
      column, the scaler an affine map per numeric column. */
  datatype State = State(
    encoder: Option<seq<seq<Cell>>>,
    scaler: Option<seq<Affine>>,
    features: Option<seq<string>>)

  /** The model table and the ground truth detached from it (`prix_reel`). */
  datatype Encoded = Encoded(table: Frame, price: Option<seq<Cell>>)

  // ---------------------------------------------------------------------------
  // Boolean coercion

  /** A value of the set `{"TRUE", "FALSE", "True", "False", 1, 0, True,
      False}` under Python equality (so `1.0` and `0.0` too), or missing, which
      `dropna` sets aside. */
  predicate BoolLike(c: Cell) {
    match c
    case Missing => true
    case Text(s) => s == "TRUE" || s == "FALSE" || s == "True" || s == "False"
    case Int(i) => i == 0 || i == 1
    case Float(x) => x == 0.0 || x == 1.0
    case Flag(_) => true
  }

  predicate Boolean(cells: seq<Cell>) {
    forall i :: 0 <= i < |cells| ==> BoolLike(cells[i])
  }

  /** The mapping dictionary followed by `astype(float)`. */
  function BoolValue(c: Cell): (r: Cell)
    requires BoolLike(c)
  {
    match c
    case Missing => Missing
    case Text(s) => Float(if s == "TRUE" || s == "True" then 1.0 else 0.0)
    case Int(i) => Float(if i == 1 then 1.0 else 0.0)
    case Float(x) => Float(x)
    case Flag(b) => Float(if b then 1.0 else 0.0)
  }

  /** One column of the boolean loop: mapped when every present value is
      boolean-like, left alone otherwise. */
  function CoerceBools(cells: seq<Cell>): (r: seq<Cell>)
    ensures |r| == |cells|
  {
    if Boolean(cells) then seq(|cells|, i requires 0 <= i < |cells| => BoolValue(cells[i])) else cells
  }

  // ---------------------------------------------------------------------------
  // Numeric columns and the detached price

  function ZeroCell(c: Cell): Cell {
    if c.Missing? then Int(0) else c
  }

  /** `fillna(0)`. */
  function FillZero(cells: seq<Cell>): (r: seq<Cell>)
    ensures |r| == |cells| && forall i :: 0 <= i < |cells| ==> r[i] == ZeroCell(cells[i])
  {
    seq(|cells|, i requires 0 <= i < |cells| => ZeroCell(cells[i]))
  }

  /** Every listed column filled with 0, or created as a column of 0. */
  function FillNumeric(f: Frame, names: seq<string>): Frame
    decreases |names|
  {
    if names == [] then f
    else FillNumeric(Assign(f, names[0], FillZero(Get(f, names[0]).GetOr(Fill(f.height, Int(0))))), names[1..])
  }

  /** `prix_dh` taken out of the table and returned on its own. */
  function Detach(f: Frame): (Frame, Option<seq<Cell>>) {
    if Has(f, "prix_dh") then (Drop(f, ["prix_dh"]), Get(f, "prix_dh")) else (f, None)
  }

  /** Steps shared by both modes: booleans, numeric columns, price. */
  function Prepare(f: Frame): (Frame, Option<seq<Cell>>) {
    Detach(FillNumeric(MapColumns(f, CoerceBools), Config.NumericalColumns))
  }

  // ---------------------------------------------------------------------------
  // One-hot encoding

  /** `df[names]`: the listed columns, `KeyError` on the first absent one. */
  function Select(f: Frame, names: seq<string>): (r: Result<seq<seq<Cell>>, Exc>)
    ensures r.Success? <==> forall k :: 0 <= k < |names| ==> Has(f, names[k])
    ensures r.Success? ==> |r.value| == |names| && forall k :: 0 <= k < |names| ==> r.value[k] == Get(f, names[k]).value
  {
    if names == [] then Success([])
    else if !Has(f, names[0]) then Failure(MissingColumn(names[0]))
    else
      var rest :- Select(f, names[1..]);
      Success([Get(f, names[0]).value] + rest)
  }

  /** The value Python's hashing identifies a cell by: `1`, `1.0` and `True`
      are one set element and one dictionary key. */
  function Key(c: Cell): Cell {
    match c
    case Int(i) => Float(i as real)
    case Flag(b) => Float(if b then 1.0 else 0.0)
    case _ => c
  }

  /** Some category stands for the value. */
  predicate Known(cats: seq<Cell>, c: Cell) {
    exists j :: 0 <= j < |cats| && Key(cats[j]) == Key(c)
  }

  /** No two categories stand for the same value. */
  predicate DistinctKeys(cats: seq<Cell>) {
    forall j, l :: 0 <= j < l < |cats| ==> Key(cats[j]) != Key(cats[l])
  }

  /** The categories an encoder learns from one column: one per value up to
      Python's equality, spelled as the value first appears, in order of
      first appearance. */
  function Categories(cells: seq<Cell>): (r: seq<Cell>)
    ensures DistinctKeys(r)
    ensures forall c :: c in r ==> c in cells
    ensures forall i :: 0 <= i < |cells| ==> Known(r, cells[i])
  {
    if cells == [] then []
    else
      var init := cells[..|cells| - 1];
      var r := Categories(init);
      var c := cells[|cells| - 1];
      assert cells == init + [c];
      assert forall i :: 0 <= i < |init| ==> cells[i] == init[i];
      if Known(r, c) then r
      else
        assert forall i :: 0 <= i < |cells| ==> Known(r + [c], cells[i]) by {
          forall i | 0 <= i < |cells| ensures Known(r + [c], cells[i]) {
            KnownAppend(r, c, cells[i]);
          }
        }
        r + [c]
  }

  lemma KnownAppend(cats: seq<Cell>, c: Cell, x: Cell)
    requires Known(cats, x) || x == c
    ensures Known(cats + [c], x)
  {
    if x == c {
      assert (cats + [c])[|cats|] == c;
    } else {
      var j :| 0 <= j < |cats| && Key(cats[j]) == Key(x);
      assert (cats + [c])[j] == cats[j];
    }
  }

  /** The column's present values mix strings with numbers or booleans, which
      the encoder's `sorted(set(values))` cannot compare. */
  predicate MixedTypes(cells: seq<Cell>) {
    (exists i :: 0 <= i < |cells| && cells[i].Text?) &&
    (exists j :: 0 <= j < |cells| && (cells[j].Int? || cells[j].Float? || cells[j].Flag?))
  }

  /** The named column of the table mixes strings with numbers. */
  predicate MixedColumn(g: Frame, name: string) {
    MixedTypes(Get(g, name).GetOr([]))
  }

  /** The first listed column whose values are mixed, in encoder order. */
  function FirstMixed(names: seq<string>, cols: seq<seq<Cell>>): (r: Option<string>)
    requires |cols| == |names|
    ensures r.None? <==> forall k :: 0 <= k < |cols| ==> !MixedTypes(cols[k])
    ensures r.Some? ==> |names| > 0 && (if MixedTypes(cols[0]) then r.value == names[0] else r == FirstMixed(names[1..], cols[1..]))
  {
    if names == [] then None
    else if MixedTypes(cols[0]) then Some(names[0])
    else
      var r := FirstMixed(names[1..], cols[1..]);
      assert forall k :: 1 <= k < |cols| ==> cols[k] == cols[1..][k - 1];
      r
  }

  /** `get_feature_names_out`: the column name, `_`, and `str()` of the category. */
  function FeatureName(col: string, cat: Cell): string {
    col + "_" + Str(cat)
  }

  /** The indicator of one category: 1 on the rows holding a value equal to
      it, else 0. */
  function Indicator(cells: seq<Cell>, cat: Cell): (r: seq<Cell>)
    ensures |r| == |cells|
    ensures forall i :: 0 <= i < |cells| ==> r[i] == Int(if Key(cells[i]) == Key(cat) then 1 else 0)
  {
    seq(|cells|, i requires 0 <= i < |cells| => Int(if Key(cells[i]) == Key(cat) then 1 else 0))
  }

  /** The indicator columns of one categorical column, one per category. */
  function EncodeField(col: string, cats: seq<Cell>, cells: seq<Cell>): (r: seq<Column>)
    ensures |r| == |cats|
    ensures forall j :: 0 <= j < |cats| ==> r[j] == Column(FeatureName(col, cats[j]), Indicator(cells, cats[j]))
  {
    seq(|cats|, j requires 0 <= j < |cats| => Column(FeatureName(col, cats[j]), Indicator(cells, cats[j])))
  }

  /** All indicator columns, field after field. */
  function EncodeAll(names: seq<string>, cats: seq<seq<Cell>>, cols: seq<seq<Cell>>): seq<Column>
    requires |cats| == |names| && |cols| == |names|
  {
    if names == [] then []
    else EncodeField(names[0], cats[0], cols[0]) + EncodeAll(names[1..], cats[1..], cols[1..])
  }

  /** `pd.concat([df, encoded], axis=1)`: the indicator columns appended. */
  function Encode(f: Frame, cats: seq<seq<Cell>>, cols: seq<seq<Cell>>): Frame
    requires |cats| == |Config.CategoricalColumns| && |cols| == |Config.CategoricalColumns|
  {
    Frame(f.height, f.cols + EncodeAll(Config.CategoricalColumns, cats, cols))
  }

  // ---------------------------------------------------------------------------
  // Standardisation

  /** The column as numbers; text `float()` rejects makes it fail. */
  function Numbers(name: string, cells: seq<Cell>): (r: Result<seq<real>, Exc>)
    ensures r.Success? <==> forall i :: 0 <= i < |cells| ==> NumericValue(cells[i]).Some?
    ensures r.Success? ==> |r.value| == |cells|
    ensures r.Success? ==> forall i :: 0 <= i < |cells| ==> r.value[i] == NumericValue(cells[i]).value
    ensures r.Failure? ==> r.error == NotNumeric(name)
  {
    if cells == [] then Success([])
    else
      if NumericValue(cells[0]).None? then Failure(NotNumeric(name))
      else
        var rest :- Numbers(name, cells[1..]);
        assert forall i :: 1 <= i < |cells| ==> cells[i] == cells[1..][i - 1];
        Success([NumericValue(cells[0]).value] + rest)
  }

  /** `StandardScaler.fit` on one column: the mean and the population standard
      deviation, with 1 in place of a zero deviation. */
  function FitAffine(xs: seq<real>, root: real -> real): Affine
    requires |xs| > 0
  {
    var sd := Stats.Std(xs, root);
    Affine(Stats.Mean(xs), if sd == 0.0 then 1.0 else sd)
  }

  function Apply(a: Affine, x: real): real
    requires a.scale != 0.0
  {
    (x - a.mean) / a.scale
  }

  /** A scaler a fit can produce: no scale is zero. */
  predicate ScalesNonZero(stats: seq<Affine>) {
    forall k :: 0 <= k < |stats| ==> stats[k].scale != 0.0
  }

  /** The standardised cells of one column. */
  function ScaleCells(a: Affine, xs: seq<real>): (r: seq<Cell>)
    requires a.scale != 0.0
    ensures |r| == |xs| && forall i :: 0 <= i < |xs| ==> r[i] == Float(Apply(a, xs[i]))
  {
    seq(|xs|, i requires 0 <= i < |xs| => Float(Apply(a, xs[i])))
  }

  /** `scaler.fit` on the listed columns. */
  function FitScaler(f: Frame, names: seq<string>, root: real -> real): (r: Result<seq<Affine>, Exc>)
    ensures r.Success? ==> |r.value| == |names| && ScalesNonZero(r.value)
  {
    if names == [] then Success([])
    else
      var xs :- Numbers(names[0], Get(f, names[0]).GetOr([]));
      if |xs| == 0 then Failure(EmptyInput)
      else
        var rest :- FitScaler(f, names[1..], root);
        Success([FitAffine(xs, root)] + rest)
  }

  /** `df[names] = scaler.transform(df[names])`. */
  function ScaleWith(f: Frame, names: seq<string>, stats: seq<Affine>): Result<Frame, Exc>
    requires |stats| == |names| && ScalesNonZero(stats)
    decreases |names|
  {
    if names == [] then Success(f)
    else
      var xs :- Numbers(names[0], Get(f, names[0]).GetOr([]));
      ScaleWith(Assign(f, names[0], ScaleCells(stats[0], xs)), names[1..], stats[1..])
  }

  // ---------------------------------------------------------------------------
  // Reindexing

  /** `reindex(columns=names, fill_value=0)`: the table itself when its labels
      are already the list; an error on repeated labels; otherwise each listed
      label reads its column, or a column of 0 when there is none. */
  function Reindex(f: Frame, names: seq<string>): (r: Result<Frame, Exc>)
    ensures r.Success? ==> Labels(r.value) == names && r.value.height == f.height
    ensures r.Success? && Distinct(Labels(f)) ==>
              forall k :: 0 <= k < |names| ==> r.value.cols[k].cells == Get(f, names[k]).GetOr(Fill(f.height, Int(0)))
    ensures r.Success? ==> forall k :: 0 <= k < |names| && !Has(f, names[k]) ==> r.value.cols[k].cells == Fill(f.height, Int(0))
    ensures r.Failure? <==> Labels(f) != names && !Distinct(Labels(f))
    ensures r.Failure? ==> r.error == DuplicateLabels
  {
    if Labels(f) == names then
      if Distinct(Labels(f)) then
        forall k | 0 <= k < |names| ensures f.cols[k].cells == Get(f, names[k]).GetOr(Fill(f.height, Int(0))) {
          GetDistinct(f, k);
        }
        Success(f)
      else Success(f)
    else if !Distinct(Labels(f)) then Failure(DuplicateLabels)
    else
      var cols := seq(|names|, k requires 0 <= k < |names| => Column(names[k], Get(f, names[k]).GetOr(Fill(f.height, Int(0)))));
      assert Names(cols) == names;
      Success(Frame(f.height, cols))
  }

  // ---------------------------------------------------------------------------
  // The two modes

  /** The one-hot step in fit mode: categories learned from the prepared
      table, indicator columns appended. */
  function EncodeFit(g: Frame): (r: Result<(seq<seq<Cell>>, Frame), Exc>)
    ensures r.Success? ==> |r.value.0| == |Config.CategoricalColumns|
  {
    var cols :- Select(g, Config.CategoricalColumns);
    if g.height == 0 then Failure(EmptyInput)
    else
      match FirstMixed(Config.CategoricalColumns, cols)
      case Some(name) => Failure(MixedCategories(name))
      case None =>
        var cats := seq(|cols|, k requires 0 <= k < |cols| => Categories(cols[k]));
        Success((cats, Encode(g, cats, cols)))
  }

  /** The one-hot step in transform mode, with learned categories. */
  function EncodeWith(cats: seq<seq<Cell>>, g: Frame): Result<Frame, Exc> {
    var cols :- Select(g, Config.CategoricalColumns);
    if g.height == 0 then Failure(EmptyInput)
    else if |cats| != |cols| then Failure(FeatureCountMismatch)
    else Success(Encode(g, cats, cols))
  }

  /** The scaling step in fit mode: statistics learned, then applied, then
      the categorical columns dropped. */
  function ScaleFit(e: Frame, root: real -> real): (r: Result<(seq<Affine>, Frame), Exc>)
    ensures r.Success? ==> |r.value.0| == |Config.NumericalColumns| && ScalesNonZero(r.value.0)
  {
    var stats :- FitScaler(e, Config.NumericalColumns, root);
    var s :- ScaleWith(e, Config.NumericalColumns, stats);
    Success((stats, Drop(s, Config.CategoricalColumns)))
  }

  /** `encode_and_scale(df, fit=True)`: the learned state and the encoded table. */
  function Fit(f: Frame, root: real -> real): Result<(State, Encoded), Exc> {
    var (g, price) := Prepare(f);
    var enc :- EncodeFit(g);
    var sc :- ScaleFit(enc.1, root);
    Success((State(Some(enc.0), Some(sc.0), Some(Labels(sc.1))), Encoded(sc.1, price)))
  }

  /** The transform of a prepared table. */
  function TransformPrepared(st: State, g: Frame): Result<Frame, Exc>
    requires st.scaler.Some? ==> ScalesNonZero(st.scaler.value)
  {
    if st.encoder.None? then Failure(NotFitted("Encoder"))
    else
      var e :- EncodeWith(st.encoder.value, g);
      if st.scaler.None? then Failure(NotFitted("Scaler"))
      else if |st.scaler.value| != |Config.NumericalColumns| then Failure(FeatureCountMismatch)
      else
        var s :- ScaleWith(e, Config.NumericalColumns, st.scaler.value);
        var out := Drop(s, Config.CategoricalColumns);
        match st.features
        case None => Success(out)
        case Some(names) => Reindex(out, names)
  }

  /** `encode_and_scale(df, fit=False)`: the state applied, never changed. */
  function Transform(st: State, f: Frame): Result<Encoded, Exc>
    requires st.scaler.Some? ==> ScalesNonZero(st.scaler.value)
  {
    var (g, price) := Prepare(f);
    var t :- TransformPrepared(st, g);
    Success(Encoded(t, price))
  }

  // ---------------------------------------------------------------------------
  // Boolean coercion: what it changes, and that it is idempotent

  /** The spellings of true the mapping sends to 1. */
  predicate TrueLike(c: Cell) {
    c == Text("TRUE") || c == Text("True") || c == Int(1) || c == Float(1.0) || c == Flag(true)
  }

  /** A coerced column holds 0.0, 1.0 or missing, missing exactly where it was,
      and 1.0 exactly at the spellings of true; other columns are untouched. */
  lemma CoerceBoolsCells(cells: seq<Cell>, i: nat)
    requires i < |cells|
    ensures !Boolean(cells) ==> CoerceBools(cells) == cells
    ensures Boolean(cells) ==> (CoerceBools(cells)[i].Missing? <==> cells[i].Missing?)
    ensures Boolean(cells) ==> (CoerceBools(cells)[i] == Float(1.0) <==> TrueLike(cells[i]))
    ensures Boolean(cells) && !cells[i].Missing? && !TrueLike(cells[i]) ==> CoerceBools(cells)[i] == Float(0.0)
  {
  }

  /** Coercing twice is coercing once. */
  lemma CoerceBoolsIdempotent(cells: seq<Cell>)
    ensures CoerceBools(CoerceBools(cells)) == CoerceBools(cells)
  {
    var r := CoerceBools(cells);
    if Boolean(cells) {
      assert Boolean(r) by {
        forall i | 0 <= i < |r| ensures BoolLike(r[i]) {
          assert r[i] == BoolValue(cells[i]);
        }
      }
      forall i | 0 <= i < |r| ensures BoolValue(r[i]) == r[i] {
        assert r[i] == BoolValue(cells[i]);
      }
    }
  }

  // ---------------------------------------------------------------------------
  // Numeric columns and the detached price

  lemma FillZeroTwice(cells: seq<Cell>)
    ensures FillZero(FillZero(cells)) == FillZero(cells)
  {
  }

  /** After the numeric step every listed column exists, with 0 in place of
      each missing cell, and every other column is as it was. */
  lemma {:induction false} FillNumericGet(f: Frame, names: seq<string>, x: string)
    ensures FillNumeric(f, names).height == f.height
    ensures x in names ==> Get(FillNumeric(f, names), x) == Some(FillZero(Get(f, x).GetOr(Fill(f.height, Int(0)))))
    ensures x !in names ==> Get(FillNumeric(f, names), x) == Get(f, x)
    ensures Shaped(f) ==> Shaped(FillNumeric(f, names))
    decreases |names|
  {
    if names != [] {
      var n := names[0];
      var c := FillZero(Get(f, n).GetOr(Fill(f.height, Int(0))));
      var g := Assign(f, n, c);
      AssignGet(f, n, c);
      FillNumericGet(g, names[1..], x);
      if x == n {
        FillZeroTwice(Get(f, n).GetOr(Fill(f.height, Int(0))));
        if x !in names[1..] {
          assert Get(FillNumeric(f, names), x) == Get(g, x);
        }
      } else {
        AssignOther(f, n, c, x);
      }
    }
  }

  /** Detaching removes `prix_dh` and hands back its cells; nothing else changes. */
  lemma DetachGet(f: Frame, x: string)
    ensures !Has(Detach(f).0, "prix_dh")
    ensures Detach(f).1 == Get(f, "prix_dh")
    ensures x != "prix_dh" ==> Get(Detach(f).0, x) == Get(f, x)
    ensures Detach(f).0.height == f.height
    ensures Shaped(f) ==> Shaped(Detach(f).0)
  {
    if Has(f, "prix_dh") {
      DropLabels(f, ["prix_dh"], "prix_dh");
      if Shaped(f) {
        DropShaped(f, ["prix_dh"]);
      }
      if x != "prix_dh" {
        DropGet(f, ["prix_dh"], x);
      }
    }
  }

  /** The column lists are duplicate-free and apart from each other and from `prix_dh`. */
  lemma ColumnsApart()
    ensures Distinct(Config.NumericalColumns) && Distinct(Config.CategoricalColumns)
    ensures "prix_dh" !in Config.NumericalColumns && "prix_dh" !in Config.CategoricalColumns
    ensures forall x :: x in Config.CategoricalColumns ==> x !in Config.NumericalColumns
    ensures forall k :: 0 <= k < |Config.NumericalColumns| ==>
              |Config.NumericalColumns[k]| > 0 && Config.NumericalColumns[k][0] != 'v' && Config.NumericalColumns[k][0] != 'z'
  {
  }

  /** The table both modes start from: booleans coerced, numeric columns filled
      or created, `prix_dh` detached and handed back coerced. */
  lemma PrepareGet(f: Frame, x: string)
    ensures Prepare(f).0.height == f.height
    ensures Shaped(f) ==> Shaped(Prepare(f).0)
    ensures !Has(Prepare(f).0, "prix_dh")
    ensures Prepare(f).1 == if Has(f, "prix_dh") then Some(CoerceBools(Get(f, "prix_dh").value)) else None
    ensures x in Config.NumericalColumns ==>
              Get(Prepare(f).0, x) ==
              Some(FillZero(if Has(f, x) then CoerceBools(Get(f, x).value) else Fill(f.height, Int(0))))
    ensures x !in Config.NumericalColumns && x != "prix_dh" ==>
              Get(Prepare(f).0, x) == if Has(f, x) then Some(CoerceBools(Get(f, x).value)) else None
  {
    var b := MapColumns(f, CoerceBools);
    var n := FillNumeric(b, Config.NumericalColumns);
    GetMapColumns(f, CoerceBools, x);
    GetMapColumns(f, CoerceBools, "prix_dh");
    FillNumericGet(b, Config.NumericalColumns, x);
    FillNumericGet(b, Config.NumericalColumns, "prix_dh");
    ColumnsApart();
    DetachGet(n, x);
    if Shaped(f) {
      assert Shaped(b);
    }
  }

  // ---------------------------------------------------------------------------
  // One-hot encoding

  /** With categories that stand for distinct values, a row holding a known
      value has a 1 in exactly that category's indicator and 0 in all the
      others; a row holding an unseen value has 0 in every indicator of the
      field. */
  lemma OneHot(cats: seq<Cell>, cells: seq<Cell>, i: nat)
    requires DistinctKeys(cats) && i < |cells|
    ensures Known(cats, cells[i]) ==>
              exists j :: 0 <= j < |cats| && Indicator(cells, cats[j])[i] == Int(1) &&
                forall l :: 0 <= l < |cats| && l != j ==> Indicator(cells, cats[l])[i] == Int(0)
    ensures !Known(cats, cells[i]) ==> forall j :: 0 <= j < |cats| ==> Indicator(cells, cats[j])[i] == Int(0)
  {
    if Known(cats, cells[i]) {
      var j :| 0 <= j < |cats| && Key(cats[j]) == Key(cells[i]);
      assert Indicator(cells, cats[j])[i] == Int(1);
      forall l | 0 <= l < |cats| && l != j ensures Indicator(cells, cats[l])[i] == Int(0) {
        assert Key(cats[l]) != Key(cats[j]);
      }
    }
  }

  /** Categories learned from a column cover every value of it, so at fit time
      every row sets exactly one indicator of the field. */
  lemma FitOneHot(cells: seq<Cell>, i: nat)
    requires i < |cells|
    ensures Known(Categories(cells), cells[i])
    ensures exists j :: 0 <= j < |Categories(cells)| && Indicator(cells, Categories(cells)[j])[i] == Int(1)
  {
    OneHot(Categories(cells), cells, i);
  }

  /** `1`, `1.0` and `True` are one category, spelled as it first appears. */
  lemma CategoriesMerge()
    ensures Categories([Int(1), Float(1.0), Flag(true), Text("1")]) == [Int(1), Text("1")]
  {
    var cells := [Int(1), Float(1.0), Flag(true), Text("1")];
    assert cells[..3] == [Int(1), Float(1.0), Flag(true)];
    assert cells[..3][..2] == [Int(1), Float(1.0)];
    assert cells[..3][..2][..1] == [Int(1)];
    assert Categories([Int(1)]) == [Int(1)] by {
      assert [Int(1)][..0] == [];
    }
    assert Key(Float(1.0)) == Key(Int(1));
    assert Key(Flag(true)) == Key(Int(1));
    assert !Known([Int(1)], Text("1"));
  }

  lemma FeatureNameHead(col: string, cat: Cell)
    requires |col| > 0
    ensures |FeatureName(col, cat)| > 0 && FeatureName(col, cat)[0] == col[0]
  {
  }

  /** No indicator column of a field carries a label that starts unlike the field. */
  lemma FieldNames(col: string, cats: seq<Cell>, cells: seq<Cell>, x: string)
    requires |x| > 0 && |col| > 0 && col[0] != x[0]
    ensures x !in Names(EncodeField(col, cats, cells))
  {
    var e := EncodeField(col, cats, cells);
    forall j | 0 <= j < |e| ensures Names(e)[j] != x {
      FeatureNameHead(col, cats[j]);
    }
  }

  /** Every indicator column is named after one of the categorical columns. */
  lemma {:induction false} EncodeAllNames(names: seq<string>, cats: seq<seq<Cell>>, cols: seq<seq<Cell>>, x: string)
    requires |cats| == |names| && |cols| == |names| && |x| > 0
    requires forall k :: 0 <= k < |names| ==> |names[k]| > 0 && names[k][0] != x[0]
    ensures x !in Names(EncodeAll(names, cats, cols))
    decreases |names|
  {
    if names != [] {
      var e := EncodeField(names[0], cats[0], cols[0]);
      var rest := EncodeAll(names[1..], cats[1..], cols[1..]);
      assert forall k :: 0 <= k < |names[1..]| ==> names[1..][k] == names[k + 1];
      EncodeAllNames(names[1..], cats[1..], cols[1..], x);
      FieldNames(names[0], cats[0], cols[0], x);
      NamesAppend(e, rest);
    }
  }

  /** The indicator columns never shadow a label of the table that does not
      start like a categorical column. */
  lemma EncodeGet(f: Frame, cats: seq<seq<Cell>>, cols: seq<seq<Cell>>, x: string)
    requires |cats| == |Config.CategoricalColumns| && |cols| == |Config.CategoricalColumns|
    requires |x| > 0 && x[0] != 'v' && x[0] != 'z'
    ensures Get(Encode(f, cats, cols), x) == Get(f, x)
  {
    EncodeAllNames(Config.CategoricalColumns, cats, cols, x);
    GetAppendCols(f.height, f.cols, EncodeAll(Config.CategoricalColumns, cats, cols), x);
  }

  // ---------------------------------------------------------------------------
  // Standardisation

  /** The standardised values of a column. */
  function Scaled(a: Affine, xs: seq<real>): (r: seq<real>)
    requires a.scale != 0.0
    ensures |r| == |xs|
  {
    seq(|xs|, i requires 0 <= i < |xs| => Apply(a, xs[i]))
  }

  /** The map can be undone: the mean plus the scale times the standardised value. */
  lemma ApplyInverse(a: Affine, x: real)
    requires a.scale != 0.0
    ensures a.mean + Apply(a, x) * a.scale == x
  {
  }

  /** A fitted column's standardised values sum to zero. */
  lemma {:induction false} FittedSumZero(xs: seq<real>, root: real -> real)
    requires |xs| > 0
    ensures Stats.Sum(Scaled(FitAffine(xs, root), xs)) == 0.0
  {
    var a := FitAffine(xs, root);
    var d := Stats.Deviations(xs, a.mean);
    Stats.DeviationsFromMean(xs);
    Stats.SumDivide(d, a.scale);
    assert Scaled(a, xs) == seq(|d|, i requires 0 <= i < |d| => d[i] / a.scale);
  }

  /** The fitted scale is positive; a constant column gets scale 1 and
      standardises to zeros, any other column its standard deviation. */
  lemma FitAffineScale(xs: seq<real>, root: real -> real)
    requires |xs| > 0 && Stats.IsRoot(root)
    ensures FitAffine(xs, root).scale > 0.0
    ensures Stats.Constant(xs) ==> FitAffine(xs, root).scale == 1.0
    ensures Stats.Constant(xs) ==> forall i :: 0 <= i < |xs| ==> Apply(FitAffine(xs, root), xs[i]) == 0.0
    ensures !Stats.Constant(xs) ==> FitAffine(xs, root).scale == Stats.Std(xs, root)
  {
    Stats.VarianceZero(xs);
    Stats.VarianceNonNegative(xs);
    if Stats.Constant(xs) {
      Stats.MeanConstant(xs);
    }
  }

  /** The fit reads each listed column as numbers, one affine map per column. */
  lemma {:induction false} FitScalerGet(f: Frame, names: seq<string>, root: real -> real, k: nat)
    requires FitScaler(f, names, root).Success? && k < |names|
    ensures Numbers(names[k], Get(f, names[k]).GetOr([])).Success?
    ensures |Numbers(names[k], Get(f, names[k]).GetOr([])).value| > 0
    ensures FitScaler(f, names, root).value[k] == FitAffine(Numbers(names[k], Get(f, names[k]).GetOr([])).value, root)
    decreases |names|
  {
    FitScalerStep(f, names, root);
    if k > 0 {
      FitScalerGet(f, names[1..], root, k - 1);
      assert names[1..][k - 1] == names[k];
    }
  }

  /** One step of the fit: the first column's map, then the fit of the rest. */
  lemma FitScalerStep(f: Frame, names: seq<string>, root: real -> real)
    requires FitScaler(f, names, root).Success? && names != []
    ensures Numbers(names[0], Get(f, names[0]).GetOr([])).Success?
    ensures |Numbers(names[0], Get(f, names[0]).GetOr([])).value| > 0
    ensures FitScaler(f, names[1..], root).Success?
    ensures FitScaler(f, names, root).value ==
              [FitAffine(Numbers(names[0], Get(f, names[0]).GetOr([])).value, root)] + FitScaler(f, names[1..], root).value
  {
  }

  /** Scaling leaves unlisted columns alone. */
  lemma {:induction false} ScaleWithOther(f: Frame, names: seq<string>, stats: seq<Affine>, x: string)
    requires |stats| == |names| && ScalesNonZero(stats) && x !in names
    requires ScaleWith(f, names, stats).Success?
    ensures Get(ScaleWith(f, names, stats).value, x) == Get(f, x)
    decreases |names|
  {
    if names != [] {
      var xs := Numbers(names[0], Get(f, names[0]).GetOr([])).value;
      var g := Assign(f, names[0], ScaleCells(stats[0], xs));
      AssignOther(f, names[0], ScaleCells(stats[0], xs), x);
      ScaleWithOther(g, names[1..], stats[1..], x);
    }
  }

  /** Each listed column is replaced by its standardised values, read before
      any other column was scaled. */
  lemma {:induction false} ScaleWithGet(f: Frame, names: seq<string>, stats: seq<Affine>, k: nat)
    requires |stats| == |names| && ScalesNonZero(stats) && Distinct(names) && k < |names|
    requires ScaleWith(f, names, stats).Success?
    ensures Numbers(names[k], Get(f, names[k]).GetOr([])).Success?
    ensures Get(ScaleWith(f, names, stats).value, names[k]) ==
              Some(ScaleCells(stats[k], Numbers(names[k], Get(f, names[k]).GetOr([])).value))
    decreases |names|
  {
    var xs := Numbers(names[0], Get(f, names[0]).GetOr([])).value;
    var g := Assign(f, names[0], ScaleCells(stats[0], xs));
    var rest := names[1..];
    assert forall j :: 0 <= j < |rest| ==> rest[j] == names[j + 1];
    if k == 0 {
      assert names[0] !in rest;
      AssignGet(f, names[0], ScaleCells(stats[0], xs));
      ScaleWithOther(g, rest, stats[1..], names[0]);
    } else {
      assert Distinct(rest);
      AssignOther(f, names[0], ScaleCells(stats[0], xs), names[k]);
      ScaleWithGet(g, rest, stats[1..], k - 1);
    }
  }

  /** Scaling keeps the labels, and the shape, when every listed column exists. */
  lemma {:induction false} ScaleWithLabels(f: Frame, names: seq<string>, stats: seq<Affine>)
    requires |stats| == |names| && ScalesNonZero(stats)
    requires forall k :: 0 <= k < |names| ==> Has(f, names[k])
    requires ScaleWith(f, names, stats).Success?
    ensures Labels(ScaleWith(f, names, stats).value) == Labels(f)
    ensures ScaleWith(f, names, stats).value.height == f.height
    ensures Shaped(f) ==> Shaped(ScaleWith(f, names, stats).value)
    decreases |names|
  {
    if names != [] {
      var xs := Numbers(names[0], Get(f, names[0]).GetOr([])).value;
      var c := ScaleCells(stats[0], xs);
      var g := Assign(f, names[0], c);
      assert Labels(g) == Labels(f) by {
        AssignLabels(f, names[0], c);
      }
      assert Shaped(f) ==> Shaped(g) by {
        AssignGet(f, names[0], c);
      }
      assert forall k :: 0 <= k < |names[1..]| ==> Has(g, names[1..][k]) by {
        assert forall k :: 0 <= k < |names[1..]| ==> names[1..][k] == names[k + 1];
      }
      ScaleWithLabels(g, names[1..], stats[1..]);
    }
  }

  /** Every scaled column reads as numbers, so scaling fails only on a column
      that does not. */
  lemma {:induction false} ScaleWithSucceeds(f: Frame, names: seq<string>, stats: seq<Affine>)
    requires |stats| == |names| && ScalesNonZero(stats) && Distinct(names)
    ensures ScaleWith(f, names, stats).Success? <==>
              forall k :: 0 <= k < |names| ==> Numbers(names[k], Get(f, names[k]).GetOr([])).Success?
    decreases |names|
  {
    if names != [] {
      var n0 := Numbers(names[0], Get(f, names[0]).GetOr([]));
      if n0.Success? {
        var g := Assign(f, names[0], ScaleCells(stats[0], n0.value));
        var rest := names[1..];
        assert forall j :: 0 <= j < |rest| ==> rest[j] == names[j + 1];
        assert Distinct(rest);
        forall j | 0 <= j < |rest| ensures Get(g, rest[j]) == Get(f, rest[j]) {
          AssignOther(f, names[0], ScaleCells(stats[0], n0.value), rest[j]);
        }
        ScaleWithSucceeds(g, rest, stats[1..]);
      }
    }
  }

  /** The fit succeeds exactly when every listed column reads as numbers and
      has at least one row. */
  lemma {:induction false} FitScalerSucceeds(f: Frame, names: seq<string>, root: real -> real)
    ensures FitScaler(f, names, root).Success? <==>
              forall k :: 0 <= k < |names| ==>
                Numbers(names[k], Get(f, names[k]).GetOr([])).Success? &&
                |Numbers(names[k], Get(f, names[k]).GetOr([])).value| > 0
    decreases |names|
  {
    if names != [] {
      assert forall j :: 0 <= j < |names[1..]| ==> names[1..][j] == names[j + 1];
      FitScalerSucceeds(f, names[1..], root);
    }
  }

  /** The indicator columns are as tall as the columns they were encoded from. */
  lemma {:induction false} EncodeAllHeights(names: seq<string>, cats: seq<seq<Cell>>, cols: seq<seq<Cell>>, h: nat)
    requires |cats| == |names| && |cols| == |names|
    requires forall k :: 0 <= k < |cols| ==> |cols[k]| == h
    ensures forall j :: 0 <= j < |EncodeAll(names, cats, cols)| ==> |EncodeAll(names, cats, cols)[j].cells| == h
    decreases |names|
  {
    if names != [] {
      assert forall k :: 0 <= k < |cols[1..]| ==> cols[1..][k] == cols[k + 1];
      EncodeAllHeights(names[1..], cats[1..], cols[1..], h);
    }
  }

  // ---------------------------------------------------------------------------
  // The two modes

  /** Every numeric column of a prepared table reads as numbers. */
  predicate NumericReady(g: Frame) {
    forall k :: 0 <= k < |Config.NumericalColumns| ==>
      Numbers(Config.NumericalColumns[k], Get(g, Config.NumericalColumns[k]).GetOr([])).Success?
  }

  /** What the indicator columns do not touch: every numeric column reads in
      the encoded table what it read in the prepared one. */
  lemma EncodeNumeric(g: Frame, cats: seq<seq<Cell>>, cols: seq<seq<Cell>>, k: nat)
    requires |cats| == |Config.CategoricalColumns| && |cols| == |Config.CategoricalColumns|
    requires k < |Config.NumericalColumns|
    ensures Get(Encode(g, cats, cols), Config.NumericalColumns[k]) == Get(g, Config.NumericalColumns[k])
  {
    ColumnsApart();
    EncodeGet(g, cats, cols, Config.NumericalColumns[k]);
  }

  /** The encoded table still reads every numeric column as prepared. */
  lemma EncodeFitNumeric(g: Frame, k: nat)
    requires EncodeFit(g).Success? && k < |Config.NumericalColumns|
    ensures Get(EncodeFit(g).value.1, Config.NumericalColumns[k]) == Get(g, Config.NumericalColumns[k])
  {
    EncodeFitWith(g);
    EncodeNumeric(g, EncodeFit(g).value.0, Select(g, Config.CategoricalColumns).value, k);
  }

  /** The fit's scaling step succeeds exactly when every numeric column reads
      as numbers, given that none is empty. */
  lemma ScaleFitSucceeds(g: Frame, root: real -> real)
    requires EncodeFit(g).Success?
    requires forall k :: 0 <= k < |Config.NumericalColumns| ==> |Get(g, Config.NumericalColumns[k]).GetOr([])| > 0
    ensures ScaleFit(EncodeFit(g).value.1, root).Success? <==> NumericReady(g)
  {
    var e := EncodeFit(g).value.1;
    forall k | 0 <= k < |Config.NumericalColumns|
      ensures Get(e, Config.NumericalColumns[k]) == Get(g, Config.NumericalColumns[k])
    {
      EncodeFitNumeric(g, k);
    }
    FitScalerSucceeds(e, Config.NumericalColumns, root);
    ColumnsApart();
    if NumericReady(g) {
      var stats := FitScaler(e, Config.NumericalColumns, root).value;
      ScaleWithSucceeds(e, Config.NumericalColumns, stats);
    }
  }

  /** The categorical columns pass through preparation untouched. */
  lemma PrepareCategorical(f: Frame)
    ensures Has(Prepare(f).0, "ville") <==> Has(f, "ville")
    ensures Has(Prepare(f).0, "zone") <==> Has(f, "zone")
    ensures Prepare(f).0.height == f.height
  {
    ColumnsApart();
    PrepareGet(f, "ville");
    PrepareGet(f, "zone");
  }

  /** The prepared table holds every numeric column. */
  lemma PrepareLayoutAny(f: Frame)
    ensures forall k :: 0 <= k < |Config.NumericalColumns| ==> Has(Prepare(f).0, Config.NumericalColumns[k])
  {
    forall k | 0 <= k < |Config.NumericalColumns| ensures Has(Prepare(f).0, Config.NumericalColumns[k]) {
      PrepareGet(f, Config.NumericalColumns[k]);
    }
  }

  /** The prepared table: shaped as the input, the categorical columns
      untouched, every numeric column present. */
  lemma PrepareLayout(f: Frame)
    requires Shaped(f)
    ensures Has(Prepare(f).0, "ville") <==> Has(f, "ville")
    ensures Has(Prepare(f).0, "zone") <==> Has(f, "zone")
    ensures Prepare(f).0.height == f.height && Shaped(Prepare(f).0)
    ensures forall k :: 0 <= k < |Config.NumericalColumns| ==> Has(Prepare(f).0, Config.NumericalColumns[k])
  {
    ColumnsApart();
    PrepareGet(f, "ville");
    PrepareGet(f, "zone");
    forall k | 0 <= k < |Config.NumericalColumns| ensures Has(Prepare(f).0, Config.NumericalColumns[k]) {
      PrepareGet(f, Config.NumericalColumns[k]);
    }
  }

  /** The one-hot step of the fit fails on a missing categorical column, then
      on an empty table, then on a column mixing strings with numbers, and
      otherwise succeeds. */
  lemma EncodeFitSucceeds(g: Frame)
    ensures EncodeFit(g).Success? <==>
              Has(g, "ville") && Has(g, "zone") && g.height > 0 &&
              !MixedColumn(g, "ville") && !MixedColumn(g, "zone")
    ensures !Has(g, "ville") ==> EncodeFit(g) == Failure(MissingColumn("ville"))
    ensures Has(g, "ville") && !Has(g, "zone") ==> EncodeFit(g) == Failure(MissingColumn("zone"))
    ensures Has(g, "ville") && Has(g, "zone") && g.height == 0 ==> EncodeFit(g) == Failure(EmptyInput)
    ensures Has(g, "ville") && Has(g, "zone") && g.height > 0 && MixedColumn(g, "ville") ==>
              EncodeFit(g) == Failure(MixedCategories("ville"))
    ensures Has(g, "ville") && Has(g, "zone") && g.height > 0 && !MixedColumn(g, "ville") && MixedColumn(g, "zone") ==>
              EncodeFit(g) == Failure(MixedCategories("zone"))
  {
    var cc := Config.CategoricalColumns;
    assert cc[1..] == ["zone"] && cc[1..][1..] == [];
    if Has(g, "ville") && !Has(g, "zone") {
      assert Select(g, cc[1..]) == Failure(MissingColumn("zone"));
    }
    if Has(g, "ville") && Has(g, "zone") {
      var cols := Select(g, cc).value;
      assert cols[0] == Get(g, "ville").value && cols[1] == Get(g, "zone").value;
      assert cols[1..][0] == cols[1] && cols[1..][1..] == [];
      assert FirstMixed(cc[1..][1..], cols[1..][1..]) == None;
    }
  }

  /** The fit succeeds exactly when both categorical columns are present, the
      table has a row, neither categorical column mixes strings with numbers,
      and every numeric column of the prepared table reads as numbers; it
      fails with the error of the first check that does not hold. */
  lemma FitSucceeds(f: Frame, root: real -> real)
    requires Shaped(f)
    ensures Fit(f, root).Success? <==>
              Has(f, "ville") && Has(f, "zone") && f.height > 0 &&
              !MixedColumn(Prepare(f).0, "ville") && !MixedColumn(Prepare(f).0, "zone") &&
              NumericReady(Prepare(f).0)
    ensures !Has(f, "ville") ==> Fit(f, root) == Failure(MissingColumn("ville"))
    ensures Has(f, "ville") && !Has(f, "zone") ==> Fit(f, root) == Failure(MissingColumn("zone"))
    ensures Has(f, "ville") && Has(f, "zone") && f.height == 0 ==> Fit(f, root) == Failure(EmptyInput)
    ensures Has(f, "ville") && Has(f, "zone") && f.height > 0 && MixedColumn(Prepare(f).0, "ville") ==>
              Fit(f, root) == Failure(MixedCategories("ville"))
    ensures Has(f, "ville") && Has(f, "zone") && f.height > 0 &&
            !MixedColumn(Prepare(f).0, "ville") && MixedColumn(Prepare(f).0, "zone") ==>
              Fit(f, root) == Failure(MixedCategories("zone"))
  {
    var g := Prepare(f).0;
    PrepareLayout(f);
    EncodeFitSucceeds(g);
    if EncodeFit(g).Success? {
      ScaleFitSucceeds(g, root);
    }
  }

  /** Appending indicator columns as tall as the table keeps it shaped, and
      every label the table had reads what it read before. */
  lemma EncodeKeeps(g: Frame, cats: seq<seq<Cell>>, cols: seq<seq<Cell>>, x: string)
    requires |cats| == |Config.CategoricalColumns| && |cols| == |Config.CategoricalColumns|
    ensures Has(g, x) ==> Get(Encode(g, cats, cols), x) == Get(g, x)
    ensures Shaped(g) && (forall k :: 0 <= k < |cols| ==> |cols[k]| == g.height) ==> Shaped(Encode(g, cats, cols))
  {
    var enc := EncodeAll(Config.CategoricalColumns, cats, cols);
    if Has(g, x) {
      GetAppendCols(g.height, g.cols, enc, x);
    }
    if Shaped(g) && (forall k :: 0 <= k < |cols| ==> |cols[k]| == g.height) {
      EncodeAllHeights(Config.CategoricalColumns, cats, cols, g.height);
      var e := Encode(g, cats, cols);
      forall j | 0 <= j < |e.cols| ensures |e.cols[j].cells| == g.height {
        if j >= |g.cols| {
          assert e.cols[j] == enc[j - |g.cols|];
        }
      }
    }
  }

  /** A successful one-hot fit appends the indicators of the categories it
      learned, so encoding the same table with those categories in transform
      mode gives the same table. */
  lemma EncodeFitWith(g: Frame)
    requires EncodeFit(g).Success?
    ensures Select(g, Config.CategoricalColumns).Success?
    ensures |EncodeFit(g).value.0| == |Config.CategoricalColumns|
    ensures EncodeFit(g).value.1 == Encode(g, EncodeFit(g).value.0, Select(g, Config.CategoricalColumns).value)
    ensures EncodeWith(EncodeFit(g).value.0, g) == Success(EncodeFit(g).value.1)
  {
    var cols := Select(g, Config.CategoricalColumns).value;
    assert FirstMixed(Config.CategoricalColumns, cols).None?;
  }

  /** The encoded table: the prepared columns first, untouched, then the
      indicator columns, all as tall as the table. */
  lemma EncodeFitLayout(g: Frame)
    requires EncodeFit(g).Success?
    ensures EncodeFit(g).value.1.height == g.height
    ensures Get(EncodeFit(g).value.1, "prix_dh") == Get(g, "prix_dh")
    ensures Has(EncodeFit(g).value.1, "ville") && Has(EncodeFit(g).value.1, "zone")
    ensures Shaped(g) ==> Shaped(EncodeFit(g).value.1)
  {
    EncodeFitWith(g);
    var cols := Select(g, Config.CategoricalColumns).value;
    var cats := EncodeFit(g).value.0;
    var cc := Config.CategoricalColumns;
    assert Has(g, cc[0]) && Has(g, cc[1]);
    EncodeGet(g, cats, cols, "prix_dh");
    EncodeKeeps(g, cats, cols, "ville");
    EncodeKeeps(g, cats, cols, "zone");
  }

  /** The fit's scaling step on one numeric column: the column reads as
      numbers, the learned map is that column's mean and deviation, and the
      output column is the column standardised by it. */
  lemma ScaleFitColumn(e: Frame, root: real -> real, k: nat)
    requires ScaleFit(e, root).Success? && k < |Config.NumericalColumns|
    ensures Numbers(Config.NumericalColumns[k], Get(e, Config.NumericalColumns[k]).GetOr([])).Success?
    ensures |Numbers(Config.NumericalColumns[k], Get(e, Config.NumericalColumns[k]).GetOr([])).value| > 0
    ensures ScaleFit(e, root).value.0[k] ==
              FitAffine(Numbers(Config.NumericalColumns[k], Get(e, Config.NumericalColumns[k]).GetOr([])).value, root)
    ensures Get(ScaleFit(e, root).value.1, Config.NumericalColumns[k]) ==
              Some(ScaleCells(ScaleFit(e, root).value.0[k],
                              Numbers(Config.NumericalColumns[k], Get(e, Config.NumericalColumns[k]).GetOr([])).value))
  {
    var stats := FitScaler(e, Config.NumericalColumns, root).value;
    var s := ScaleWith(e, Config.NumericalColumns, stats).value;
    ColumnsApart();
    FitScalerGet(e, Config.NumericalColumns, root, k);
    ScaleWithGet(e, Config.NumericalColumns, stats, k);
    DropGet(s, Config.CategoricalColumns, Config.NumericalColumns[k]);
  }

  /** The fit's scaling step drops the categorical columns, keeps `prix_dh`
      as it was, and keeps the table's height and shape. */
  lemma ScaleFitLayout(e: Frame, root: real -> real)
    requires ScaleFit(e, root).Success?
    ensures !Has(ScaleFit(e, root).value.1, "ville") && !Has(ScaleFit(e, root).value.1, "zone")
    ensures Get(ScaleFit(e, root).value.1, "prix_dh") == Get(e, "prix_dh")
    ensures ScaleFit(e, root).value.1.height == e.height
    ensures Shaped(e) ==> Shaped(ScaleFit(e, root).value.1)
  {
    var stats := FitScaler(e, Config.NumericalColumns, root).value;
    var s := ScaleWith(e, Config.NumericalColumns, stats).value;
    ColumnsApart();
    ScaleWithOther(e, Config.NumericalColumns, stats, "prix_dh");
    DropGet(s, Config.CategoricalColumns, "prix_dh");
    DropLabels(s, Config.CategoricalColumns, "ville");
    DropLabels(s, Config.CategoricalColumns, "zone");
    forall k | 0 <= k < |Config.NumericalColumns| ensures Has(e, Config.NumericalColumns[k]) {
      FitScalerGet(e, Config.NumericalColumns, root, k);
    }
    ScaleWithLabels(e, Config.NumericalColumns, stats);
    if Shaped(e) {
      DropShaped(s, Config.CategoricalColumns);
    }
  }

  /** The table a fit hands to the models: as tall as the input, without the
      price or the categorical columns, with every numeric column, and with
      the feature list recording exactly its labels; the price comes back
      separately, coerced like every other column. */
  lemma FitLayout(f: Frame, root: real -> real)
    requires Fit(f, root).Success?
    ensures Fit(f, root).value.0.features == Some(Labels(Fit(f, root).value.1.table))
    ensures Fit(f, root).value.1.price ==
              if Has(f, "prix_dh") then Some(CoerceBools(Get(f, "prix_dh").value)) else None
    ensures Fit(f, root).value.1.table.height == f.height
    ensures Shaped(f) ==> Shaped(Fit(f, root).value.1.table)
    ensures !Has(Fit(f, root).value.1.table, "prix_dh")
    ensures !Has(Fit(f, root).value.1.table, "ville") && !Has(Fit(f, root).value.1.table, "zone")
  {
    var g := Prepare(f).0;
    PrepareGet(f, "prix_dh");
    EncodeFitLayout(g);
    ScaleFitLayout(EncodeFit(g).value.1, root);
  }

  /** Every numeric column the fit outputs is its prepared input standardised
      by the map the fit records for it, and its values sum to zero. */
  lemma FitStandardised(f: Frame, root: real -> real, k: nat)
    requires Fit(f, root).Success? && k < |Config.NumericalColumns|
    ensures Numbers(Config.NumericalColumns[k], Get(Prepare(f).0, Config.NumericalColumns[k]).GetOr([])).Success?
    ensures |Numbers(Config.NumericalColumns[k], Get(Prepare(f).0, Config.NumericalColumns[k]).GetOr([])).value| > 0
    ensures Fit(f, root).value.0.scaler.Some? && |Fit(f, root).value.0.scaler.value| == |Config.NumericalColumns|
    ensures var xs := Numbers(Config.NumericalColumns[k], Get(Prepare(f).0, Config.NumericalColumns[k]).GetOr([])).value;
            Fit(f, root).value.0.scaler.value[k] == FitAffine(xs, root) &&
            Get(Fit(f, root).value.1.table, Config.NumericalColumns[k]) == Some(ScaleCells(FitAffine(xs, root), xs)) &&
            Stats.Sum(Scaled(FitAffine(xs, root), xs)) == 0.0
  {
    var g := Prepare(f).0;
    var e := EncodeFit(g).value.1;
    EncodeFitNumeric(g, k);
    ScaleFitColumn(e, root, k);
    var xs := Numbers(Config.NumericalColumns[k], Get(g, Config.NumericalColumns[k]).GetOr([])).value;
    FittedSumZero(xs, root);
  }

  /** Applying the state a fit learned to the table it learned from gives
      back exactly what the fit returned. */
  lemma FitTransform(f: Frame, root: real -> real)
    requires Fit(f, root).Success?
    ensures Fit(f, root).value.0.scaler.Some? && ScalesNonZero(Fit(f, root).value.0.scaler.value)
    ensures Transform(Fit(f, root).value.0, f) == Success(Fit(f, root).value.1)
  {
    var g := Prepare(f).0;
    var enc := EncodeFit(g).value;
    var sc := ScaleFit(enc.1, root).value;
    EncodeFitWith(g);
    var stats := FitScaler(enc.1, Config.NumericalColumns, root).value;
    assert ScaleWith(enc.1, Config.NumericalColumns, stats).Success?;
    assert Reindex(sc.1, Labels(sc.1)) == Success(sc.1);
    assert TransformPrepared(Fit(f, root).value.0, g) == Success(sc.1);
  }

  /** The one-hot step of a transform keeps every numeric column of the
      prepared table. */
  lemma EncodeWithNumeric(cats: seq<seq<Cell>>, g: Frame, k: nat)
    requires EncodeWith(cats, g).Success? && k < |Config.NumericalColumns|
    ensures Get(EncodeWith(cats, g).value, Config.NumericalColumns[k]) == Get(g, Config.NumericalColumns[k])
  {
    EncodeNumeric(g, cats, Select(g, Config.CategoricalColumns).value, k);
  }

  /** A label no indicator column can carry: indicators are named after
      `ville` or `zone`, so they start with `v` or `z`. */
  predicate Plain(x: string) {
    |x| > 0 && x[0] != 'v' && x[0] != 'z'
  }

  /** A transformed table carries exactly the recorded feature labels and is
      as tall as the prepared table; a plain feature the table lacks comes out
      as a column of 0. */
  lemma TransformPreparedLayout(st: State, g: Frame)
    requires st.scaler.Some? ==> ScalesNonZero(st.scaler.value)
    requires TransformPrepared(st, g).Success?
    requires forall k :: 0 <= k < |Config.NumericalColumns| ==> Has(g, Config.NumericalColumns[k])
    ensures st.features.Some? ==> Labels(TransformPrepared(st, g).value) == st.features.value
    ensures TransformPrepared(st, g).value.height == g.height
    ensures st.features.Some? ==>
              forall k :: 0 <= k < |st.features.value| && Plain(st.features.value[k]) && !Has(g, st.features.value[k]) ==>
                TransformPrepared(st, g).value.cols[k].cells == Fill(g.height, Int(0))
  {
    var e := EncodeWith(st.encoder.value, g).value;
    assert e.height == g.height;
    forall k | 0 <= k < |Config.NumericalColumns| ensures Has(e, Config.NumericalColumns[k]) {
      EncodeWithNumeric(st.encoder.value, g, k);
    }
    var s := ScaleWith(e, Config.NumericalColumns, st.scaler.value).value;
    ScaleWithLabels(e, Config.NumericalColumns, st.scaler.value);
    var out := Drop(s, Config.CategoricalColumns);
    if st.features.Some? {
      assert TransformPrepared(st, g) == Reindex(out, st.features.value);
      forall k | 0 <= k < |st.features.value| && Plain(st.features.value[k]) && !Has(g, st.features.value[k])
        ensures !Has(out, st.features.value[k])
      {
        var x := st.features.value[k];
        DropLabels(s, Config.CategoricalColumns, x);
        EncodeGet(g, st.encoder.value, Select(g, Config.CategoricalColumns).value, x);
      }
    } else {
      assert TransformPrepared(st, g) == Success(out);
    }
  }

  /** A transformed table carries exactly the recorded feature labels, is as
      tall as the input, and comes with the input's coerced price. A plain,
      non-numeric feature the input lacks is filled with 0. */
  lemma TransformLayout(st: State, f: Frame)
    requires st.scaler.Some? ==> ScalesNonZero(st.scaler.value)
    requires Transform(st, f).Success?
    ensures st.features.Some? ==> Labels(Transform(st, f).value.table) == st.features.value
    ensures Transform(st, f).value.table.height == f.height
    ensures Transform(st, f).value.price ==
              if Has(f, "prix_dh") then Some(CoerceBools(Get(f, "prix_dh").value)) else None
    ensures st.features.Some? ==>
              forall k :: 0 <= k < |st.features.value| && Plain(st.features.value[k]) &&
                          st.features.value[k] !in Config.NumericalColumns && !Has(f, st.features.value[k]) ==>
                Transform(st, f).value.table.cols[k].cells == Fill(f.height, Int(0))
  {
    PrepareGet(f, "prix_dh");
    PrepareLayoutAny(f);
    TransformPreparedLayout(st, Prepare(f).0);
    if st.features.Some? {
      forall k | 0 <= k < |st.features.value| && Plain(st.features.value[k]) &&
                 st.features.value[k] !in Config.NumericalColumns && !Has(f, st.features.value[k])
        ensures !Has(Prepare(f).0, st.features.value[k])
      {
        PrepareGet(f, st.features.value[k]);
      }
    }
  }

  /** A transform refuses an unfitted state, a table missing a categorical
      column, and an empty table, in that order. */
  lemma TransformErrors(st: State, f: Frame)
    requires st.scaler.Some? ==> ScalesNonZero(st.scaler.value)
    ensures st.encoder.None? ==> Transform(st, f) == Failure(NotFitted("Encoder"))
    ensures st.encoder.Some? && !Has(f, "ville") ==> Transform(st, f) == Failure(MissingColumn("ville"))
    ensures st.encoder.Some? && Has(f, "ville") && !Has(f, "zone") ==> Transform(st, f) == Failure(MissingColumn("zone"))
    ensures st.encoder.Some? && Has(f, "ville") && Has(f, "zone") && f.height == 0 ==> Transform(st, f) == Failure(EmptyInput)
    ensures st.encoder.Some? && |st.encoder.value| == |Config.CategoricalColumns| && st.scaler.None? &&
              Has(f, "ville") && Has(f, "zone") && f.height > 0 ==>
                Transform(st, f) == Failure(NotFitted("Scaler"))
  {
    var g := Prepare(f).0;
    PrepareCategorical(f);
    EncodeFitSucceeds(g);
  }
}

=== FILE: fields.dfy ===
/** The field cleaners of `DataPreprocessor`: price text to a number of
    dirhams, surface text to an integer area, a location to (zone, city). */
module Fields {
  import opened Wrappers
  import opened Errors
  import opened Text
  import opened Cells
  import Config

  predicate DigitOrSpace(c: char) {
    IsDigit(c) || IsSpace(c)
  }

  /** The end of the longest `[\d\s]*` run starting at `k`. */
  function RunEnd(s: string, k: nat): (e: nat)
    requires k <= |s|
    ensures k <= e <= |s|
    ensures forall j :: k <= j < e ==> DigitOrSpace(s[j])
    ensures e < |s| ==> !DigitOrSpace(s[e])
    decreases |s| - k
  {
    if k < |s| && DigitOrSpace(s[k]) then RunEnd(s, k + 1) else k
  }

  /** The pattern `(\d[\d\s]*) ?<marker>` matches at `i`. Because a marker does
      not begin with a digit or a space, the greedy run can only be followed by
      the marker at its very end, and the optional space is then part of the run. */
  predicate MatchesAt(s: string, marker: string, i: nat) {
    i < |s| && IsDigit(s[i]) && OccursAt(s, marker, RunEnd(s, i + 1))
  }

  function MarkerFrom(s: string, marker: string, i: nat): (r: Option<nat>)
    requires i <= |s|
    ensures r.Some? ==> i <= r.value && MatchesAt(s, marker, r.value)
    ensures r.Some? ==> forall j :: i <= j < r.value ==> !MatchesAt(s, marker, j)
    ensures r.None? ==> forall j :: i <= j ==> !MatchesAt(s, marker, j)
    decreases |s| - i
  {
    if i == |s| then None
    else if MatchesAt(s, marker, i) then Some(i)
    else MarkerFrom(s, marker, i + 1)
  }

  /** Where `re.search` finds the leftmost match of the marker pattern. */
  function MarkerStart(s: string, marker: string): (r: Option<nat>)
    ensures r.Some? ==> MatchesAt(s, marker, r.value)
    ensures r.Some? ==> forall j :: 0 <= j < r.value ==> !MatchesAt(s, marker, j)
    ensures r.None? ==> forall j :: 0 <= j ==> !MatchesAt(s, marker, j)
  {
    MarkerFrom(s, marker, 0)
  }

  /** The captured group `\d[\d\s]*` of a match at `i`. */
  function Group(s: string, i: nat): (g: string)
    requires i < |s|
    ensures |g| > 0
  {
    s[i..RunEnd(s, i + 1)]
  }

  /** `float(group.replace(" ", ""))`: a run whose other whitespace sits between
      digits cannot be read and raises. */
  function RunNumber(g: string): Result<real, Exc> {
    match ParseDecimal(Without(g, ' '))
    case Some(x) => Success(x)
    case None => Failure(UnparsableRun)
  }

  /** The number read from the leftmost run before `marker`, when the pattern
      matches at all. */
  function MarkedRun(s: string, marker: string): Option<Result<real, Exc>> {
    match MarkerStart(s, marker)
    case None => None
    case Some(i) => Some(RunNumber(Group(s, i)))
  }

  /** An amount in euros, converted to dirhams at the fixed rate. */
  function FromEuros(x: real): real {
    x * Config.EurRate
  }

  function ToEuros(m: Option<Result<real, Exc>>): Option<Result<real, Exc>> {
    match m
    case Some(Success(x)) => Some(Success(FromEuros(x)))
    case _ => m
  }

  /** The number a currency marker decides: text holding `DH` is read from the
      run before it; otherwise text holding `EUR` is read from the run before it
      and converted at 10.5; `None` when the marker's pattern does not match or
      there is no marker. */
  function MarkedPrice(s: string): Option<Result<real, Exc>> {
    if Contains(s, "DH") then MarkedRun(s, "DH")
    else if Contains(s, "EUR") then ToEuros(MarkedRun(s, "EUR"))
    else None
  }

  /** `clean_price` on the text of a present value: the marked number when
      there is one, otherwise what `float()` makes of the whole text, its
      failure being `NaN` (here `None`). */
  function PriceText(s: string): Result<Option<real>, Exc> {
    match MarkedPrice(s)
    case None => Success(ParseDecimal(s))
    case Some(Success(x)) => Success(Some(x))
    case Some(Failure(e)) => Failure(e)
  }

  /** `clean_price`: a missing price stays missing (`NaN`), any other value is
      read from its `str()`. */
  function CleanPrice(c: Cell): (r: Result<Option<real>, Exc>)
    ensures c.Missing? ==> r == Success(None)
    ensures r.Failure? ==> r.error == UnparsableRun
  {
    if c.Missing? then Success(None) else PriceText(Str(c))
  }

  /** The digit characters of `s`, in order (`re.sub(r'\D', '', s)`). */
  function Digits(s: string): (d: string)
    ensures AllDigits(d)
    ensures |d| <= |s|
  {
    if s == [] then [] else if IsDigit(s[0]) then [s[0]] + Digits(s[1..]) else Digits(s[1..])
  }

  /** `clean_surface`: the integer spelled by every digit of `str(value)`, or
      missing when the value is missing or has no digit. */
  function CleanSurface(c: Cell): (r: Option<nat>)
    ensures r.None? <==> c.Missing? || NoDigit(Str(c))
  {
    if c.Missing? then None
    else
      var d := Digits(Str(c));
      DigitsEmpty(Str(c));
      if d == [] then None else Some(DigitsValue(d))
  }

  const Separator: string := " \U{E0} "
  const Unknown: string := "Unknown"

  /** One entry of `extract_location`: a missing location is unknown on both
      sides; otherwise the text splits at the first `" à "` into a stripped zone
      and city, and without the separator it is all city with an unknown zone. */
  function SplitLocation(c: Cell): (r: (string, string))
    ensures c.Missing? ==> r == (Unknown, Unknown)
    ensures !c.Missing? && !Contains(Str(c), Separator) ==> r == (Unknown, Strip(Str(c)))
  {
    if c.Missing? then (Unknown, Unknown)
    else
      var s := Str(c);
      match IndexOf(s, Separator)
      case Some(k) => (Strip(s[..k]), Strip(s[k + 3..]))
      case None => (Unknown, Strip(s))
  }

  // ---------------------------------------------------------------------------
  // Properties of the cleaners

  lemma DigitsEmpty(s: string)
    ensures Digits(s) == [] <==> NoDigit(s)
  {
    if s != [] {
      DigitsEmpty(s[1..]);
      if NoDigit(s[1..]) && !IsDigit(s[0]) {
        forall i | 0 <= i < |s| ensures !IsDigit(s[i]) {
          if i > 0 { assert s[i] == s[1..][i - 1]; }
        }
      }
    }
  }

  lemma {:induction false} DigitsAppend(a: string, b: string)
    ensures Digits(a + b) == Digits(a) + Digits(b)
  {
    if a == [] {
      assert a + b == b;
    } else {
      assert (a + b)[1..] == a[1..] + b;
      DigitsAppend(a[1..], b);
    }
  }

  lemma {:induction false} DigitsOfDigits(s: string)
    requires AllDigits(s)
    ensures Digits(s) == s
  {
    if s != [] {
      DigitsOfDigits(s[1..]);
    }
  }

  lemma {:induction false} DigitsOfNoDigit(s: string)
    requires NoDigit(s)
    ensures Digits(s) == []
  {
    if s != [] {
      DigitsOfNoDigit(s[1..]);
    }
  }

  /** Digits grouped by plain spaces, beginning with a digit: "1 200 000". */
  predicate SpacedDigits(d: string) {
    |d| > 0 && IsDigit(d[0]) && forall j :: 0 <= j < |d| ==> IsDigit(d[j]) || d[j] == ' '
  }

  /** A run of digits and plain spaces ends where the marker begins. */
  lemma RunEndAt(p: string, d: string, sep: string, marker: string, rest: string, k: nat)
    requires forall j :: 0 <= j < |d| ==> IsDigit(d[j]) || d[j] == ' '
    requires sep == "" || sep == " "
    requires |marker| > 0 && !DigitOrSpace(marker[0])
    requires |p| <= k <= |p| + |d| + |sep|
    ensures RunEnd(p + d + sep + marker + rest, k) == |p| + |d| + |sep|
    decreases |p| + |d| + |sep| - k
  {
    var s := p + d + sep + marker + rest;
    if k < |p| + |d| + |sep| {
      if k < |p| + |d| {
        assert s[k] == d[k - |p|];
      } else {
        assert s[k] == sep[k - |p| - |d|];
      }
      RunEndAt(p, d, sep, marker, rest, k + 1);
    } else {
      assert s[k] == marker[0];
    }
  }

  /** The leftmost match of the marker pattern in `p + d + sep + marker + rest`
      starts at the first digit of `d` when `p` holds no digit. */
  lemma MarkerFound(p: string, d: string, sep: string, marker: string, rest: string)
    requires NoDigit(p) && SpacedDigits(d) && (sep == "" || sep == " ")
    requires |marker| > 0 && !DigitOrSpace(marker[0])
    ensures MarkerStart(p + d + sep + marker + rest, marker) == Some(|p|)
    ensures Group(p + d + sep + marker + rest, |p|) == d + sep
  {
    var s := p + d + sep + marker + rest;
    var e := |p| + |d| + |sep|;
    RunEndAt(p, d, sep, marker, rest, |p| + 1);
    assert s[e..e + |marker|] == marker;
    assert s[|p|] == d[0];
    assert MatchesAt(s, marker, |p|);
    forall j | 0 <= j < |p| ensures !MatchesAt(s, marker, j) {
      assert s[j] == p[j];
    }
    assert s[|p|..e] == d + sep;
  }

  /** A run of digits and plain spaces reads as the digits it spells. */
  lemma RunNumberOfDigits(g: string)
    requires SpacedDigits(g)
    ensures RunNumber(g).Success? && RunNumber(g).value == DigitsValue(Digits(g)) as real
  {
    var t := Without(g, ' ');
    assert AllDigits(t) by {
      forall j | 0 <= j < |t| ensures IsDigit(t[j]) {
        assert t[j] in t;
      }
    }
    WithoutSpacesDigits(g);
    assert g[0] in t;
    ParseDecimalDigits(t);
  }

  lemma {:induction false} WithoutSpacesDigits(g: string)
    requires forall j :: 0 <= j < |g| ==> IsDigit(g[j]) || g[j] == ' '
    ensures Digits(g) == Without(g, ' ')
  {
    if g != [] {
      WithoutSpacesDigits(g[1..]);
    }
  }

  lemma MatchContains(s: string, marker: string, i: nat)
    requires MatchesAt(s, marker, i)
    ensures Contains(s, marker)
  {
    ContainsAt(s, marker, RunEnd(s, i + 1));
  }

  /** The `DH` branch: a match before `DH` decides the price. */
  lemma DirhamsBranch(s: string, i: nat)
    requires MarkerStart(s, "DH") == Some(i)
    ensures MarkedPrice(s) == Some(RunNumber(Group(s, i)))
  {
    MatchContains(s, "DH", i);
  }

  /** The `EUR` branch, tried only when `DH` is absent. */
  lemma EurosBranch(s: string, i: nat)
    requires !Contains(s, "DH") && MarkerStart(s, "EUR") == Some(i)
    ensures MarkedPrice(s) == ToEuros(Some(RunNumber(Group(s, i))))
  {
    MatchContains(s, "EUR", i);
    assert MarkedRun(s, "EUR") == Some(RunNumber(Group(s, i)));
  }

  /** A marked number is the price; an unreadable marked run raises. */
  lemma PriceTextMarked(s: string, m: Result<real, Exc>)
    requires MarkedPrice(s) == Some(m)
    ensures m.Success? ==> PriceText(s) == Success(Some(m.value))
    ensures m.Failure? ==> PriceText(s) == Failure(m.error)
  {
  }

  /** Without a marker, the price is what `float()` makes of the text. */
  lemma UnmarkedPrice(s: string)
    requires !Contains(s, "DH") && !Contains(s, "EUR")
    ensures PriceText(s) == Success(ParseDecimal(s))
  {
  }

  /** Only a matched but unreadable run makes the price cleaner raise. */
  lemma CleanPriceRaisesOnMatch(c: Cell)
    requires CleanPrice(c).Failure?
    ensures MarkerStart(Str(c), "DH").Some? || MarkerStart(Str(c), "EUR").Some?
  {
  }

  lemma DigitsOfRun(d: string, sep: string)
    requires sep == "" || sep == " "
    ensures Digits(d + sep) == Digits(d)
  {
    DigitsAppend(d, sep);
    DigitsOfNoDigit(sep);
    assert Digits(d) + [] == Digits(d);
  }

  lemma DirhamPrice(s: string, i: nat, v: real)
    requires MarkerStart(s, "DH") == Some(i) && RunNumber(Group(s, i)) == Success(v)
    ensures CleanPrice(Text(s)) == Success(Some(v))
  {
    DirhamsBranch(s, i);
    PriceTextMarked(s, Success(v));
  }

  lemma EuroPrice(s: string, i: nat, v: real)
    requires !Contains(s, "DH") && MarkerStart(s, "EUR") == Some(i)
    requires RunNumber(Group(s, i)) == Success(v)
    ensures CleanPrice(Text(s)) == Success(Some(FromEuros(v)))
  {
    EurosBranch(s, i);
    PriceTextMarked(s, Success(FromEuros(v)));
  }

  /** What the price cleaner finds in `p + d + sep + marker + rest`. */
  lemma PriceRunFacts(p: string, d: string, sep: string, rest: string, marker: string)
    requires NoDigit(p) && SpacedDigits(d) && (sep == "" || sep == " ")
    requires |marker| > 0 && !DigitOrSpace(marker[0])
    ensures MarkerStart(p + d + sep + marker + rest, marker) == Some(|p|)
    ensures Group(p + d + sep + marker + rest, |p|) == d + sep
    ensures RunNumber(d + sep).Success? && RunNumber(d + sep).value == DigitsValue(Digits(d)) as real
  {
    MarkerFound(p, d, sep, marker, rest);
    RunNumberOfDigits(d + sep);
    DigitsOfRun(d, sep);
  }

  /** "1 200 000 DH" and its kin: a dirham price after digit-free text reads as
      the digits of its run. */
  lemma CleanPriceDirhams(p: string, d: string, sep: string, rest: string)
    requires NoDigit(p) && SpacedDigits(d) && (sep == "" || sep == " ")
    ensures CleanPrice(Text(p + d + sep + "DH" + rest)) == Success(Some(DigitsValue(Digits(d)) as real))
  {
    PriceRunFacts(p, d, sep, rest, "DH");
    DirhamPrice(p + d + sep + "DH" + rest, |p|, DigitsValue(Digits(d)) as real);
  }

  /** A euro price, in text without `DH`, reads as its digits times 10.5. */
  lemma CleanPriceEuros(p: string, d: string, sep: string, rest: string)
    requires NoDigit(p) && SpacedDigits(d) && (sep == "" || sep == " ")
    requires !Contains(p + d + sep + "EUR" + rest, "DH")
    ensures CleanPrice(Text(p + d + sep + "EUR" + rest)) == Success(Some(FromEuros(DigitsValue(Digits(d)) as real)))
    ensures FromEuros(DigitsValue(Digits(d)) as real) == DigitsValue(Digits(d)) as real * 10.5
  {
    PriceRunFacts(p, d, sep, rest, "EUR");
    EuroPrice(p + d + sep + "EUR" + rest, |p|, DigitsValue(Digits(d)) as real);
  }

  /** The worked example of the listing format. */
  lemma CleanPriceExample()
    ensures CleanPrice(Text("1 200 000 DH")) == Success(Some(1200000.0))
  {
    var d := "1 200 000";
    assert "" + d + " " + "DH" + "" == "1 200 000 DH";
    CleanPriceDirhams("", d, " ", "");
    ExampleDigits();
  }

  lemma ExampleDigits()
    ensures AllDigits(Digits("1 200 000")) && DigitsValue(Digits("1 200 000")) == 1200000
  {
    ExampleRunDigits();
    ExampleValue();
  }

  lemma ExampleRunDigits()
    ensures Digits("1 200 000") == "1200000"
  {
    assert "1 200 000" == "1" + " 200" + " 000";
    DigitsAppend("1" + " 200", " 000");
    DigitsAppend("1", " 200");
    DigitsGroup('0', '0', '0');
    DigitsGroup('2', '0', '0');
    assert Digits("1") == "1";
    assert "1" + "200" + "000" == "1200000";
  }

  lemma DigitsGroup(a: char, b: char, c: char)
    requires IsDigit(a) && IsDigit(b) && IsDigit(c)
    ensures Digits([' ', a, b, c]) == [a, b, c]
  {
    DigitsAppend([' '], [a, b, c]);
    DigitsOfDigits([a, b, c]);
    assert [' '] + [a, b, c] == [' ', a, b, c];
  }

  lemma ExampleValue()
    ensures DigitsValue("1200000") == 1200000
  {
    var t1 := "1";
    var t2 := t1 + "2";
    var t3 := t2 + "0";
    var t4 := t3 + "0";
    var t5 := t4 + "0";
    var t6 := t5 + "0";
    var t7 := t6 + "0";
    DigitsValueSnoc(t1, '2');
    DigitsValueSnoc(t2, '0');
    DigitsValueSnoc(t3, '0');
    DigitsValueSnoc(t4, '0');
    DigitsValueSnoc(t5, '0');
    DigitsValueSnoc(t6, '0');
    assert t7 == "1200000";
  }

  lemma DigitsValueSnoc(s: string, c: char)
    requires AllDigits(s) && IsDigit(c)
    ensures AllDigits(s + [c]) && DigitsValue(s + [c]) == DigitsValue(s) * 10 + DigitValue(c)
  {
    assert (s + [c])[..|s|] == s;
  }

  /** A tab inside the matched run is not removed by `replace(" ", "")`, so the
      conversion raises instead of giving `NaN`. */
  lemma CleanPriceTabRaises()
    ensures CleanPrice(Text("1\t200 DH")).Failure?
  {
    var s := "1\t200 DH";
    assert RunEnd(s, 1) == 6;
    assert s[6..8] == "DH";
    assert MatchesAt(s, "DH", 0);
    assert MarkerStart(s, "DH") == Some(0);
    assert Group(s, 0) == "1\t200 ";
    TabRunRaises();
    DirhamsBranch(s, 0);
    PriceTextMarked(s, RunNumber(Group(s, 0)));
  }

  lemma TabRunRaises()
    ensures RunNumber("1\t200 ").Failure?
  {
    var t := "1\t200";
    TabWithout();
    assert !IsDigit(t[1]);
    ParseUnsignedNone(t);
    ParseDecimalPlain(t);
  }

  lemma TabWithout()
    ensures Without("1\t200 ", ' ') == "1\t200"
  {
    var t := "1\t200";
    assert "1\t200 " == t + " ";
    WithoutDistributes(t, " ", ' ');
    WithoutAbsent(t, ' ');
    assert Without(" ", ' ') == "";
  }

  /** Text without a single digit can never be read as a price. */
  lemma CleanPriceNoDigit(s: string)
    requires NoDigit(s)
    ensures CleanPrice(Text(s)) == Success(None)
  {
    assert MarkerStart(s, "DH").None?;
    assert MarkerStart(s, "EUR").None?;
  }

  /** A whole-valued float (as the re-processing schema stores `prix_dh`) reads back unchanged. */
  lemma CleanPriceWholeFloat(n: int)
    ensures CleanPrice(Float(n as real)) == Success(Some(n as real))
  {
    FloatTextWhole(n);
    PriceTextWhole(n);
  }

  lemma PriceTextWhole(n: int)
    ensures PriceText(IntText(n) + ".0") == Success(Some(n as real))
  {
    var s := IntText(n) + ".0";
    WholeTextChars(n);
    NumberTextUnmarked(s);
    UnmarkedPrice(s);
    WholeTextValue(n);
  }

  /** Text made of digits, signs and points holds no currency marker. */
  lemma NumberTextUnmarked(s: string)
    requires forall j :: 0 <= j < |s| ==> IsDigit(s[j]) || s[j] == '-' || s[j] == '.'
    ensures !Contains(s, "DH") && !Contains(s, "EUR")
  {
    forall j | 0 <= j && j + 2 <= |s| ensures !OccursAt(s, "DH", j) {
      assert s[j..j + 2][0] == s[j];
    }
    forall j | 0 <= j && j + 3 <= |s| ensures !OccursAt(s, "EUR", j) {
      assert s[j..j + 3][0] == s[j];
    }
  }

  /** The text of a whole float is digits, a minus sign and a point. */
  lemma WholeTextChars(n: int)
    ensures forall j :: 0 <= j < |IntText(n) + ".0"| ==>
      IsDigit((IntText(n) + ".0")[j]) || (IntText(n) + ".0")[j] == '-' || (IntText(n) + ".0")[j] == '.'
  {
    var s := IntText(n) + ".0";
    forall j | 0 <= j < |s| ensures IsDigit(s[j]) || s[j] == '-' || s[j] == '.' {
      if j < |IntText(n)| && n < 0 && j > 0 {
        assert s[j] == IntText(n)[1..][j - 1];
      }
    }
  }

  /** A whole-valued float surface is read ten times too large: `str(85.0)` is
      "85.0", whose digits spell 850. */
  lemma CleanSurfaceWholeFloat(n: nat)
    ensures CleanSurface(Float(n as real)) == Some(10 * n)
  {
    FloatTextWhole(n);
    WholeTextDigits(n);
  }

  lemma WholeTextDigits(n: nat)
    ensures Digits(IntText(n) + ".0") == NatText(n) + "0"
    ensures DigitsValue(NatText(n) + "0") == 10 * n
  {
    var t := NatText(n);
    DigitsAppend(t, ".0");
    DigitsOfDigits(t);
    assert Digits(".0") == "0";
    DigitsValueSnoc(t, '0');
    NatTextValue(n);
  }

  /** "85 m²": a whole number followed by digit-free text reads as that number. */
  lemma CleanSurfaceText(n: nat, unit: string)
    requires NoDigit(unit)
    ensures CleanSurface(Text(NatText(n) + unit)) == Some(n)
  {
    DigitsAppend(NatText(n), unit);
    DigitsOfDigits(NatText(n));
    DigitsOfNoDigit(unit);
    assert NatText(n) + [] == NatText(n);
    NatTextValue(n);
  }

  /** An integer surface reads as its magnitude: the minus sign is not a digit. */
  lemma CleanSurfaceInt(i: int)
    ensures CleanSurface(Int(i)) == Some(if i < 0 then -i else i)
  {
    var m: nat := if i < 0 then -i else i;
    DigitsOfDigits(NatText(m));
    NatTextValue(m);
    if i < 0 {
      DigitsAppend("-", NatText(m));
      assert Digits("-") == [];
    }
  }

  /** Splitting `zone + " à " + city` gives back the stripped zone and city when
      the zone holds no `" à"`; a trailing separator leaves an empty city. */
  lemma SplitLocationJoin(zone: string, city: string)
    requires !Contains(zone, " \U{E0}")
    ensures SplitLocation(Text(zone + Separator + city)) == (Strip(zone), Strip(city))
  {
    var s := zone + Separator + city;
    var k := |zone|;
    assert OccursAt(s, Separator, k);
    forall j | 0 <= j < k ensures !OccursAt(s, Separator, j) {
      if j + 2 <= k {
        assert !OccursAt(zone, " \U{E0}", j);
        assert s[j..j + 3][..2] == zone[j..j + 2];
      } else {
        assert s[j..j + 3][1] == s[k] == ' ';
      }
    }
    assert IndexOf(s, Separator) == Some(k);
    assert s[..k] == zone;
    assert s[k + 3..] == city;
  }

  /** Text without an `à` has no separator. */
  lemma NoSeparator(s: string)
    requires '\U{E0}' !in s
    ensures !Contains(s, Separator)
  {
    forall j | 0 <= j && j + 3 <= |s| ensures !OccursAt(s, Separator, j) {
      assert s[j..j + 3][1] == s[j + 1];
    }
  }

  lemma JoinLiteral()
    ensures "Maarif" + Separator + "Casablanca" == "Maarif \U{E0} Casablanca"
  {
  }

  lemma SplitLocationExample()
    ensures SplitLocation(Text("Maarif \U{E0} Casablanca")) == ("Maarif", "Casablanca")
  {
    MaarifClean();
    StripUnchanged("Casablanca");
    JoinLiteral();
    SplitLocationOf("Maarif \U{E0} Casablanca", "Maarif", "Casablanca");
  }

  /** A location written as a clean zone, the separator and a clean city
      splits into exactly those two parts. */
  lemma SplitLocationOf(s: string, zone: string, city: string)
    requires s == zone + Separator + city && !Contains(zone, " \U{E0}")
    requires Strip(zone) == zone && Strip(city) == city
    ensures SplitLocation(Text(s)) == (zone, city)
  {
    SplitLocationJoin(zone, city);
  }

  lemma SplitLocationTrailing()
    ensures SplitLocation(Text("Maarif \U{E0} ")) == ("Maarif", "")
  {
    MaarifClean();
    TrailingLiteral();
    SplitLocationOf("Maarif \U{E0} ", "Maarif", "");
  }

  lemma TrailingLiteral()
    ensures "Maarif" + Separator + "" == "Maarif \U{E0} " && Strip("") == ""
  {
  }

  lemma SplitLocationCityOnly()
    ensures SplitLocation(Text("Casablanca")) == (Unknown, "Casablanca")
  {
    NoSeparator("Casablanca");
    StripUnchanged("Casablanca");
  }

  lemma MaarifClean()
    ensures !Contains("Maarif", " \U{E0}") && Strip("Maarif") == "Maarif"
  {
    forall j | 0 <= j && j + 2 <= 6 ensures !OccursAt("Maarif", " \U{E0}", j) {
      assert "Maarif"[j..j + 2][1] == "Maarif"[j + 1];
    }
    StripUnchanged("Maarif");
  }
}

=== FILE: frames.dfy ===
/** A pandas `DataFrame`, column by column: a sequence of labelled columns of
    one common height. Labels may repeat, as they can after `pd.concat`;
    selecting a label reads the first column carrying it. */
module Frames {
  import opened Wrappers
  import opened Cells

  datatype Column = Column(name: string, cells: seq<Cell>)

  datatype Frame = Frame(height: nat, cols: seq<Column>)

  /** Every column is as tall as the frame. */
  predicate Shaped(f: Frame) {
    forall k :: 0 <= k < |f.cols| ==> |f.cols[k].cells| == f.height
  }

  function Names(cols: seq<Column>): (r: seq<string>)
    ensures |r| == |cols|
    ensures forall k :: 0 <= k < |cols| ==> r[k] == cols[k].name
  {
    if cols == [] then [] else [cols[0].name] + Names(cols[1..])
  }

  /** `df.columns.tolist()`. */
  function Labels(f: Frame): seq<string> {
    Names(f.cols)
  }

  predicate Distinct<T(==)>(s: seq<T>) {
    forall i, j :: 0 <= i < j < |s| ==> s[i] != s[j]
  }

  /** The elements after the first of a distinct sequence are distinct and
      apart from the first. */
  lemma DistinctTail<T>(s: seq<T>)
    requires s != [] && Distinct(s)
    ensures Distinct(s[1..]) && s[0] !in s[1..]
  {
    var rest := s[1..];
    forall j | 0 <= j < |rest| ensures rest[j] != s[0] && forall i :: j < i < |rest| ==> rest[j] != rest[i] {
      assert rest[j] == s[j + 1];
      forall i | j < i < |rest| ensures rest[j] != rest[i] {
        assert rest[i] == s[i + 1];
      }
    }
  }

  /** A frame as read from a file: shaped, with distinct labels. */
  predicate WellFormed(f: Frame) {
    Shaped(f) && Distinct(Labels(f))
  }

  /** The position of the first column labelled `name`. */
  function Find(cols: seq<Column>, name: string): (r: Option<nat>)
    ensures r.Some? ==> r.value < |cols| && cols[r.value].name == name
    ensures r.Some? ==> forall k :: 0 <= k < r.value ==> cols[k].name != name
    ensures r.None? <==> name !in Names(cols)
  {
    if cols == [] then None
    else if cols[0].name == name then Some(0)
    else match Find(cols[1..], name)
      case None => None
      case Some(k) => Some(k + 1)
  }

  predicate Has(f: Frame, name: string) {
    name in Labels(f)
  }

  /** `df[name]` / `df.get(name)`: the cells of the first column with that label. */
  function Get(f: Frame, name: string): (r: Option<seq<Cell>>)
    ensures r.Some? <==> Has(f, name)
    ensures Shaped(f) && r.Some? ==> |r.value| == f.height
  {
    match Find(f.cols, name)
    case None => None
    case Some(k) => Some(f.cols[k].cells)
  }

  /** `df[name] = cells`: the first column with that label is replaced in
      place, or a new column is appended on the right. */
  function Assign(f: Frame, name: string, cells: seq<Cell>): (r: Frame)
    ensures r.height == f.height
  {
    match Find(f.cols, name)
    case None => Frame(f.height, f.cols + [Column(name, cells)])
    case Some(k) => Frame(f.height, f.cols[k := Column(name, cells)])
  }

  /** `df.drop(columns=names, errors='ignore')`: every column carrying one of
      the labels goes, the others keep their order. */
  function DropAll(cols: seq<Column>, names: seq<string>): (r: seq<Column>)
    ensures |r| <= |cols|
    ensures forall k :: 0 <= k < |r| ==> r[k] in cols && r[k].name !in names
    ensures forall c :: c in cols && c.name !in names ==> c in r
  {
    if cols == [] then []
    else if cols[0].name in names then DropAll(cols[1..], names)
    else [cols[0]] + DropAll(cols[1..], names)
  }

  function Drop(f: Frame, names: seq<string>): (r: Frame)
    ensures r.height == f.height
  {
    Frame(f.height, DropAll(f.cols, names))
  }

  /** A column of `n` copies of one cell. */
  function Fill(n: nat, c: Cell): (r: seq<Cell>)
    ensures |r| == n && forall i :: 0 <= i < n ==> r[i] == c
  {
    seq(n, _ => c)
  }

  /** The same transformation applied to the cells of every column. */
  function MapColumns(f: Frame, g: seq<Cell> -> seq<Cell>): (r: Frame)
    ensures r.height == f.height && |r.cols| == |f.cols|
    ensures forall k :: 0 <= k < |f.cols| ==> r.cols[k] == Column(f.cols[k].name, g(f.cols[k].cells))
  {
    Frame(f.height, seq(|f.cols|, k requires 0 <= k < |f.cols| => Column(f.cols[k].name, g(f.cols[k].cells))))
  }

  // ---------------------------------------------------------------------------
  // Properties of the column operations

  /** After `df[name] = cells` the label reads back the new cells, and the
      frame stays shaped. */
  lemma AssignGet(f: Frame, name: string, cells: seq<Cell>)
    ensures Get(Assign(f, name, cells), name) == Some(cells)
    ensures Shaped(f) && |cells| == f.height ==> Shaped(Assign(f, name, cells))
  {
    var r := Assign(f, name, cells);
    match Find(f.cols, name)
    case None =>
      assert r.cols[|f.cols|].name == name;
      assert Find(r.cols, name) == Some(|f.cols|) by {
        FindAppend(f.cols, Column(name, cells));
      }
    case Some(k) =>
      assert Find(r.cols, name) == Some(k) by {
        FindUpdate(f.cols, k, Column(name, cells));
      }
  }

  /** Every other label reads back what it read before. */
  lemma AssignOther(f: Frame, name: string, cells: seq<Cell>, other: string)
    requires other != name
    ensures Get(Assign(f, name, cells), other) == Get(f, other)
  {
    var r := Assign(f, name, cells);
    match Find(f.cols, name)
    case None =>
      FindAppendOther(f.cols, Column(name, cells), other);
    case Some(k) =>
      FindUpdateOther(f.cols, k, Column(name, cells), other);
  }

  /** The labels after an assignment: unchanged when the label existed,
      otherwise one more at the end. */
  lemma AssignLabels(f: Frame, name: string, cells: seq<Cell>)
    ensures Has(f, name) ==> Labels(Assign(f, name, cells)) == Labels(f)
    ensures !Has(f, name) ==> Labels(Assign(f, name, cells)) == Labels(f) + [name]
  {
    var r := Assign(f, name, cells);
    if Has(f, name) {
      assert Labels(r) == Labels(f);
    } else {
      assert Labels(r) == Labels(f) + [name];
    }
  }

  lemma {:induction false} FindAppend(cols: seq<Column>, c: Column)
    requires c.name !in Names(cols)
    ensures Find(cols + [c], c.name) == Some(|cols|)
  {
    if cols != [] {
      assert (cols + [c])[1..] == cols[1..] + [c];
      assert Names(cols) == [cols[0].name] + Names(cols[1..]);
      FindAppend(cols[1..], c);
    }
  }

  lemma {:induction false} FindAppendOther(cols: seq<Column>, c: Column, other: string)
    requires c.name != other
    ensures Find(cols + [c], other) == Find(cols, other)
  {
    if cols != [] && cols[0].name != other {
      assert (cols + [c])[1..] == cols[1..] + [c];
      FindAppendOther(cols[1..], c, other);
    }
  }

  lemma {:induction false} FindUpdate(cols: seq<Column>, k: nat, c: Column)
    requires Find(cols, c.name) == Some(k)
    ensures Find(cols[k := c], c.name) == Some(k)
  {
    if k > 0 {
      assert cols[k := c][1..] == cols[1..][k - 1 := c];
      FindUpdate(cols[1..], k - 1, c);
    }
  }

  lemma {:induction false} FindUpdateOther(cols: seq<Column>, k: nat, c: Column, other: string)
    requires Find(cols, c.name) == Some(k) && other != c.name
    ensures Find(cols[k := c], other) == Find(cols, other)
  {
    if k > 0 && cols[0].name != other {
      assert cols[k := c][1..] == cols[1..][k - 1 := c];
      FindUpdateOther(cols[1..], k - 1, c, other);
    }
  }

  /** After dropping, no label of the list is left, and every other label is. */
  lemma DropLabels(f: Frame, names: seq<string>, x: string)
    ensures x in names ==> !Has(Drop(f, names), x)
    ensures x !in names ==> (Has(Drop(f, names), x) <==> Has(f, x))
  {
    if Has(Drop(f, names), x) {
      DropGone(f, names, x);
    }
    if x !in names && Has(f, x) {
      DropKept(f, names, x);
    }
  }

  lemma DropGone(f: Frame, names: seq<string>, x: string)
    requires Has(Drop(f, names), x)
    ensures x !in names && Has(f, x)
  {
    var r := DropAll(f.cols, names);
    var k :| 0 <= k < |r| && Names(r)[k] == x;
    assert r[k] in f.cols;
    var j :| 0 <= j < |f.cols| && f.cols[j] == r[k];
    assert Names(f.cols)[j] == x;
  }

  lemma DropKept(f: Frame, names: seq<string>, x: string)
    requires x !in names && Has(f, x)
    ensures Has(Drop(f, names), x)
  {
    var r := DropAll(f.cols, names);
    var j :| 0 <= j < |f.cols| && Names(f.cols)[j] == x;
    assert f.cols[j] in r;
    var k :| 0 <= k < |r| && r[k] == f.cols[j];
    assert Names(r)[k] == x;
  }

  /** Dropping keeps the frame shaped. */
  lemma DropShaped(f: Frame, names: seq<string>)
    requires Shaped(f)
    ensures Shaped(Drop(f, names))
  {
    var r := DropAll(f.cols, names);
    forall k | 0 <= k < |r| ensures |r[k].cells| == f.height {
      assert r[k] in f.cols;
    }
  }

  /** Every label of the mapped frame reads the transformed cells. */
  lemma GetMapColumns(f: Frame, g: seq<Cell> -> seq<Cell>, x: string)
    ensures Labels(MapColumns(f, g)) == Labels(f)
    ensures Get(MapColumns(f, g), x) == if Has(f, x) then Some(g(Get(f, x).value)) else None
  {
    var r := MapColumns(f, g);
    assert Labels(r) == Labels(f);
    FindByNames(r.cols, f.cols, x);
  }

  /** Where a label is found depends only on the labels. */
  lemma {:induction false} FindByNames(a: seq<Column>, b: seq<Column>, x: string)
    requires Names(a) == Names(b)
    ensures Find(a, x) == Find(b, x)
  {
    if a != [] {
      assert Names(a[1..]) == Names(a)[1..];
      assert Names(b[1..]) == Names(b)[1..];
      FindByNames(a[1..], b[1..], x);
    }
  }

  /** Dropping leaves every other label reading what it read before. */
  lemma {:induction false} DropGet(f: Frame, names: seq<string>, x: string)
    requires x !in names
    ensures Get(Drop(f, names), x) == Get(f, x)
    decreases |f.cols|
  {
    var cols := f.cols;
    if cols != [] {
      var tail := Frame(f.height, cols[1..]);
      DropGet(tail, names, x);
      if cols[0].name != x {
        GetTail(f.height, cols, x);
        if cols[0].name !in names {
          var kept := [cols[0]] + DropAll(cols[1..], names);
          assert kept[1..] == DropAll(cols[1..], names);
          GetTail(f.height, kept, x);
        }
      }
    }
  }

  /** Under distinct labels, each label reads its own column. */
  lemma GetDistinct(f: Frame, k: nat)
    requires Distinct(Labels(f)) && k < |f.cols|
    ensures Get(f, Labels(f)[k]) == Some(f.cols[k].cells)
  {
    var name := Labels(f)[k];
    assert name in Names(f.cols);
    var j := Find(f.cols, name).value;
    assert Labels(f)[j] == name;
    assert j == k;
  }

  /** A label the first column does not carry is looked up in the rest. */
  lemma GetTail(h: nat, cols: seq<Column>, x: string)
    requires cols != [] && cols[0].name != x
    ensures Get(Frame(h, cols), x) == Get(Frame(h, cols[1..]), x)
  {
  }

  /** Columns appended on the right do not change what an earlier label, or a
      label they do not carry, reads. */
  lemma {:induction false} FindAppendCols(a: seq<Column>, b: seq<Column>, x: string)
    requires x in Names(a) || x !in Names(b)
    ensures Find(a + b, x) == Find(a, x)
  {
    if a == [] {
      assert a + b == b;
    } else if a[0].name != x {
      assert (a + b)[1..] == a[1..] + b;
      assert Names(a) == [a[0].name] + Names(a[1..]);
      FindAppendCols(a[1..], b, x);
    }
  }

  lemma GetAppendCols(h: nat, a: seq<Column>, b: seq<Column>, x: string)
    requires x in Names(a) || x !in Names(b)
    ensures Get(Frame(h, a + b), x) == Get(Frame(h, a), x)
  {
    FindAppendCols(a, b, x);
  }

  lemma NamesAppend(a: seq<Column>, b: seq<Column>)
    ensures Names(a + b) == Names(a) + Names(b)
  {
  }
}

=== FILE: output.dfy ===
/** `prepare_output`: the table written back to the spreadsheet — the known
    price, one column per model's predictions, then the listing's context
    columns that the input carries. */
module Output {
  import opened Wrappers
  import opened Errors
  import opened Cells
  import opened Frames
  import Predictor

  /** The context columns copied through, in output order. */
  const Passthrough: seq<string> := ["ville", "zone", "surface", "pi\U{E8}ces", "chambres"]

  /** The known price: the column given, else the input's `prix_dh`, else its
      `prix`, else one `None` per input row. */
  function KnownPrice(original: Frame, priceReal: Option<seq<Cell>>): seq<Cell> {
    match priceReal
    case Some(p) => p
    case None =>
      match Get(original, "prix_dh")
      case Some(c) => c
      case None => Get(original, "prix").GetOr(Fill(original.height, Missing))
  }

  /** `out_df[name] = values` for each prediction in turn; values of another
      length than the table's rows are refused. */
  function AddPredictions(out: Frame, predictions: seq<Column>): (r: Result<Frame, Exc>)
    ensures r.Success? ==> r.value.height == out.height
    decreases |predictions|
  {
    if predictions == [] then Success(out)
    else if |predictions[0].cells| != out.height then Failure(ShapeMismatch)
    else AddPredictions(Assign(out, predictions[0].name, predictions[0].cells), predictions[1..])
  }

  /** A column of the input lined up with the output's rows: pandas aligns
      both default indexes, so rows past the input's end read `NaN` and input
      rows past the output's end are dropped. */
  function Align(cells: seq<Cell>, h: nat): (r: seq<Cell>)
    ensures |r| == h
    ensures forall i :: 0 <= i < h ==> r[i] == if i < |cells| then cells[i] else Missing
  {
    seq(h, i requires 0 <= i < h => if i < |cells| then cells[i] else Missing)
  }

  /** `out_df[col] = df_original[col]` for each listed column the input has. */
  function AddContext(out: Frame, original: Frame, names: seq<string>): (r: Frame)
    ensures r.height == out.height
    decreases |names|
  {
    if names == [] then out
    else if Has(original, names[0]) then
      AddContext(Assign(out, names[0], Align(Get(original, names[0]).value, out.height)), original, names[1..])
    else AddContext(out, original, names[1..])
  }

  /** `prepare_output(df_original, predictions, price_real)`. */
  function PrepareOutput(original: Frame, predictions: seq<Column>, priceReal: Option<seq<Cell>>): Result<Frame, Exc> {
    var price := KnownPrice(original, priceReal);
    var out :- AddPredictions(Frame(|price|, [Column("prix_reel", price)]), predictions);
    Success(AddContext(out, original, Passthrough))
  }

  /** The listed columns the input has, in list order. */
  function Present(original: Frame, names: seq<string>): (r: seq<string>)
    ensures forall x :: x in r <==> x in names && Has(original, x)
  {
    if names == [] then []
    else if Has(original, names[0]) then [names[0]] + Present(original, names[1..])
    else Present(original, names[1..])
  }

  // ---------------------------------------------------------------------------
  // The prediction columns

  /** Adding predictions succeeds exactly when each has one value per row. */
  lemma {:induction false} AddPredictionsSucceeds(out: Frame, predictions: seq<Column>)
    ensures AddPredictions(out, predictions).Success? <==>
              forall k :: 0 <= k < |predictions| ==> |predictions[k].cells| == out.height
    decreases |predictions|
  {
    if predictions != [] {
      var p := predictions[0];
      assert forall k :: 0 <= k < |predictions[1..]| ==> predictions[1..][k] == predictions[k + 1];
      AddPredictionsSucceeds(Assign(out, p.name, p.cells), predictions[1..]);
    }
  }

  /** The labels already there stay first, and a shaped table stays shaped. */
  lemma {:induction false} AddPredictionsPrefix(out: Frame, predictions: seq<Column>)
    requires AddPredictions(out, predictions).Success?
    ensures |Labels(AddPredictions(out, predictions).value)| >= |Labels(out)|
    ensures Labels(AddPredictions(out, predictions).value)[..|Labels(out)|] == Labels(out)
    ensures Shaped(out) ==> Shaped(AddPredictions(out, predictions).value)
    decreases |predictions|
  {
    if predictions != [] {
      var p := predictions[0];
      var next := Assign(out, p.name, p.cells);
      assert AddPredictions(out, predictions) == AddPredictions(next, predictions[1..]);
      assert Labels(next)[..|Labels(out)|] == Labels(out) by {
        AssignLabels(out, p.name, p.cells);
      }
      assert Shaped(out) ==> Shaped(next) by {
        AssignGet(out, p.name, p.cells);
      }
      AddPredictionsPrefix(next, predictions[1..]);
      PrefixOfPrefix(Labels(AddPredictions(next, predictions[1..]).value), Labels(next), Labels(out));
    }
  }

  /** With fresh, distinct names each prediction adds its label at the end,
      in order. */
  lemma {:induction false} AddPredictionsLabels(out: Frame, predictions: seq<Column>)
    requires AddPredictions(out, predictions).Success?
    requires Distinct(Names(predictions))
    requires forall k :: 0 <= k < |predictions| ==> !Has(out, predictions[k].name)
    ensures Labels(AddPredictions(out, predictions).value) == Labels(out) + Names(predictions)
    decreases |predictions|
  {
    if predictions != [] {
      var p := predictions[0];
      var next := Assign(out, p.name, p.cells);
      var rest := predictions[1..];
      assert AddPredictions(out, predictions) == AddPredictions(next, rest);
      assert Labels(next) == Labels(out) + [p.name] by {
        AssignLabels(out, p.name, p.cells);
      }
      assert Names(predictions) == [p.name] + Names(rest) && Distinct(Names(rest)) by {
        NamesTail(predictions);
      }
      FreshTail(out, predictions);
      AddPredictionsLabels(next, rest);
      Regroup(Labels(out), p.name, Names(rest));
    }
  }

  /** A prefix of a prefix is a prefix. */
  lemma PrefixOfPrefix(a: seq<string>, b: seq<string>, c: seq<string>)
    requires |a| >= |b| && a[..|b|] == b && |b| >= |c| && b[..|c|] == c
    ensures |a| >= |c| && a[..|c|] == c
  {
    assert a[..|c|] == a[..|b|][..|c|];
  }

  /** Concatenation regrouped around one element. */
  lemma Regroup(a: seq<string>, x: string, b: seq<string>)
    ensures a + ([x] + b) == (a + [x]) + b
  {
  }

  /** The first name and the names after it, which stay distinct and apart
      from the first when all were distinct. */
  lemma NamesTail(cols: seq<Column>)
    requires cols != []
    ensures Names(cols) == [cols[0].name] + Names(cols[1..])
    ensures Distinct(Names(cols)) ==> Distinct(Names(cols[1..])) && cols[0].name !in Names(cols[1..])
  {
    assert Names(cols)[1..] == Names(cols[1..]);
    if Distinct(Names(cols)) {
      DistinctTail(Names(cols));
    }
  }

  /** Names absent from a table and distinct stay absent after the first of
      them is assigned. */
  lemma FreshTail(out: Frame, predictions: seq<Column>)
    requires predictions != [] && Distinct(Names(predictions))
    requires forall k :: 0 <= k < |predictions| ==> !Has(out, predictions[k].name)
    ensures forall k :: 0 <= k < |predictions| - 1 ==>
              !Has(Assign(out, predictions[0].name, predictions[0].cells), predictions[1..][k].name)
  {
    var p := predictions[0];
    forall k | 0 <= k < |predictions| - 1
      ensures !Has(Assign(out, p.name, p.cells), predictions[1..][k].name)
    {
      var x := predictions[k + 1].name;
      assert x == Names(predictions)[k + 1] && p.name == Names(predictions)[0];
      StillFresh(out, p.name, p.cells, x);
    }
  }

  /** A label absent before an assignment to another label stays absent. */
  lemma StillFresh(f: Frame, name: string, cells: seq<Cell>, x: string)
    requires !Has(f, x) && x != name
    ensures !Has(Assign(f, name, cells), x)
  {
    AssignOther(f, name, cells, x);
  }

  /** Each prediction's label reads its values when the names are distinct;
      every other label reads what it read before. */
  lemma {:induction false} AddPredictionsGet(out: Frame, predictions: seq<Column>, x: string)
    requires AddPredictions(out, predictions).Success?
    ensures x !in Names(predictions) ==> Get(AddPredictions(out, predictions).value, x) == Get(out, x)
    ensures Distinct(Names(predictions)) ==>
              forall k :: 0 <= k < |predictions| && predictions[k].name == x ==>
                Get(AddPredictions(out, predictions).value, x) == Some(predictions[k].cells)
    decreases |predictions|
  {
    if predictions != [] {
      var p := predictions[0];
      var next := Assign(out, p.name, p.cells);
      var rest := predictions[1..];
      NamesTail(predictions);
      AddPredictionsGet(next, rest, x);
      if x == p.name {
        AssignGet(out, p.name, p.cells);
      } else {
        AssignOther(out, p.name, p.cells, x);
      }
      if Distinct(Names(predictions)) {
        forall k | 0 <= k < |predictions| && predictions[k].name == x
          ensures Get(AddPredictions(out, predictions).value, x) == Some(predictions[k].cells)
        {
          if k > 0 {
            assert rest[k - 1] == predictions[k];
          }
        }
      }
    }
  }

  // ---------------------------------------------------------------------------
  // The context columns

  /** The context columns the input has are appended, in list order, when the
      table does not have them yet; the table stays shaped. */
  lemma {:induction false} AddContextLabels(out: Frame, original: Frame, names: seq<string>)
    requires Distinct(names) && forall k :: 0 <= k < |names| ==> !Has(out, names[k])
    ensures Labels(AddContext(out, original, names)) == Labels(out) + Present(original, names)
    decreases |names|
  {
    if names != [] {
      var rest := names[1..];
      assert Distinct(rest) && names[0] !in rest by {
        DistinctTail(names);
      }
      if Has(original, names[0]) {
        var cells := Align(Get(original, names[0]).value, out.height);
        var next := Assign(out, names[0], cells);
        assert AddContext(out, original, names) == AddContext(next, original, rest);
        assert Present(original, names) == [names[0]] + Present(original, rest);
        assert Labels(next) == Labels(out) + [names[0]] by {
          AssignLabels(out, names[0], cells);
        }
        forall k | 0 <= k < |rest| ensures !Has(next, rest[k]) {
          StillFresh(out, names[0], cells, names[k + 1]);
        }
        AddContextLabels(next, original, rest);
        Regroup(Labels(out), names[0], Present(original, rest));
      } else {
        AddContextLabels(out, original, rest);
      }
    }
  }


  /** A listed column the input has reads the input's column lined up with
      the rows; every other label reads what it read before. */
  lemma {:induction false} AddContextGet(out: Frame, original: Frame, names: seq<string>, x: string)
    requires Distinct(names)
    ensures x in names && Has(original, x) ==>
              Get(AddContext(out, original, names), x) == Some(Align(Get(original, x).value, out.height))
    ensures !(x in names && Has(original, x)) ==> Get(AddContext(out, original, names), x) == Get(out, x)
    decreases |names|
  {
    if names != [] {
      var rest := names[1..];
      DistinctTail(names);
      if Has(original, names[0]) {
        var cells := Align(Get(original, names[0]).value, out.height);
        var next := Assign(out, names[0], cells);
        AddContextGet(next, original, rest, x);
        if x == names[0] {
          AssignGet(out, names[0], cells);
        } else {
          AssignOther(out, names[0], cells, x);
        }
      } else {
        AddContextGet(out, original, rest, x);
      }
    }
  }

  // ---------------------------------------------------------------------------
  // The whole output

  lemma PassthroughApart()
    ensures Distinct(Passthrough) && "prix_reel" !in Passthrough
  {
  }

  /** The output is built exactly when every prediction has one value per
      known price, and it is then as tall as the known price and shaped. */
  lemma OutputSucceeds(original: Frame, predictions: seq<Column>, priceReal: Option<seq<Cell>>)
    ensures PrepareOutput(original, predictions, priceReal).Success? <==>
              forall k :: 0 <= k < |predictions| ==> |predictions[k].cells| == |KnownPrice(original, priceReal)|
    ensures PrepareOutput(original, predictions, priceReal).Success? ==>
              PrepareOutput(original, predictions, priceReal).value.height == |KnownPrice(original, priceReal)| &&
              Shaped(PrepareOutput(original, predictions, priceReal).value)
  {
    var price := KnownPrice(original, priceReal);
    var start := Frame(|price|, [Column("prix_reel", price)]);
    AddPredictionsSucceeds(start, predictions);
    if AddPredictions(start, predictions).Success? {
      var out := AddPredictions(start, predictions).value;
      AddPredictionsPrefix(start, predictions);
      AddContextShaped(out, original, Passthrough);
    }
  }

  /** Adding context columns keeps a table shaped, whatever labels it has. */
  lemma {:induction false} AddContextShaped(out: Frame, original: Frame, names: seq<string>)
    requires Shaped(out)
    ensures Shaped(AddContext(out, original, names))
    decreases |names|
  {
    if names != [] {
      if Has(original, names[0]) {
        var cells := Align(Get(original, names[0]).value, out.height);
        AssignGet(out, names[0], cells);
        AddContextShaped(Assign(out, names[0], cells), original, names[1..]);
      } else {
        AddContextShaped(out, original, names[1..]);
      }
    }
  }

  /** The first column is always `prix_reel`; with prediction names that are
      distinct and apart from `prix_reel` and the context columns, the
      columns are exactly `prix_reel`, the predictions in order, and the
      context columns the input has, in their fixed order. */
  lemma OutputLabels(original: Frame, predictions: seq<Column>, priceReal: Option<seq<Cell>>)
    requires PrepareOutput(original, predictions, priceReal).Success?
    ensures |Labels(PrepareOutput(original, predictions, priceReal).value)| > 0
    ensures Labels(PrepareOutput(original, predictions, priceReal).value)[0] == "prix_reel"
    ensures Distinct(Names(predictions)) && "prix_reel" !in Names(predictions) &&
            (forall x :: x in Passthrough ==> x !in Names(predictions)) ==>
              Labels(PrepareOutput(original, predictions, priceReal).value) ==
                ["prix_reel"] + Names(predictions) + Present(original, Passthrough)
  {
    var price := KnownPrice(original, priceReal);
    var start := Frame(|price|, [Column("prix_reel", price)]);
    var out := AddPredictions(start, predictions).value;
    assert Labels(start) == ["prix_reel"];
    AddPredictionsPrefix(start, predictions);
    PassthroughApart();
    AddContextPrefix(out, original, Passthrough);
    assert Labels(out)[0] == "prix_reel";
    if Distinct(Names(predictions)) && "prix_reel" !in Names(predictions) &&
       (forall x :: x in Passthrough ==> x !in Names(predictions)) {
      assert forall k :: 0 <= k < |predictions| ==> !Has(start, predictions[k].name) by {
        forall k | 0 <= k < |predictions| ensures !Has(start, predictions[k].name) {
          assert Names(predictions)[k] == predictions[k].name;
        }
      }
      AddPredictionsLabels(start, predictions);
      assert Labels(out) == ["prix_reel"] + Names(predictions);
      forall k | 0 <= k < |Passthrough| ensures !Has(out, Passthrough[k]) {
        assert Passthrough[k] in Passthrough;
      }
      AddContextLabels(out, original, Passthrough);
    }
  }

  /** Adding context columns never moves the labels already there. */
  lemma {:induction false} AddContextPrefix(out: Frame, original: Frame, names: seq<string>)
    ensures |Labels(AddContext(out, original, names))| >= |Labels(out)|
    ensures Labels(AddContext(out, original, names))[..|Labels(out)|] == Labels(out)
    decreases |names|
  {
    if names != [] {
      if Has(original, names[0]) {
        var cells := Align(Get(original, names[0]).value, out.height);
        var next := Assign(out, names[0], cells);
        AssignLabels(out, names[0], cells);
        AddContextPrefix(next, original, names[1..]);
        var r := AddContext(next, original, names[1..]);
        assert Labels(r)[..|Labels(out)|] == Labels(r)[..|Labels(next)|][..|Labels(out)|];
      } else {
        AddContextPrefix(out, original, names[1..]);
      }
    }
  }

  /** What each output column holds: `prix_reel` the known price, each
      prediction its values, each context column the input's column lined up
      with the rows. */
  lemma OutputColumns(original: Frame, predictions: seq<Column>, priceReal: Option<seq<Cell>>, x: string)
    requires PrepareOutput(original, predictions, priceReal).Success?
    requires Distinct(Names(predictions)) && "prix_reel" !in Names(predictions)
    requires forall y :: y in Passthrough ==> y !in Names(predictions)
    ensures x == "prix_reel" ==>
              Get(PrepareOutput(original, predictions, priceReal).value, x) == Some(KnownPrice(original, priceReal))
    ensures forall k :: 0 <= k < |predictions| && predictions[k].name == x ==>
              Get(PrepareOutput(original, predictions, priceReal).value, x) == Some(predictions[k].cells)
    ensures x in Passthrough && Has(original, x) ==>
              Get(PrepareOutput(original, predictions, priceReal).value, x) ==
                Some(Align(Get(original, x).value, |KnownPrice(original, priceReal)|))
    ensures x in Passthrough && !Has(original, x) ==> !Has(PrepareOutput(original, predictions, priceReal).value, x)
  {
    var price := KnownPrice(original, priceReal);
    var start := Frame(|price|, [Column("prix_reel", price)]);
    var out := AddPredictions(start, predictions).value;
    PassthroughApart();
    AddPredictionsGet(start, predictions, x);
    AddContextGet(out, original, Passthrough, x);
    assert Get(start, "prix_reel") == Some(price);
    if x in Passthrough {
      assert x != "prix_reel" && x !in Names(predictions);
      assert !Has(start, x);
    }
  }

  /** The known price is the one given; without one, the input's `prix_dh`,
      then its `prix`, then a column of `None` as tall as the input. */
  lemma KnownPriceSource(original: Frame, priceReal: Option<seq<Cell>>)
    ensures priceReal.Some? ==> KnownPrice(original, priceReal) == priceReal.value
    ensures priceReal.None? && Has(original, "prix_dh") ==> KnownPrice(original, priceReal) == Get(original, "prix_dh").value
    ensures priceReal.None? && !Has(original, "prix_dh") && Has(original, "prix") ==>
              KnownPrice(original, priceReal) == Get(original, "prix").value
    ensures priceReal.None? && !Has(original, "prix_dh") && !Has(original, "prix") ==>
              |KnownPrice(original, priceReal)| == original.height &&
              forall i :: 0 <= i < original.height ==> KnownPrice(original, priceReal)[i].Missing?
    ensures priceReal.None? && Shaped(original) ==> |KnownPrice(original, priceReal)| == original.height
  {
  }

  /** Writing out what `predict` returned for the same listings, without a
      given price, succeeds exactly when every model that predicted gave one
      value per listing. */
  lemma OutputOfPredict(original: Frame, models: seq<Predictor.Model>, x: Frame)
    requires Shaped(original) && x.height == original.height
    ensures PrepareOutput(original, Predictor.Predict(models, x), None).Success? <==>
              forall k :: 0 <= k < |models| && models[k].run(x).Some? ==> |models[k].run(x).value| == x.height
  {
    var preds := Predictor.Predict(models, x);
    KnownPriceSource(original, None);
    OutputSucceeds(original, preds, None);
    forall k | 0 <= k < |models| ensures |preds[k].cells| == if models[k].run(x).Some? then |models[k].run(x).value| else x.height {
      Predictor.PredictEntry(models, x, k);
    }
  }
}

=== FILE: predictor.dfy ===
/** `PricePredictor`: the registry of trained models, and the three ways of
    asking them for prices — each model on its own, a weighted sum, and a
    mean with a band of ±1.96 standard deviations across models. A model is
    opaque: all the predictor knows of it is what its `predict` returns on a
    feature table, or that it raises. */
module Predictor {
  import opened Wrappers
  import opened Errors
  import opened Cells
  import opened Frames
  import Config
  import Stats

  /** What a model's `predict` does on a feature table: the predictions,
      flattened, or `None` when it raises. */
  type Run = Frame -> Option<seq<real>>

  /** A loaded model under its registry name. */
  datatype Model = Model(name: string, run: Run)

  /** The prediction band of `predict_with_confidence`, row by row. */
  datatype Band = Band(predictions: seq<real>, lower: seq<real>, upper: seq<real>)

  /** The multiple of the standard deviation on each side of the band. */
  const Z: real := 1.96

  // ---------------------------------------------------------------------------
  // Loading

  /** The registry entries whose artifact loads, in registry order; `load`
      stands for `joblib.load` on a file, `None` where it raises. */
  function LoadEntries(entries: seq<(string, string)>, load: string -> Option<Run>): (r: seq<Model>)
    ensures |r| <= |entries|
  {
    if entries == [] then []
    else
      var rest := LoadEntries(entries[1..], load);
      match load(entries[0].1)
      case None => rest
      case Some(run) => [Model(entries[0].0, run)] + rest
  }

  /** `load_models` on a fresh predictor: every model of the registry that
      loads, and an error when none does. */
  function LoadModels(load: string -> Option<Run>): (r: Result<seq<Model>, Exc>)
    ensures r.Success? ==> |r.value| > 0
    ensures r.Failure? ==> r.error == NoModelLoaded
  {
    var models := LoadEntries(Config.Models, load);
    if models == [] then Failure(NoModelLoaded) else Success(models)
  }

  /** Every loaded model comes from an entry whose artifact loaded, and runs
      what that artifact holds. */
  lemma {:induction false} LoadedFrom(entries: seq<(string, string)>, load: string -> Option<Run>, k: nat)
    requires k < |LoadEntries(entries, load)|
    ensures exists i :: 0 <= i < |entries| && entries[i].0 == LoadEntries(entries, load)[k].name &&
              load(entries[i].1) == Some(LoadEntries(entries, load)[k].run)
  {
    var rest := LoadEntries(entries[1..], load);
    if load(entries[0].1).None? {
      LoadedFrom(entries[1..], load, k);
      var i :| 0 <= i < |entries[1..]| && entries[1..][i].0 == rest[k].name && load(entries[1..][i].1) == Some(rest[k].run);
      assert entries[i + 1] == entries[1..][i];
    } else if k > 0 {
      LoadedFrom(entries[1..], load, k - 1);
      var i :| 0 <= i < |entries[1..]| && entries[1..][i].0 == rest[k - 1].name && load(entries[1..][i].1) == Some(rest[k - 1].run);
      assert entries[i + 1] == entries[1..][i];
    } else {
      assert entries[0].0 == LoadEntries(entries, load)[0].name;
    }
  }

  /** Every entry whose artifact loads is among the loaded models. */
  lemma {:induction false} LoadedAll(entries: seq<(string, string)>, load: string -> Option<Run>, i: nat)
    requires i < |entries| && load(entries[i].1).Some?
    ensures exists k :: 0 <= k < |LoadEntries(entries, load)| && LoadEntries(entries, load)[k].name == entries[i].0
  {
    var r := LoadEntries(entries, load);
    var rest := LoadEntries(entries[1..], load);
    if i == 0 {
      assert r[0].name == entries[0].0;
    } else {
      assert entries[1..][i - 1] == entries[i];
      LoadedAll(entries[1..], load, i - 1);
      var k :| 0 <= k < |rest| && rest[k].name == entries[i].0;
      if load(entries[0].1).Some? {
        assert r[k + 1] == rest[k];
      } else {
        assert r[k] == rest[k];
      }
    }
  }

  /** The loaded models keep the registry's order. */
  lemma {:induction false} LoadedOrder(entries: seq<(string, string)>, load: string -> Option<Run>, k: nat, l: nat)
    requires k < l < |LoadEntries(entries, load)|
    ensures exists i, j :: 0 <= i < j < |entries| &&
              entries[i].0 == LoadEntries(entries, load)[k].name && entries[j].0 == LoadEntries(entries, load)[l].name
  {
    var r := LoadEntries(entries, load);
    var rest := LoadEntries(entries[1..], load);
    if load(entries[0].1).None? {
      LoadedOrder(entries[1..], load, k, l);
      var i, j :| 0 <= i < j < |entries[1..]| && entries[1..][i].0 == rest[k].name && entries[1..][j].0 == rest[l].name;
      assert entries[i + 1] == entries[1..][i] && entries[j + 1] == entries[1..][j];
    } else if k > 0 {
      LoadedOrder(entries[1..], load, k - 1, l - 1);
      var i, j :| 0 <= i < j < |entries[1..]| && entries[1..][i].0 == rest[k - 1].name && entries[1..][j].0 == rest[l - 1].name;
      assert entries[i + 1] == entries[1..][i] && entries[j + 1] == entries[1..][j];
    } else {
      LoadedFrom(entries[1..], load, l - 1);
      var j :| 0 <= j < |entries[1..]| && entries[1..][j].0 == rest[l - 1].name && load(entries[1..][j].1) == Some(rest[l - 1].run);
      assert entries[j + 1] == entries[1..][j];
      assert r[0].name == entries[0].0;
    }
  }

  /** Loading fails exactly when no artifact of the registry loads. */
  lemma LoadModelsFails(load: string -> Option<Run>)
    ensures LoadModels(load).Failure? <==> forall i :: 0 <= i < |Config.Models| ==> load(Config.Models[i].1).None?
  {
    var r := LoadEntries(Config.Models, load);
    if r != [] {
      LoadedFrom(Config.Models, load, 0);
    }
    forall i | 0 <= i < |Config.Models| && load(Config.Models[i].1).Some? ensures r != [] {
      LoadedAll(Config.Models, load, i);
    }
  }

  // ---------------------------------------------------------------------------
  // Each model on its own

  /** The output key of one model. */
  function PredictionName(name: string): string {
    "prix_predit_" + name
  }

  function Floats(xs: seq<real>): (r: seq<Cell>)
    ensures |r| == |xs| && forall i :: 0 <= i < |xs| ==> r[i] == Float(xs[i])
  {
    seq(|xs|, i requires 0 <= i < |xs| => Float(xs[i]))
  }

  /** One model's entry of `predict`: its predictions, or one `None` per row
      of the table when it raises. */
  function PredictOne(m: Model, x: Frame): Column {
    match m.run(x)
    case Some(p) => Column(PredictionName(m.name), Floats(p))
    case None => Column(PredictionName(m.name), Fill(x.height, Missing))
  }

  /** `predict`: one entry per loaded model, in the models' order. It never
      fails: a model that raises is recorded, not propagated. */
  function Predict(models: seq<Model>, x: Frame): (r: seq<Column>)
    ensures |r| == |models|
  {
    seq(|models|, k requires 0 <= k < |models| => PredictOne(models[k], x))
  }

  /** Each entry is keyed by its model's name; read back as numbers it gives
      that model's predictions, and a model that raised leaves one missing
      value per row. */
  lemma PredictEntry(models: seq<Model>, x: Frame, k: nat)
    requires k < |models|
    ensures Predict(models, x)[k].name == PredictionName(models[k].name)
    ensures models[k].run(x).Some? ==>
              |Predict(models, x)[k].cells| == |models[k].run(x).value| &&
              forall i :: 0 <= i < |models[k].run(x).value| ==>
                NumericValue(Predict(models, x)[k].cells[i]) == Some(models[k].run(x).value[i])
    ensures models[k].run(x).None? ==>
              |Predict(models, x)[k].cells| == x.height &&
              forall i :: 0 <= i < x.height ==> Predict(models, x)[k].cells[i].Missing?
  {
  }

  /** Models with distinct names give distinct keys. */
  lemma PredictKeys(models: seq<Model>, x: Frame)
    requires forall k, l :: 0 <= k < l < |models| ==> models[k].name != models[l].name
    ensures Distinct(Names(Predict(models, x)))
  {
    var r := Predict(models, x);
    forall k, l | 0 <= k < l < |r| ensures Names(r)[k] != Names(r)[l] {
      var p := "prix_predit_";
      assert Names(r)[k] == p + models[k].name && Names(r)[l] == p + models[l].name;
      assert (p + models[k].name)[|p|..] == models[k].name;
      assert (p + models[l].name)[|p|..] == models[l].name;
    }
  }

  // ---------------------------------------------------------------------------
  // The weighted sum

  /** `weights.get(name, 1/n)`; without weights every model gets `1/n`. */
  function Weight(weights: Option<map<string, real>>, name: string, n: nat): real
    requires n > 0
  {
    match weights
    case None => 1.0 / n as real
    case Some(w) => if name in w then w[name] else 1.0 / n as real
  }

  /** The model's predictions can be added to a row of accumulators: it did
      not raise, and numpy can broadcast them (one value per row, or one
      value for all rows). */
  predicate Fits(m: Model, x: Frame) {
    m.run(x).Some? && (|m.run(x).value| == x.height || |m.run(x).value| == 1)
  }

  predicate AllFit(models: seq<Model>, x: Frame) {
    forall k :: 0 <= k < |models| ==> Fits(models[k], x)
  }

  /** The error of a model that does not fit. */
  function Misfit(m: Model, x: Frame): Exc {
    if m.run(x).None? then ModelFailed(m.name) else ShapeMismatch
  }

  /** `e` is the error of the first model that does not fit. */
  predicate FirstMisfit(models: seq<Model>, x: Frame, e: Exc) {
    exists k :: 0 <= k < |models| && !Fits(models[k], x) && e == Misfit(models[k], x) &&
      forall j :: 0 <= j < k ==> Fits(models[j], x)
  }

  /** The prediction a broadcast gives row `i`. */
  function Pick(p: seq<real>, i: nat): real
    requires |p| == 1 || i < |p|
  {
    if |p| == 1 then p[0] else p[i]
  }

  /** The weighted predictions of the first `k` models for row `i`. */
  function Terms(models: seq<Model>, x: Frame, weights: Option<map<string, real>>, k: nat, i: nat): (t: seq<real>)
    requires 0 < |models| && k <= |models| && i < x.height
    requires forall m :: 0 <= m < k ==> Fits(models[m], x)
    ensures |t| == k
  {
    seq(k, m requires 0 <= m < k => Term(models[m], x, Weight(weights, models[m].name, |models|), i))
  }

  /** One model's weighted prediction for row `i`. */
  function Term(m: Model, x: Frame, w: real, i: nat): real
    requires Fits(m, x) && i < x.height
  {
    w * Pick(m.run(x).value, i)
  }

  /** The weighted sum of every model's prediction for row `i`. */
  function Weighted(models: seq<Model>, x: Frame, weights: Option<map<string, real>>, i: nat): real
    requires 0 < |models| && i < x.height && AllFit(models, x)
  {
    Stats.Sum(Terms(models, x, weights, |models|, i))
  }

  lemma TermsStep(models: seq<Model>, x: Frame, weights: Option<map<string, real>>, k: nat, i: nat)
    requires 0 < |models| && k < |models| && i < x.height
    requires forall m :: 0 <= m <= k ==> Fits(models[m], x)
    ensures Stats.Sum(Terms(models, x, weights, k + 1, i)) ==
              Stats.Sum(Terms(models, x, weights, k, i)) + Term(models[k], x, Weight(weights, models[k].name, |models|), i)
  {
    assert Terms(models, x, weights, k + 1, i)[..k] == Terms(models, x, weights, k, i);
  }

  /** `ensemble_pred += weight * preds`. */
  function Accumulate(acc: seq<real>, m: Model, x: Frame, w: real): (r: seq<real>)
    requires Fits(m, x) && |acc| == x.height
    ensures |r| == x.height && forall i :: 0 <= i < x.height ==> r[i] == acc[i] + Term(m, x, w, i)
  {
    seq(x.height, i requires 0 <= i < x.height => acc[i] + Term(m, x, w, i))
  }

  /** `predict_ensemble`: a row of zeros, to which each model in turn adds its
      weighted predictions. The first model that raises, or whose predictions
      cannot be broadcast onto the rows, stops it with that error. */
  method PredictEnsemble(models: seq<Model>, x: Frame, weights: Option<map<string, real>>)
    returns (r: Result<seq<real>, Exc>)
    requires |models| > 0
    ensures r.Success? <==> AllFit(models, x)
    ensures r.Success? ==> |r.value| == x.height
    ensures r.Success? ==> forall i :: 0 <= i < x.height ==> r.value[i] == Weighted(models, x, weights, i)
    ensures r.Failure? ==> FirstMisfit(models, x, r.error)
  {
    var n := |models|;
    var acc := seq(x.height, _ => 0.0);
    var k := 0;
    while k < n
      invariant 0 <= k <= n && |acc| == x.height
      invariant forall m :: 0 <= m < k ==> Fits(models[m], x)
      invariant forall i :: 0 <= i < x.height ==> acc[i] == Stats.Sum(Terms(models, x, weights, k, i))
    {
      var m := models[k];
      var p := m.run(x);
      if p.None? || (|p.value| != x.height && |p.value| != 1) {
        assert !Fits(models[k], x);
        return Failure(Misfit(m, x));
      }
      assert Fits(models[k], x);
      var next := Accumulate(acc, m, x, Weight(weights, m.name, n));
      forall i | 0 <= i < x.height ensures next[i] == Stats.Sum(Terms(models, x, weights, k + 1, i)) {
        TermsStep(models, x, weights, k, i);
      }
      acc := next;
      k := k + 1;
    }
    return Success(acc);
  }

  /** The weights are not renormalised: when every model gets the same weight
      `c`, a row is `c` times the sum of the predictions. */
  lemma WeightedUniform(models: seq<Model>, x: Frame, weights: Option<map<string, real>>, i: nat, c: real)
    requires 0 < |models| && i < x.height && AllFit(models, x)
    requires forall k :: 0 <= k < |models| ==> Weight(weights, models[k].name, |models|) == c
    ensures Weighted(models, x, weights, i) == c * Stats.Sum(Row(models, x, i))
  {
    var t := Terms(models, x, weights, |models|, i);
    var row := Row(models, x, i);
    var scaled := seq(|row|, m requires 0 <= m < |row| => c * row[m]);
    Stats.SumScale(row, c);
    forall m | 0 <= m < |models| ensures t[m] == scaled[m] {
      assert t[m] == Term(models[m], x, c, i);
    }
    assert t == scaled;
  }

  /** What the models predict for row `i`, broadcasts resolved. */
  function Row(models: seq<Model>, x: Frame, i: nat): (r: seq<real>)
    requires i < x.height && AllFit(models, x)
    ensures |r| == |models|
  {
    seq(|models|, m requires 0 <= m < |models| => Pick(models[m].run(x).value, i))
  }

  /** With the default weights the ensemble is the mean of the models. */
  lemma EnsembleDefaultMean(models: seq<Model>, x: Frame, i: nat)
    requires 0 < |models| && i < x.height && AllFit(models, x)
    ensures Weighted(models, x, None, i) == Stats.Mean(Row(models, x, i))
  {
    var n := |models| as real;
    WeightedUniform(models, x, None, i, 1.0 / n);
    assert (1.0 / n) * Stats.Sum(Row(models, x, i)) == Stats.Sum(Row(models, x, i)) / n;
  }

  /** Only the weights of the loaded models matter: keys naming no model are
      ignored, and a model without a key gets `1/n`. */
  lemma EnsembleWeights(models: seq<Model>, x: Frame, w: map<string, real>, i: nat)
    requires 0 < |models| && i < x.height && AllFit(models, x)
    ensures forall k :: 0 <= k < |models| && models[k].name !in w ==>
              Weight(Some(w), models[k].name, |models|) == 1.0 / |models| as real
    ensures Weighted(models, x, Some(w), i) ==
              Weighted(models, x, Some(map name | name in w && exists k :: 0 <= k < |models| && models[k].name == name :: w[name]), i)
  {
    var kept := map name | name in w && exists k :: 0 <= k < |models| && models[k].name == name :: w[name];
    var a := Terms(models, x, Some(w), |models|, i);
    var b := Terms(models, x, Some(kept), |models|, i);
    forall m | 0 <= m < |models| ensures a[m] == b[m] {
      if models[m].name in w {
        assert models[m].name in kept;
      }
      assert Weight(Some(w), models[m].name, |models|) == Weight(Some(kept), models[m].name, |models|);
    }
    assert a == b;
  }

  // ---------------------------------------------------------------------------
  // The confidence band

  /** Every model's predictions, or the error of the first that raises. */
  function Collect(models: seq<Model>, x: Frame): (r: Result<seq<seq<real>>, Exc>)
    ensures r.Success? <==> forall k :: 0 <= k < |models| ==> models[k].run(x).Some?
    ensures r.Success? ==> |r.value| == |models| && forall k :: 0 <= k < |models| ==> r.value[k] == models[k].run(x).value
  {
    if models == [] then Success([])
    else
      match models[0].run(x)
      case None => Failure(ModelFailed(models[0].name))
      case Some(p) =>
        var rest :- Collect(models[1..], x);
        assert forall k :: 1 <= k < |models| ==> models[k] == models[1..][k - 1];
        Success([p] + rest)
  }

  /** Every model before the `k`-th predicts. */
  predicate PredictsBefore(models: seq<Model>, x: Frame, k: nat) {
    forall j :: 0 <= j < k && j < |models| ==> models[j].run(x).Some?
  }

  /** A raising model stops the collection with its own error: the first one. */
  lemma {:induction false} CollectFails(models: seq<Model>, x: Frame, k: nat)
    requires k < |models| && models[k].run(x).None?
    requires forall j :: 0 <= j < k ==> models[j].run(x).Some?
    ensures Collect(models, x) == Failure(ModelFailed(models[k].name))
  {
    if k > 0 {
      assert forall j :: 0 <= j < k - 1 ==> models[1..][j] == models[j + 1];
      CollectFails(models[1..], x, k - 1);
    }
  }

  /** The predictions of every model for row `i`. */
  function Across(preds: seq<seq<real>>, i: nat): (r: seq<real>)
    requires forall m :: 0 <= m < |preds| ==> i < |preds[m]|
    ensures |r| == |preds| && forall m :: 0 <= m < |preds| ==> r[m] == preds[m][i]
  {
    seq(|preds|, m requires 0 <= m < |preds| => preds[m][i])
  }

  /** Every model predicted the same number of rows. */
  predicate Rectangular(preds: seq<seq<real>>, w: nat) {
    forall m :: 0 <= m < |preds| ==> |preds[m]| == w
  }

  /** `predict_with_confidence`: per row, the mean across models and the
      mean ∓ 1.96 population standard deviations; `root` stands for the
      square root. Predictions of unequal lengths cannot be stacked. */
  function PredictWithConfidence(models: seq<Model>, x: Frame, root: real -> real): (r: Result<Band, Exc>)
    requires |models| > 0
    ensures r.Success? ==> |r.value.predictions| == |r.value.lower| == |r.value.upper|
  {
    var preds :- Collect(models, x);
    var w := |preds[0]|;
    if !Rectangular(preds, w) then Failure(ShapeMismatch)
    else
      var mean := seq(w, i requires 0 <= i < w => Stats.Mean(Across(preds, i)));
      var sd := seq(w, i requires 0 <= i < w => Stats.Std(Across(preds, i), root));
      Success(Band(mean,
                   seq(w, i requires 0 <= i < w => mean[i] - Z * sd[i]),
                   seq(w, i requires 0 <= i < w => mean[i] + Z * sd[i])))
  }

  /** The band is built when every model predicts, the same number of rows;
      otherwise the first raising model's error, or a shape error. */
  lemma ConfidenceSucceeds(models: seq<Model>, x: Frame, root: real -> real)
    requires |models| > 0
    ensures PredictWithConfidence(models, x, root).Success? <==>
              (forall k :: 0 <= k < |models| ==> models[k].run(x).Some?) &&
              forall k :: 0 <= k < |models| ==> |models[k].run(x).value| == |models[0].run(x).value|
    ensures PredictWithConfidence(models, x, root).Success? ==>
              |PredictWithConfidence(models, x, root).value.predictions| == |models[0].run(x).value|
    ensures forall k :: 0 <= k < |models| && models[k].run(x).None? && PredictsBefore(models, x, k) ==>
              PredictWithConfidence(models, x, root) == Failure(ModelFailed(models[k].name))
    ensures (forall k :: 0 <= k < |models| ==> models[k].run(x).Some?) &&
            (exists k :: 0 <= k < |models| && |models[k].run(x).value| != |models[0].run(x).value|) ==>
              PredictWithConfidence(models, x, root) == Failure(ShapeMismatch)
  {
    forall k | 0 <= k < |models| && models[k].run(x).None? && PredictsBefore(models, x, k)
      ensures PredictWithConfidence(models, x, root) == Failure(ModelFailed(models[k].name))
    {
      CollectFails(models, x, k);
    }
  }

  /** The predictions of every model for row `i`, read from the models. */
  function Predictions(models: seq<Model>, x: Frame, i: nat): (r: seq<real>)
    requires forall m :: 0 <= m < |models| ==> models[m].run(x).Some? && i < |models[m].run(x).value|
    ensures |r| == |models|
  {
    seq(|models|, m requires 0 <= m < |models| => models[m].run(x).value[i])
  }

  /** Each row of the band: the mean of the models' predictions, with bounds
      1.96 standard deviations below and above, so the band is symmetric. */
  lemma ConfidenceRow(models: seq<Model>, x: Frame, root: real -> real, i: nat)
    requires |models| > 0
    requires PredictWithConfidence(models, x, root).Success?
    requires i < |PredictWithConfidence(models, x, root).value.predictions|
    ensures forall m :: 0 <= m < |models| ==> models[m].run(x).Some? && i < |models[m].run(x).value|
    ensures var b := PredictWithConfidence(models, x, root).value;
            b.predictions[i] == Stats.Mean(Predictions(models, x, i)) &&
            b.upper[i] - b.predictions[i] == b.predictions[i] - b.lower[i] == Z * Stats.Std(Predictions(models, x, i), root)
  {
    var preds := Collect(models, x).value;
    assert Across(preds, i) == Predictions(models, x, i);
  }

  /** With a square root for `root`, lower ≤ mean ≤ upper on every row. */
  lemma ConfidenceBand(models: seq<Model>, x: Frame, root: real -> real, i: nat)
    requires |models| > 0 && Stats.IsRoot(root)
    requires PredictWithConfidence(models, x, root).Success?
    requires i < |PredictWithConfidence(models, x, root).value.predictions|
    ensures var b := PredictWithConfidence(models, x, root).value;
            b.lower[i] <= b.predictions[i] <= b.upper[i]
  {
    ConfidenceRow(models, x, root, i);
    Stats.StdSign(Predictions(models, x, i), root);
  }

  /** When all models agree on a row the band closes on their common value. */
  lemma ConfidenceAgree(models: seq<Model>, x: Frame, root: real -> real, i: nat)
    requires |models| > 0 && Stats.IsRoot(root)
    requires PredictWithConfidence(models, x, root).Success?
    requires i < |PredictWithConfidence(models, x, root).value.predictions|
    requires forall m :: 0 <= m < |models| ==> models[m].run(x).Some? && i < |models[m].run(x).value|
    requires Stats.Constant(Predictions(models, x, i))
    ensures var b := PredictWithConfidence(models, x, root).value;
            b.lower[i] == b.predictions[i] == b.upper[i] == models[0].run(x).value[i]
  {
    ConfidenceRow(models, x, root, i);
    Stats.StdSign(Predictions(models, x, i), root);
    Stats.MeanConstant(Predictions(models, x, i));
  }

  /** The band's centre is the ensemble with default weights whenever the
      models predict one value per row of the table. */
  lemma ConfidenceIsEnsemble(models: seq<Model>, x: Frame, root: real -> real, i: nat)
    requires |models| > 0 && i < x.height
    requires forall m :: 0 <= m < |models| ==> models[m].run(x).Some? && |models[m].run(x).value| == x.height
    ensures AllFit(models, x) && PredictWithConfidence(models, x, root).Success?
    ensures PredictWithConfidence(models, x, root).value.predictions[i] == Weighted(models, x, None, i)
  {
    ConfidenceSucceeds(models, x, root);
    EnsembleDefaultMean(models, x, i);
    ConfidenceRow(models, x, root, i);
    assert Row(models, x, i) == Predictions(models, x, i);
  }
}

=== FILE: preprocess.dfy ===
/** `DataPreprocessor.preprocess`: the table-level cleaning that turns scraped
    listings into the cleaned table, step by step as src/preprocessor.py does
    it, and `extract_location`, the step that splits the location column. */
module Preprocess {
  import opened Wrappers
  import opened Errors
  import opened Cells
  import opened Fields
  import opened Frames
  import Config
  import Stats
  import Text

  // ---------------------------------------------------------------------------
  // Column-level steps

  predicate AllFlags(cells: seq<Cell>) {
    forall i :: 0 <= i < |cells| ==> cells[i].Flag?
  }

  /** `astype(int)` on a boolean column; a column of any other type is left alone. */
  function IntifyBools(cells: seq<Cell>): (r: seq<Cell>)
    ensures |r| == |cells|
  {
    if AllFlags(cells) then seq(|cells|, i requires 0 <= i < |cells| => Int(if cells[i].b then 1 else 0))
    else cells
  }

  function Unblank(c: Cell): Cell {
    if IsBlank(c) then Missing else c
  }

  /** `replace(["", " ", …, "    "], NaN)` on one column. */
  function ReplaceBlanks(cells: seq<Cell>): (r: seq<Cell>)
    ensures |r| == |cells| && forall i :: 0 <= i < |cells| ==> r[i] == Unblank(cells[i])
  {
    seq(|cells|, i requires 0 <= i < |cells| => Unblank(cells[i]))
  }

  /** The two steps applied to every column before any cleaning. */
  function Normalise(cells: seq<Cell>): (r: seq<Cell>)
    ensures |r| == |cells|
  {
    ReplaceBlanks(IntifyBools(cells))
  }

  /** A cleaned price as a float cell, `NaN` for none. */
  function PriceCell(v: Option<real>): Cell {
    match v
    case None => Missing
    case Some(x) => Float(x)
  }

  /** `apply(clean_price)`: the first cell whose cleaning raises aborts the column. */
  function CleanPrices(cells: seq<Cell>): (r: Result<seq<Cell>, Exc>)
    ensures r.Success? <==> forall i :: 0 <= i < |cells| ==> CleanPrice(cells[i]).Success?
    ensures r.Success? ==> |r.value| == |cells|
    ensures r.Success? ==> forall i :: 0 <= i < |cells| ==> r.value[i] == PriceCell(CleanPrice(cells[i]).value)
    ensures r.Failure? ==> r.error == UnparsableRun
  {
    if cells == [] then Success([])
    else
      var v :- CleanPrice(cells[0]);
      var t :- CleanPrices(cells[1..]);
      assert forall i :: 1 <= i < |cells| ==> cells[i] == cells[1..][i - 1];
      Success([PriceCell(v)] + t)
  }

  function SurfaceCell(c: Cell): Cell {
    match CleanSurface(c)
    case None => Missing
    case Some(n) => Int(n)
  }

  /** `apply(clean_surface)`. */
  function CleanSurfaces(cells: seq<Cell>): (r: seq<Cell>)
    ensures |r| == |cells| && forall i :: 0 <= i < |cells| ==> r[i] == SurfaceCell(cells[i])
  {
    seq(|cells|, i requires 0 <= i < |cells| => SurfaceCell(cells[i]))
  }

  /** The zone list `extract_location` builds. */
  function Zones(cells: seq<Cell>): (r: seq<Cell>)
    ensures |r| == |cells| && forall i :: 0 <= i < |cells| ==> r[i] == Text(SplitLocation(cells[i]).0)
  {
    seq(|cells|, i requires 0 <= i < |cells| => Text(SplitLocation(cells[i]).0))
  }

  /** The city list `extract_location` builds. */
  function Cities(cells: seq<Cell>): (r: seq<Cell>)
    ensures |r| == |cells| && forall i :: 0 <= i < |cells| ==> r[i] == Text(SplitLocation(cells[i]).1)
  {
    seq(|cells|, i requires 0 <= i < |cells| => Text(SplitLocation(cells[i]).1))
  }

  function FillUnknownCell(c: Cell): Cell {
    if c.Missing? then Text(Unknown) else c
  }

  /** `fillna("Unknown")`. */
  function FillUnknown(cells: seq<Cell>): (r: seq<Cell>)
    ensures |r| == |cells| && forall i :: 0 <= i < |cells| ==> r[i] == FillUnknownCell(cells[i])
  {
    seq(|cells|, i requires 0 <= i < |cells| => FillUnknownCell(cells[i]))
  }

  /** Every present cell reads as a number (`float()` of it succeeds). */
  predicate Numeric(cells: seq<Cell>) {
    forall i :: 0 <= i < |cells| && !cells[i].Missing? ==> NumericValue(cells[i]).Some?
  }

  predicate SomeText(cells: seq<Cell>) {
    exists i :: 0 <= i < |cells| && cells[i].Text?
  }

  predicate SomeInt(cells: seq<Cell>) {
    exists i :: 0 <= i < |cells| && cells[i].Int?
  }

  predicate SomeFloat(cells: seq<Cell>) {
    exists i :: 0 <= i < |cells| && cells[i].Float?
  }

  predicate SomeFlag(cells: seq<Cell>) {
    exists i :: 0 <= i < |cells| && cells[i].Flag?
  }

  /** pandas' `median()` of the column raises. Ignoring missing cells, the
      inferred type is "string" or "mixed" when no integer is present and the
      column holds text, or a float beside a boolean; otherwise the values are
      cast to float, which fails on a text `float()` rejects. */
  predicate MedianRaises(cells: seq<Cell>) {
    (!SomeInt(cells) && (SomeText(cells) || (SomeFloat(cells) && SomeFlag(cells)))) || !Numeric(cells)
  }

  /** The numbers of a column, in order, skipping the cells that hold none. */
  function Present(cells: seq<Cell>): (r: seq<real>)
    ensures |r| <= |cells|
  {
    if cells == [] then []
    else
      (match NumericValue(cells[0]) case Some(v) => [v] case None => []) + Present(cells[1..])
  }

  /** `to_numeric(errors='coerce')` of one cell: text as the number it spells
      (missing where it spells none), a boolean as 0 or 1. */
  function ToNumber(c: Cell): Cell {
    match c
    case Text(s) => if Text.ParseDecimal(s).Some? then Float(Text.ParseDecimal(s).value) else Missing
    case Flag(b) => Int(if b then 1 else 0)
    case _ => c
  }

  /** Coercing a cell that reads as a number keeps its value, as an integer
      or a float; integers and floats are left as they are. */
  lemma ToNumberKeeps(c: Cell)
    requires !c.Missing? && NumericValue(c).Some?
    ensures ToNumber(c).Int? || ToNumber(c).Float?
    ensures NumericValue(ToNumber(c)) == NumericValue(c)
    ensures c.Int? || c.Float? ==> ToNumber(c) == c
  {
  }

  /** `to_numeric(col, errors='coerce').fillna(col.median())`. The median is
      taken over the column as it was, before the coercion, and raises as
      `MedianRaises` says; otherwise every missing cell takes the median of
      the present numbers, and a column with nothing but missing cells stays
      as it is. */
  function Impute(name: string, cells: seq<Cell>): (r: Result<seq<Cell>, Exc>)
    ensures r.Failure? <==> MedianRaises(cells)
    ensures (forall i :: 0 <= i < |cells| ==> cells[i].Missing? || cells[i].Int? || cells[i].Float?) ==> r.Success?
    ensures r.Success? ==> Numeric(cells)
    ensures r.Failure? ==> r.error == NotNumeric(name)
    ensures r.Success? ==> |r.value| == |cells|
  {
    if MedianRaises(cells) then Failure(NotNumeric(name))
    else
      match Stats.Median(Present(cells))
      case None => Success(cells)
      case Some(m) =>
        Success(seq(|cells|, i requires 0 <= i < |cells| => if cells[i].Missing? then Float(m) else ToNumber(cells[i])))
  }

  /** Normalising a column: exactly the blank strings become missing, and a
      column of booleans becomes 0/1 integers; nothing else changes. */
  lemma NormaliseCells(cells: seq<Cell>, i: nat)
    requires i < |cells|
    ensures Normalise(cells)[i].Missing? <==> cells[i].Missing? || IsBlank(cells[i])
    ensures AllFlags(cells) ==> Normalise(cells)[i] == Int(if cells[i].b then 1 else 0)
    ensures !AllFlags(cells) && !IsBlank(cells[i]) ==> Normalise(cells)[i] == cells[i]
  {
  }

  // ---------------------------------------------------------------------------
  // Table-level steps

  /** Step 0: booleans to integers, blank strings to missing, in every column. */
  function NormaliseAll(f: Frame): Frame {
    MapColumns(f, Normalise)
  }

  /** Step 1: the price in dirhams, from `prix` when there is one, else by
      re-cleaning an existing `prix_dh`. */
  function PriceStep(f: Frame): Result<Frame, Exc> {
    if Has(f, "prix") then
      var p :- CleanPrices(Get(f, "prix").value);
      Success(Assign(f, "prix_dh", p))
    else if Has(f, "prix_dh") then
      var p :- CleanPrices(Get(f, "prix_dh").value);
      Success(Assign(f, "prix_dh", p))
    else Success(f)
  }

  /** Step 2: the surface as an integer. */
  function SurfaceStep(f: Frame): Frame {
    if Has(f, "surface") then Assign(f, "surface", CleanSurfaces(Get(f, "surface").value)) else f
  }

  /** The table `extract_location` builds before dropping the location column. */
  function WithPlaces(f: Frame, loc: seq<Cell>): Frame {
    Assign(Assign(f, "zone", Zones(loc)), "ville", Cities(loc))
  }

  /** `extract_location`: `zone` and `ville` from `localisation`, which is then
      dropped. Without a location column the lists are empty, which pandas
      accepts only for a table without rows. */
  function ExtractLocation(f: Frame): (r: Result<Frame, Exc>)
    ensures Shaped(f) ==> (Has(f, "localisation") || f.height == 0 <==> r.Success?)
    ensures r.Failure? ==> r.error == ShapeMismatch
  {
    var loc := Get(f, "localisation").GetOr([]);
    if |loc| != f.height then Failure(ShapeMismatch)
    else Success(Drop(WithPlaces(f, loc), ["localisation"]))
  }

  /** Step 3: the location split, when there is a location column. */
  function LocationStep(f: Frame): Result<Frame, Exc> {
    if Has(f, "localisation") then ExtractLocation(f) else Success(f)
  }

  /** Step 4: a column of `zone` or `ville` with no missing cell, all
      `"Unknown"` when the table had none. */
  function FillStep(f: Frame, name: string): Frame {
    Assign(f, name, FillUnknown(Get(f, name).GetOr(Fill(f.height, Text(Unknown)))))
  }

  /** Steps 0 to 5: everything before the imputation. */
  function Cleaned(f: Frame): Result<Frame, Exc> {
    var priced :- PriceStep(NormaliseAll(f));
    var located :- LocationStep(SurfaceStep(priced));
    Success(Drop(FillStep(FillStep(located, "zone"), "ville"), Config.ColumnsToDrop))
  }

  /** Step 6: median imputation of each listed column that is present. */
  function ImputeAll(f: Frame, names: seq<string>): Result<Frame, Exc>
    decreases |names|
  {
    if names == [] then Success(f)
    else if Has(f, names[0]) then
      var cells :- Impute(names[0], Get(f, names[0]).value);
      ImputeAll(Assign(f, names[0], cells), names[1..])
    else ImputeAll(f, names[1..])
  }

  /** `preprocess`. */
  function Preprocess(f: Frame): Result<Frame, Exc> {
    var c :- Cleaned(f);
    ImputeAll(c, Config.NumericalColumns)
  }

  // ---------------------------------------------------------------------------
  // What each step does to one column

  lemma NormaliseAllGet(f: Frame, x: string)
    ensures Labels(NormaliseAll(f)) == Labels(f)
    ensures Get(NormaliseAll(f), x) == if Has(f, x) then Some(Normalise(Get(f, x).value)) else None
    ensures Shaped(f) ==> Shaped(NormaliseAll(f))
  {
    GetMapColumns(f, Normalise, x);
  }

  /** The column the price is cleaned from, already normalised. */
  function PriceSource(f: Frame): Option<seq<Cell>> {
    if Has(f, "prix") then Get(f, "prix") else Get(f, "prix_dh")
  }

  lemma PriceStepGet(f: Frame, x: string)
    ensures PriceStep(f).Success? <==> PriceSource(f).None? || CleanPrices(PriceSource(f).value).Success?
    ensures PriceStep(f).Failure? ==> PriceStep(f).error == UnparsableRun
    ensures PriceStep(f).Success? && x != "prix_dh" ==> Get(PriceStep(f).value, x) == Get(f, x)
    ensures PriceStep(f).Success? && PriceSource(f).Some? ==>
      Get(PriceStep(f).value, "prix_dh") == Some(CleanPrices(PriceSource(f).value).value)
    ensures PriceStep(f).Success? && PriceSource(f).None? ==> PriceStep(f).value == f
    ensures Shaped(f) && PriceStep(f).Success? ==> Shaped(PriceStep(f).value)
  {
    if PriceStep(f).Success? && PriceSource(f).Some? {
      var p := CleanPrices(PriceSource(f).value).value;
      AssignGet(f, "prix_dh", p);
      if x != "prix_dh" {
        AssignOther(f, "prix_dh", p, x);
      }
    }
  }

  lemma SurfaceStepGet(f: Frame, x: string)
    ensures Get(SurfaceStep(f), x) ==
      if x == "surface" && Has(f, x) then Some(CleanSurfaces(Get(f, x).value)) else Get(f, x)
    ensures Shaped(f) ==> Shaped(SurfaceStep(f))
  {
    if Has(f, "surface") {
      var c := CleanSurfaces(Get(f, "surface").value);
      AssignGet(f, "surface", c);
      if x != "surface" {
        AssignOther(f, "surface", c, x);
      }
    }
  }

  lemma WithPlacesGet(f: Frame, loc: seq<Cell>)
    ensures Get(WithPlaces(f, loc), "zone") == Some(Zones(loc))
    ensures Get(WithPlaces(f, loc), "ville") == Some(Cities(loc))
    ensures Shaped(f) && |loc| == f.height ==> Shaped(WithPlaces(f, loc))
  {
    var z := Assign(f, "zone", Zones(loc));
    AssignGet(f, "zone", Zones(loc));
    AssignGet(z, "ville", Cities(loc));
    AssignOther(z, "ville", Cities(loc), "zone");
  }

  /** `extract_location` on a table with a location column: zone and city
      lists from it, and the column itself gone. */
  lemma ExtractLocationGet(f: Frame)
    requires Shaped(f) && Has(f, "localisation")
    ensures ExtractLocation(f).Success?
    ensures !Has(ExtractLocation(f).value, "localisation")
    ensures Get(ExtractLocation(f).value, "zone") == Some(Zones(Get(f, "localisation").value))
    ensures Get(ExtractLocation(f).value, "ville") == Some(Cities(Get(f, "localisation").value))
    ensures Shaped(ExtractLocation(f).value)
  {
    var loc := Get(f, "localisation").value;
    var v := WithPlaces(f, loc);
    assert ExtractLocation(f) == Success(Drop(v, ["localisation"]));
    WithPlacesGet(f, loc);
    DroppedLocation(v, Zones(loc), Cities(loc));
  }

  /** Dropping the location column keeps the zone and city columns. */
  lemma DroppedLocation(v: Frame, zones: seq<Cell>, cities: seq<Cell>)
    requires Get(v, "zone") == Some(zones) && Get(v, "ville") == Some(cities)
    ensures !Has(Drop(v, ["localisation"]), "localisation")
    ensures Get(Drop(v, ["localisation"]), "zone") == Some(zones)
    ensures Get(Drop(v, ["localisation"]), "ville") == Some(cities)
    ensures Shaped(v) ==> Shaped(Drop(v, ["localisation"]))
  {
    DropLabels(v, ["localisation"], "localisation");
    DropGet(v, ["localisation"], "zone");
    DropGet(v, ["localisation"], "ville");
    if Shaped(v) {
      DropShaped(v, ["localisation"]);
    }
  }

  /** `extract_location` leaves every other column as it was. */
  lemma ExtractLocationOther(f: Frame, x: string)
    requires Shaped(f) && Has(f, "localisation")
    requires x != "zone" && x != "ville" && x != "localisation"
    ensures ExtractLocation(f).Success? && Get(ExtractLocation(f).value, x) == Get(f, x)
  {
    var loc := Get(f, "localisation").value;
    var z := Assign(f, "zone", Zones(loc));
    var v := WithPlaces(f, loc);
    assert ExtractLocation(f) == Success(Drop(v, ["localisation"]));
    AssignOther(f, "zone", Zones(loc), x);
    AssignOther(z, "ville", Cities(loc), x);
    DropGet(v, ["localisation"], x);
  }

  lemma FillStepGet(f: Frame, name: string, x: string)
    ensures Get(FillStep(f, name), name) == Some(FillUnknown(Get(f, name).GetOr(Fill(f.height, Text(Unknown)))))
    ensures forall c :: c in Get(FillStep(f, name), name).value ==> !c.Missing?
    ensures x != name ==> Get(FillStep(f, name), x) == Get(f, x)
    ensures Shaped(f) ==> Shaped(FillStep(f, name)) && |Get(FillStep(f, name), name).value| == f.height
  {
    var c := FillUnknown(Get(f, name).GetOr(Fill(f.height, Text(Unknown))));
    AssignGet(f, name, c);
    if x != name {
      AssignOther(f, name, c, x);
    }
  }

  // ---------------------------------------------------------------------------
  // Median imputation

  lemma {:induction false} PresentEmpty(cells: seq<Cell>)
    requires Numeric(cells)
    ensures Present(cells) == [] <==> forall i :: 0 <= i < |cells| ==> cells[i].Missing?
  {
    if cells != [] {
      assert forall i :: 1 <= i < |cells| ==> cells[i] == cells[1..][i - 1];
      PresentEmpty(cells[1..]);
    }
  }

  /** Every number the median is taken over is the value of some present cell. */
  lemma {:induction false} PresentValues(cells: seq<Cell>)
    ensures forall v :: v in Present(cells) ==>
      exists i :: 0 <= i < |cells| && !cells[i].Missing? && NumericValue(cells[i]) == Some(v)
  {
    if cells != [] {
      assert forall i :: 1 <= i < |cells| ==> cells[i] == cells[1..][i - 1];
      PresentValues(cells[1..]);
      forall v | v in Present(cells)
        ensures exists i :: 0 <= i < |cells| && !cells[i].Missing? && NumericValue(cells[i]) == Some(v)
      {
        if v !in Present(cells[1..]) {
          assert !cells[0].Missing? && NumericValue(cells[0]) == Some(v);
        } else {
          var i :| 0 <= i < |cells[1..]| && !cells[1..][i].Missing? && NumericValue(cells[1..][i]) == Some(v);
          assert cells[i + 1] == cells[1..][i];
        }
      }
    }
  }

  /** Imputation keeps the value of every present cell, as an integer or a
      float (integers and floats unchanged), fills every missing one with the
      median when the column has a number, and changes nothing when it has none. */
  lemma ImputeCells(name: string, cells: seq<Cell>, i: nat)
    requires !MedianRaises(cells) && i < |cells|
    ensures Impute(name, cells).Success? && Numeric(cells)
    ensures !cells[i].Missing? ==>
              var c := Impute(name, cells).value[i];
              (c.Int? || c.Float?) && NumericValue(c) == NumericValue(cells[i])
    ensures cells[i].Int? || cells[i].Float? ==> Impute(name, cells).value[i] == cells[i]
    ensures cells[i].Missing? && Present(cells) != [] ==>
      Impute(name, cells).value[i] == Float(Stats.Median(Present(cells)).value)
    ensures (forall j :: 0 <= j < |cells| ==> cells[j].Missing?) ==> Impute(name, cells).value == cells
  {
    PresentEmpty(cells);
    var r := Impute(name, cells).value;
    if Present(cells) == [] {
      assert r == cells;
    } else {
      var m := Stats.Median(Present(cells)).value;
      assert r[i] == if cells[i].Missing? then Float(m) else ToNumber(cells[i]);
      if !cells[i].Missing? {
        ToNumberKeeps(cells[i]);
      }
    }
  }

  /** A filled-in value lies between the least and the greatest number of the column. */
  lemma ImputeBounds(name: string, cells: seq<Cell>, i: nat)
    requires !MedianRaises(cells) && i < |cells| && cells[i].Missing?
    requires exists j :: 0 <= j < |cells| && !cells[j].Missing?
    ensures Impute(name, cells).value[i].Float?
    ensures exists j :: 0 <= j < |cells| && !cells[j].Missing? && NumericValue(cells[j]).Some? &&
              NumericValue(cells[j]).value <= Impute(name, cells).value[i].x
    ensures exists j :: 0 <= j < |cells| && !cells[j].Missing? && NumericValue(cells[j]).Some? &&
              Impute(name, cells).value[i].x <= NumericValue(cells[j]).value
  {
    PresentEmpty(cells);
    var xs := Present(cells);
    var m := Stats.Median(xs).value;
    ImputeCells(name, cells, i);
    Stats.MedianBounds(xs);
    PresentValues(cells);
    var a :| 0 <= a < |xs| && xs[a] <= m;
    var b :| 0 <= b < |xs| && m <= xs[b];
    assert xs[a] in xs && xs[b] in xs;
  }

  /** An integer beside text that spells a number: pandas infers
      "mixed-integer" and casts the text to float, so the median is defined
      and `Impute` succeeds. */
  lemma ImputeMixedInteger()
    ensures !MedianRaises([Int(1), Text("3"), Missing])
  {
    var cells := [Int(1), Text("3"), Missing];
    assert NumericValue(Text("3")).Some? by {
      Text.ParseDecimalDigits("3");
    }
    assert SomeInt(cells) by {
      assert cells[0].Int?;
    }
    forall i | 0 <= i < |cells| && !cells[i].Missing?
      ensures NumericValue(cells[i]).Some?
    {
      if i == 1 {
        assert cells[i] == Text("3");
      }
    }
  }

  /** A float beside a boolean with no integer is "mixed": the median raises. */
  lemma ImputeFloatFlag(name: string, x: real, b: bool)
    ensures Impute(name, [Float(x), Flag(b), Missing]) == Failure(NotNumeric(name))
  {
    var cells := [Float(x), Flag(b), Missing];
    assert MedianRaises(cells) by {
      assert cells[0].Float? && cells[1].Flag?;
      assert !SomeInt(cells);
    }
  }

  /** Text with no integer beside it is "string" or "mixed": the median raises,
      however numeric the text reads. */
  lemma ImputeTextOnly(name: string, cells: seq<Cell>, i: nat)
    requires i < |cells| && cells[i].Text?
    requires forall j :: 0 <= j < |cells| ==> !cells[j].Int?
    ensures Impute(name, cells) == Failure(NotNumeric(name))
  {
  }

  lemma {:induction false} ImputeAllLabels(f: Frame, names: seq<string>)
    requires ImputeAll(f, names).Success?
    ensures Labels(ImputeAll(f, names).value) == Labels(f)
    ensures ImputeAll(f, names).value.height == f.height
    ensures Shaped(f) ==> Shaped(ImputeAll(f, names).value)
    decreases |names|
  {
    if names != [] && Has(f, names[0]) {
      var cells := Impute(names[0], Get(f, names[0]).value).value;
      AssignLabels(f, names[0], cells);
      AssignGet(f, names[0], cells);
      ImputeAllLabels(Assign(f, names[0], cells), names[1..]);
    } else if names != [] {
      ImputeAllLabels(f, names[1..]);
    }
  }

  /** A column that is not listed is not touched. */
  lemma {:induction false} ImputeAllOther(f: Frame, names: seq<string>, x: string)
    requires ImputeAll(f, names).Success? && x !in names
    ensures Get(ImputeAll(f, names).value, x) == Get(f, x)
    decreases |names|
  {
    if names != [] && Has(f, names[0]) {
      var cells := Impute(names[0], Get(f, names[0]).value).value;
      AssignOther(f, names[0], cells, x);
      ImputeAllOther(Assign(f, names[0], cells), names[1..], x);
    } else if names != [] {
      ImputeAllOther(f, names[1..], x);
    }
  }

  /** A listed column that is present is imputed; an absent one is not created. */
  lemma {:induction false} ImputeAllGet(f: Frame, names: seq<string>, x: string)
    requires ImputeAll(f, names).Success? && Distinct(names) && x in names
    ensures Has(f, x) ==> Impute(x, Get(f, x).value).Success?
    ensures Has(f, x) ==> Get(ImputeAll(f, names).value, x) == Some(Impute(x, Get(f, x).value).value)
    ensures !Has(f, x) ==> Get(ImputeAll(f, names).value, x) == None
    decreases |names|
  {
    var rest := names[1..];
    assert Distinct(rest) by {
      forall i, j | 0 <= i < j < |rest| ensures rest[i] != rest[j] {
        assert rest[i] == names[i + 1] && rest[j] == names[j + 1];
      }
    }
    if Has(f, names[0]) {
      var cells := Impute(names[0], Get(f, names[0]).value).value;
      var g := Assign(f, names[0], cells);
      if x == names[0] {
        assert x !in rest;
        AssignGet(f, x, cells);
        ImputeAllOther(g, rest, x);
      } else {
        AssignOther(f, names[0], cells, x);
        ImputeAllGet(g, rest, x);
      }
    } else if x == names[0] {
      assert x !in rest;
      ImputeAllOther(f, rest, x);
    } else {
      ImputeAllGet(f, rest, x);
    }
  }

  /** Some listed column that is present has no median. */
  predicate RaisesIn(f: Frame, names: seq<string>) {
    exists k :: 0 <= k < |names| && Has(f, names[k]) && MedianRaises(Get(f, names[k]).value)
  }

  lemma RaisesInCons(f: Frame, names: seq<string>)
    requires names != []
    ensures RaisesIn(f, names) <==>
              (Has(f, names[0]) && MedianRaises(Get(f, names[0]).value)) || RaisesIn(f, names[1..])
  {
    if RaisesIn(f, names[1..]) {
      var k :| 0 <= k < |names[1..]| && Has(f, names[1..][k]) && MedianRaises(Get(f, names[1..][k]).value);
      assert names[k + 1] == names[1..][k];
    }
    if RaisesIn(f, names) {
      var k :| 0 <= k < |names| && Has(f, names[k]) && MedianRaises(Get(f, names[k]).value);
      if k > 0 {
        assert names[k] == names[1..][k - 1];
      }
    }
  }

  lemma RaisesInSame(f: Frame, g: Frame, names: seq<string>)
    requires forall k :: 0 <= k < |names| ==> Get(g, names[k]) == Get(f, names[k])
    ensures RaisesIn(g, names) == RaisesIn(f, names)
  {
  }

  /** Imputation fails exactly when a listed column that is present has no median. */
  lemma {:induction false} ImputeAllFails(f: Frame, names: seq<string>)
    requires Distinct(names)
    ensures ImputeAll(f, names).Failure? <==> RaisesIn(f, names)
    ensures ImputeAll(f, names).Failure? ==>
              exists k :: 0 <= k < |names| && ImputeAll(f, names).error == NotNumeric(names[k])
    decreases |names|
  {
    if names != [] {
      var rest := names[1..];
      DistinctTail(names);
      RaisesInCons(f, names);
      if Has(f, names[0]) && !MedianRaises(Get(f, names[0]).value) {
        var cells := Impute(names[0], Get(f, names[0]).value).value;
        var g := Assign(f, names[0], cells);
        forall k | 0 <= k < |rest| ensures Get(g, rest[k]) == Get(f, rest[k]) {
          AssignOther(f, names[0], cells, rest[k]);
        }
        RaisesInSame(f, g, rest);
        ImputeAllFails(g, rest);
        ImputeAllErrorShift(g, names);
      } else if !Has(f, names[0]) {
        ImputeAllFails(f, rest);
        ImputeAllErrorShift(f, names);
      }
    }
  }

  lemma ImputeAllErrorShift(g: Frame, names: seq<string>)
    requires names != []
    requires ImputeAll(g, names[1..]).Failure? ==>
               exists k :: 0 <= k < |names[1..]| && ImputeAll(g, names[1..]).error == NotNumeric(names[1..][k])
    ensures ImputeAll(g, names[1..]).Failure? ==>
              exists k :: 0 <= k < |names| && ImputeAll(g, names[1..]).error == NotNumeric(names[k])
  {
    if ImputeAll(g, names[1..]).Failure? {
      var k :| 0 <= k < |names[1..]| && ImputeAll(g, names[1..]).error == NotNumeric(names[1..][k]);
      assert names[k + 1] == names[1..][k];
    }
  }

  // ---------------------------------------------------------------------------
  // The whole of `preprocess`

  /** The columns the steps create are neither dropped nor imputed. */
  lemma CreatedKept()
    ensures "zone" !in Config.ColumnsToDrop && "ville" !in Config.ColumnsToDrop
    ensures "prix_dh" !in Config.ColumnsToDrop && "localisation" !in Config.ColumnsToDrop
    ensures "zone" !in Config.NumericalColumns && "ville" !in Config.NumericalColumns
    ensures "prix_dh" !in Config.NumericalColumns && "localisation" !in Config.NumericalColumns
  {
    PlacesKept();
    OthersKept();
  }

  lemma PlacesKept()
    ensures "zone" !in Config.ColumnsToDrop && "ville" !in Config.ColumnsToDrop
  {
  }

  lemma OthersKept()
    ensures "prix_dh" !in Config.ColumnsToDrop && "localisation" !in Config.ColumnsToDrop
  {
  }

  /** The numeric columns are distinct and none of them is dropped. */
  lemma NumericKept()
    ensures Distinct(Config.NumericalColumns)
    ensures forall x :: x in Config.NumericalColumns ==> x !in Config.ColumnsToDrop
  {
  }

  /** The table after the price and surface steps, before the location split. */
  function Priced(f: Frame): Frame
    requires PriceStep(NormaliseAll(f)).Success?
  {
    SurfaceStep(PriceStep(NormaliseAll(f)).value)
  }

  /** Up to the price step everything succeeds on a shaped table, and the
      table keeps its shape and height. */
  lemma PricedShaped(f: Frame)
    requires Shaped(f) && PriceStep(NormaliseAll(f)).Success?
    ensures Shaped(Priced(f)) && Priced(f).height == f.height
  {
    var n := NormaliseAll(f);
    NormaliseAllGet(f, "");
    PriceStepGet(n, "");
    SurfaceStepGet(PriceStep(n).value, "");
  }

  /** The location step succeeds on a shaped table and keeps its shape. */
  lemma LocationStepShaped(f: Frame)
    requires Shaped(f)
    ensures LocationStep(f).Success? && Shaped(LocationStep(f).value)
    ensures LocationStep(f).value.height == f.height
  {
    if Has(f, "localisation") {
      ExtractLocationGet(f);
    }
  }

  /** Only the price step can fail before the imputation, and only on a run
      that `float` rejects. */
  lemma CleanedSucceeds(f: Frame)
    requires Shaped(f)
    ensures Cleaned(f).Success? <==> PriceStep(NormaliseAll(f)).Success?
    ensures Cleaned(f).Failure? ==> Cleaned(f).error == UnparsableRun
    ensures Cleaned(f).Success? ==> Shaped(Cleaned(f).value) && Cleaned(f).value.height == f.height
  {
    PriceStepGet(NormaliseAll(f), "");
    if PriceStep(NormaliseAll(f)).Success? {
      var s := Priced(f);
      PricedShaped(f);
      LocationStepShaped(s);
      var l := LocationStep(s).value;
      FillStepGet(l, "zone", "");
      FillStepGet(FillStep(l, "zone"), "ville", "");
      DropShaped(FillStep(FillStep(l, "zone"), "ville"), Config.ColumnsToDrop);
    }
  }

  /** A column no step names reads after cleaning what it read after the
      price step. */
  lemma CleanedKeeps(f: Frame, x: string)
    requires Shaped(f) && PriceStep(NormaliseAll(f)).Success?
    requires x != "surface" && x != "zone" && x != "ville" && x != "localisation"
    requires x !in Config.ColumnsToDrop
    ensures Cleaned(f).Success?
    ensures Get(Cleaned(f).value, x) == Get(PriceStep(NormaliseAll(f)).value, x)
  {
    CleanedSucceeds(f);
    var s := Priced(f);
    PricedShaped(f);
    SurfaceStepGet(PriceStep(NormaliseAll(f)).value, x);
    LocationStepShaped(s);
    var l := LocationStep(s).value;
    if Has(s, "localisation") {
      ExtractLocationOther(s, x);
    }
    FillStepGet(l, "zone", x);
    FillStepGet(FillStep(l, "zone"), "ville", x);
    DropGet(FillStep(FillStep(l, "zone"), "ville"), Config.ColumnsToDrop, x);
  }

  /** The surface column after cleaning: the digits of every normalised cell. */
  lemma CleanedSurface(f: Frame)
    requires Shaped(f) && PriceStep(NormaliseAll(f)).Success?
    ensures Cleaned(f).Success?
    ensures Get(Cleaned(f).value, "surface") ==
      if Has(f, "surface") then Some(CleanSurfaces(Normalise(Get(f, "surface").value))) else None
  {
    var x := "surface";
    CleanedSucceeds(f);
    var n := NormaliseAll(f);
    NormaliseAllGet(f, x);
    PriceStepGet(n, x);
    var s := Priced(f);
    PricedShaped(f);
    SurfaceStepGet(PriceStep(n).value, x);
    LocationStepShaped(s);
    var l := LocationStep(s).value;
    if Has(s, "localisation") {
      ExtractLocationOther(s, x);
    }
    FillStepGet(l, "zone", x);
    FillStepGet(FillStep(l, "zone"), "ville", x);
    NumericKept();
    DropGet(FillStep(FillStep(l, "zone"), "ville"), Config.ColumnsToDrop, x);
  }

  /** After cleaning, a column no step names holds its normalised cells. */
  lemma CleanedOther(f: Frame, x: string)
    requires Shaped(f) && PriceStep(NormaliseAll(f)).Success?
    requires x != "prix_dh" && x != "surface" && x != "zone" && x != "ville" && x != "localisation"
    requires x !in Config.ColumnsToDrop
    ensures Cleaned(f).Success?
    ensures Get(Cleaned(f).value, x) == if Has(f, x) then Some(Normalise(Get(f, x).value)) else None
  {
    CleanedKeeps(f, x);
    PriceStepGet(NormaliseAll(f), x);
    NormaliseAllGet(f, x);
  }

  /** The price column of the cleaned table, and when cleaning fails. */
  lemma CleanedPrice(f: Frame)
    requires Shaped(f)
    ensures Cleaned(f).Failure? <==>
      PriceSource(f).Some? && CleanPrices(Normalise(PriceSource(f).value)).Failure?
    ensures Cleaned(f).Success? ==>
              Get(Cleaned(f).value, "prix_dh") ==
              if PriceSource(f).Some? then Some(CleanPrices(Normalise(PriceSource(f).value)).value) else None
  {
    var n := NormaliseAll(f);
    NormaliseAllGet(f, "prix");
    NormaliseAllGet(f, "prix_dh");
    assert PriceSource(n) == if PriceSource(f).Some? then Some(Normalise(PriceSource(f).value)) else None;
    CleanedSucceeds(f);
    PriceStepGet(n, "prix_dh");
    if Cleaned(f).Success? {
      CreatedKept();
      CleanedKeeps(f, "prix_dh");
    }
  }

  /** The split column `name` (`zone` or `ville`) of a location list. */
  function Place(name: string, loc: seq<Cell>): seq<Cell> {
    if name == "zone" then Zones(loc) else Cities(loc)
  }

  lemma FillUnknownPlace(name: string, loc: seq<Cell>)
    ensures FillUnknown(Place(name, loc)) == Place(name, loc)
  {
  }

  lemma FillUnknownUnknown(n: nat)
    ensures FillUnknown(Fill(n, Text(Unknown))) == Fill(n, Text(Unknown))
  {
  }

  /** The table after the location step. */
  function Located(f: Frame): Frame
    requires Shaped(f) && PriceStep(NormaliseAll(f)).Success?
  {
    PricedShaped(f);
    LocationStepShaped(Priced(f));
    LocationStep(Priced(f)).value
  }

  /** What the last two cleaning steps do to `zone` and `ville`. */
  lemma CleanedPlaceFill(f: Frame, name: string)
    requires Shaped(f) && PriceStep(NormaliseAll(f)).Success?
    requires name == "zone" || name == "ville"
    ensures Cleaned(f).Success? && Shaped(Located(f)) && Located(f).height == f.height
    ensures Get(Cleaned(f).value, name) ==
              Some(FillUnknown(Get(Located(f), name).GetOr(Fill(f.height, Text(Unknown)))))
    ensures Has(Cleaned(f).value, "localisation") == Has(Located(f), "localisation")
  {
    CleanedSucceeds(f);
    CreatedKept();
    PricedShaped(f);
    LocationStepShaped(Priced(f));
    var l := Located(f);
    var a := FillStep(l, "zone");
    var b := FillStep(a, "ville");
    FillStepGet(l, "zone", "ville");
    FillStepGet(a, "ville", "zone");
    FillStepGet(l, "zone", "localisation");
    FillStepGet(a, "ville", "localisation");
    DropGet(b, Config.ColumnsToDrop, name);
    DropGet(b, Config.ColumnsToDrop, "localisation");
  }

  /** What the location step leaves in `zone` and `ville`. */
  lemma LocatedPlace(f: Frame, name: string)
    requires Shaped(f) && PriceStep(NormaliseAll(f)).Success?
    requires name == "zone" || name == "ville"
    ensures !Has(Located(f), "localisation")
    ensures Has(f, "localisation") ==>
              Get(Located(f), name) == Some(Place(name, Normalise(Get(f, "localisation").value)))
    ensures !Has(f, "localisation") ==>
              Get(Located(f), name) == if Has(f, name) then Some(Normalise(Get(f, name).value)) else None
  {
    var n := NormaliseAll(f);
    var s := Priced(f);
    PricedShaped(f);
    NormaliseAllGet(f, "localisation");
    PriceStepGet(n, "localisation");
    SurfaceStepGet(PriceStep(n).value, "localisation");
    if Has(f, "localisation") {
      ExtractLocationGet(s);
    } else {
      NormaliseAllGet(f, name);
      PriceStepGet(n, name);
      SurfaceStepGet(PriceStep(n).value, name);
    }
  }

  /** The location columns after cleaning: split from `localisation` when the
      table had one, otherwise the table's own column with missing cells
      replaced by `"Unknown"`, or a column of `"Unknown"`; and the location
      column itself is gone. */
  lemma CleanedPlace(f: Frame, name: string)
    requires Shaped(f) && PriceStep(NormaliseAll(f)).Success?
    requires name == "zone" || name == "ville"
    ensures Cleaned(f).Success?
    ensures !Has(Cleaned(f).value, "localisation")
    ensures Has(f, "localisation") ==>
              Get(Cleaned(f).value, name) == Some(Place(name, Normalise(Get(f, "localisation").value)))
    ensures !Has(f, "localisation") && Has(f, name) ==>
              Get(Cleaned(f).value, name) == Some(FillUnknown(Normalise(Get(f, name).value)))
    ensures !Has(f, "localisation") && !Has(f, name) ==>
              Get(Cleaned(f).value, name) == Some(Fill(f.height, Text(Unknown)))
  {
    CleanedPlaceFill(f, name);
    LocatedPlace(f, name);
    if Has(f, "localisation") {
      FillUnknownPlace(name, Normalise(Get(f, "localisation").value));
    } else {
      FillUnknownUnknown(f.height);
    }
  }

  /** After cleaning, `zone` and `ville` have a cell for every row and none missing. */
  lemma CleanedPlaceFilled(f: Frame, name: string)
    requires Shaped(f) && PriceStep(NormaliseAll(f)).Success?
    requires name == "zone" || name == "ville"
    ensures Cleaned(f).Success? && Has(Cleaned(f).value, name)
    ensures |Get(Cleaned(f).value, name).value| == f.height
    ensures forall c :: c in Get(Cleaned(f).value, name).value ==> !c.Missing?
  {
    CleanedPlaceFill(f, name);
    FillUnknownFilled(Get(Located(f), name).GetOr(Fill(f.height, Text(Unknown))));
  }

  lemma FillUnknownFilled(cells: seq<Cell>)
    ensures forall c :: c in FillUnknown(cells) ==> !c.Missing?
  {
  }

  lemma PreprocessCleaned(f: Frame)
    requires Preprocess(f).Success?
    ensures Cleaned(f).Success? && ImputeAll(Cleaned(f).value, Config.NumericalColumns) == Preprocess(f)
    ensures Labels(Preprocess(f).value) == Labels(Cleaned(f).value)
  {
    ImputeAllLabels(Cleaned(f).value, Config.NumericalColumns);
  }

  /** After `preprocess`, `zone` and `ville` are present with no missing cell
      and hold what cleaning put there. */
  lemma PreprocessPlaces(f: Frame, name: string)
    requires Shaped(f) && Preprocess(f).Success?
    requires name == "zone" || name == "ville"
    ensures Get(Preprocess(f).value, name) == Get(Cleaned(f).value, name)
    ensures Has(Preprocess(f).value, name)
    ensures |Get(Preprocess(f).value, name).value| == f.height
    ensures forall c :: c in Get(Preprocess(f).value, name).value ==> !c.Missing?
  {
    PreprocessCleaned(f);
    CleanedSucceeds(f);
    CleanedPlaceFilled(f, name);
    CreatedKept();
    ImputeAllOther(Cleaned(f).value, Config.NumericalColumns, name);
  }

  /** After `preprocess`, no column of the drop list and no `localisation` is left. */
  lemma PreprocessDropped(f: Frame, x: string)
    requires Shaped(f) && Preprocess(f).Success?
    requires x in Config.ColumnsToDrop || x == "localisation"
    ensures !Has(Preprocess(f).value, x)
  {
    PreprocessCleaned(f);
    CleanedSucceeds(f);
    if x == "localisation" {
      CleanedPlace(f, "zone");
    } else {
      var l := LocationStep(Priced(f)).value;
      DropLabels(FillStep(FillStep(l, "zone"), "ville"), Config.ColumnsToDrop, x);
    }
  }

  /** A numeric column is present after `preprocess` exactly when it was
      before; its missing cells take the median of the normalised column. */
  lemma PreprocessNumeric(f: Frame, x: string)
    requires Shaped(f) && Preprocess(f).Success?
    requires x in Config.NumericalColumns && x != "surface"
    ensures Has(Preprocess(f).value, x) <==> Has(f, x)
    ensures Has(f, x) ==> Impute(x, Normalise(Get(f, x).value)).Success?
    ensures Has(f, x) ==> Get(Preprocess(f).value, x) == Some(Impute(x, Normalise(Get(f, x).value)).value)
  {
    PreprocessCleaned(f);
    CleanedSucceeds(f);
    NumericKept();
    CreatedKept();
    CleanedOther(f, x);
    ImputeAllGet(Cleaned(f).value, Config.NumericalColumns, x);
  }

  /** The surface is present after `preprocess` exactly when it was before,
      holds the digits of every cell with missing ones imputed, and its
      imputation never raises. */
  lemma PreprocessSurface(f: Frame)
    requires Shaped(f) && Preprocess(f).Success?
    ensures Has(Preprocess(f).value, "surface") <==> Has(f, "surface")
    ensures Has(f, "surface") ==> !MedianRaises(CleanSurfaces(Normalise(Get(f, "surface").value)))
    ensures Has(f, "surface") ==>
              Get(Preprocess(f).value, "surface") == Some(Impute("surface", CleanSurfaces(Normalise(Get(f, "surface").value))).value)
  {
    PreprocessCleaned(f);
    CleanedSucceeds(f);
    NumericKept();
    CleanedSurface(f);
    ImputeAllGet(Cleaned(f).value, Config.NumericalColumns, "surface");
  }

  /** `prix_dh` after `preprocess`: the cleaned prices of `prix`, else of the
      existing `prix_dh`; absent when the table had neither. */
  lemma PreprocessPrice(f: Frame)
    requires Shaped(f) && Preprocess(f).Success?
    ensures PriceSource(f).Some? ==> CleanPrices(Normalise(PriceSource(f).value)).Success?
    ensures Get(Preprocess(f).value, "prix_dh") ==
              if PriceSource(f).Some? then Some(CleanPrices(Normalise(PriceSource(f).value)).value) else None
  {
    PreprocessCleaned(f);
    CleanedPrice(f);
    CreatedKept();
    ImputeAllOther(Cleaned(f).value, Config.NumericalColumns, "prix_dh");
  }

  /** Every other column comes out with booleans as integers and blanks as
      missing, and nothing else changed. */
  lemma PreprocessOther(f: Frame, x: string)
    requires Shaped(f) && Preprocess(f).Success?
    requires x != "prix_dh" && x != "surface" && x != "zone" && x != "ville" && x != "localisation"
    requires x !in Config.ColumnsToDrop && x !in Config.NumericalColumns
    ensures Get(Preprocess(f).value, x) == if Has(f, x) then Some(Normalise(Get(f, x).value)) else None
  {
    PreprocessCleaned(f);
    CleanedSucceeds(f);
    CleanedOther(f, x);
    ImputeAllOther(Cleaned(f).value, Config.NumericalColumns, x);
  }

  /** `preprocess` raises exactly when a price run cannot be parsed or the
      median of a numeric column is refused. */
  lemma PreprocessFails(f: Frame)
    requires Shaped(f)
    ensures Preprocess(f).Failure? <==>
              Cleaned(f).Failure? || RaisesIn(Cleaned(f).value, Config.NumericalColumns)
    ensures Cleaned(f).Failure? <==>
              PriceSource(f).Some? && CleanPrices(Normalise(PriceSource(f).value)).Failure?
    ensures Preprocess(f).Failure? ==>
              Preprocess(f).error == UnparsableRun || exists x :: x in Config.NumericalColumns && Preprocess(f).error == NotNumeric(x)
  {
    CleanedSucceeds(f);
    CleanedPrice(f);
    if Cleaned(f).Success? {
      NumericKept();
      ImputeAllFails(Cleaned(f).value, Config.NumericalColumns);
    }
  }
}

=== FILE: stats.dfy ===
/** The column statistics the pipeline relies on: pandas' `median`, numpy's
    `mean` and population `std`, over exact reals. The square root is not
    computed; callers pass a function `root` that behaves like one at zero
    and on positive values. */
module Stats {
  import opened Wrappers

  function Sum(xs: seq<real>): real {
    if xs == [] then 0.0 else Sum(xs[..|xs| - 1]) + xs[|xs| - 1]
  }

  function Mean(xs: seq<real>): real
    requires |xs| > 0
  {
    Sum(xs) / |xs| as real
  }

  /** The deviations of every value from a centre. */
  function Deviations(xs: seq<real>, centre: real): (d: seq<real>)
    ensures |d| == |xs| && forall i :: 0 <= i < |xs| ==> d[i] == xs[i] - centre
  {
    seq(|xs|, i requires 0 <= i < |xs| => xs[i] - centre)
  }

  function Squares(xs: seq<real>): (q: seq<real>)
    ensures |q| == |xs| && forall i :: 0 <= i < |xs| ==> q[i] == xs[i] * xs[i]
  {
    seq(|xs|, i requires 0 <= i < |xs| => xs[i] * xs[i])
  }

  /** The population variance (`ddof=0`). */
  function Variance(xs: seq<real>): real
    requires |xs| > 0
  {
    Mean(Squares(Deviations(xs, Mean(xs))))
  }

  /** What a square root does on the values it is applied to here. */
  ghost predicate IsRoot(root: real -> real) {
    root(0.0) == 0.0 && forall v: real :: v > 0.0 ==> root(v) > 0.0
  }

  /** The population standard deviation. */
  function Std(xs: seq<real>, root: real -> real): real
    requires |xs| > 0
  {
    root(Variance(xs))
  }

  predicate Constant(xs: seq<real>) {
    forall i :: 0 <= i < |xs| ==> xs[i] == xs[0]
  }

  predicate Sorted(xs: seq<real>) {
    forall i, j :: 0 <= i < j < |xs| ==> xs[i] <= xs[j]
  }

  // ---------------------------------------------------------------------------
  // Sums

  lemma {:induction false} SumAppend(a: seq<real>, b: seq<real>)
    ensures Sum(a + b) == Sum(a) + Sum(b)
    decreases |b|
  {
    if b == [] {
      assert a + b == a;
    } else {
      assert (a + b)[..|a + b| - 1] == a + b[..|b| - 1];
      SumAppend(a, b[..|b| - 1]);
    }
  }

  lemma {:induction false} SumNonNegative(xs: seq<real>)
    requires forall i :: 0 <= i < |xs| ==> xs[i] >= 0.0
    ensures Sum(xs) >= 0.0
  {
    if xs != [] {
      SumNonNegative(xs[..|xs| - 1]);
    }
  }

  /** A sum of non-negative terms is zero only when every term is. */
  lemma {:induction false} SumZeroTerms(xs: seq<real>)
    requires forall i :: 0 <= i < |xs| ==> xs[i] >= 0.0
    requires Sum(xs) == 0.0
    ensures forall i :: 0 <= i < |xs| ==> xs[i] == 0.0
  {
    if xs != [] {
      var init := xs[..|xs| - 1];
      SumNonNegative(init);
      SumZeroTerms(init);
      forall i | 0 <= i < |xs| ensures xs[i] == 0.0 {
        if i < |xs| - 1 { assert xs[i] == init[i]; }
      }
    }
  }

  /** A sum of copies of one value. */
  lemma {:induction false} SumConstant(xs: seq<real>, v: real)
    requires forall i :: 0 <= i < |xs| ==> xs[i] == v
    ensures Sum(xs) == |xs| as real * v
  {
    if xs != [] {
      SumConstant(xs[..|xs| - 1], v);
    }
  }

  /** Shifting every value shifts the sum by as many times the shift. */
  lemma {:induction false} SumDeviations(xs: seq<real>, c: real)
    ensures Sum(Deviations(xs, c)) == Sum(xs) - |xs| as real * c
  {
    if xs != [] {
      var n := |xs| - 1;
      assert Deviations(xs, c)[..n] == Deviations(xs[..n], c);
      SumDeviations(xs[..n], c);
    }
  }

  /** The deviations from the mean cancel out. */
  lemma DeviationsFromMean(xs: seq<real>)
    requires |xs| > 0
    ensures Sum(Deviations(xs, Mean(xs))) == 0.0
  {
    SumDeviations(xs, Mean(xs));
  }

  /** The mean of constant values is that value. */
  lemma MeanConstant(xs: seq<real>)
    requires |xs| > 0 && Constant(xs)
    ensures Mean(xs) == xs[0]
  {
    SumConstant(xs, xs[0]);
  }

  /** The variance is never negative. */
  lemma VarianceNonNegative(xs: seq<real>)
    requires |xs| > 0
    ensures Variance(xs) >= 0.0
  {
    var q := Squares(Deviations(xs, Mean(xs)));
    SumNonNegative(q);
  }

  /** The variance is zero exactly when all values are equal. */
  lemma VarianceZero(xs: seq<real>)
    requires |xs| > 0
    ensures Variance(xs) == 0.0 <==> Constant(xs)
  {
    if Constant(xs) {
      ConstantVariance(xs);
    }
    if Variance(xs) == 0.0 {
      ZeroVarianceConstant(xs);
    }
  }

  lemma ConstantVariance(xs: seq<real>)
    requires |xs| > 0 && Constant(xs)
    ensures Variance(xs) == 0.0
  {
    var q := Squares(Deviations(xs, Mean(xs)));
    MeanConstant(xs);
    SumConstant(q, 0.0);
    MeanZero(q);
  }

  lemma ZeroVarianceConstant(xs: seq<real>)
    requires |xs| > 0 && Variance(xs) == 0.0
    ensures Constant(xs)
  {
    var d := Deviations(xs, Mean(xs));
    var q := Squares(d);
    MeanZero(q);
    SumZeroTerms(q);
    forall i | 0 <= i < |xs| ensures xs[i] == xs[0] {
      SquarePositive(d[i]);
      SquarePositive(d[0]);
    }
  }

  lemma MeanZero(xs: seq<real>)
    requires |xs| > 0
    ensures Mean(xs) == 0.0 <==> Sum(xs) == 0.0
  {
  }

  lemma SquarePositive(x: real)
    ensures x != 0.0 ==> x * x > 0.0
  {
    if x < 0.0 {
      assert x * x == (-x) * (-x);
    }
  }

  /** Dividing every term divides the sum. */
  lemma {:induction false} SumDivide(xs: seq<real>, d: real)
    requires d != 0.0
    ensures Sum(seq(|xs|, i requires 0 <= i < |xs| => xs[i] / d)) == Sum(xs) / d
  {
    if xs != [] {
      var n := |xs| - 1;
      var q := seq(|xs|, i requires 0 <= i < |xs| => xs[i] / d);
      assert q[..n] == seq(n, i requires 0 <= i < n => xs[..n][i] / d);
      SumDivide(xs[..n], d);
    }
  }

  /** Multiplying every term multiplies the sum. */
  lemma {:induction false} SumScale(xs: seq<real>, c: real)
    ensures Sum(seq(|xs|, i requires 0 <= i < |xs| => c * xs[i])) == c * Sum(xs)
  {
    if xs != [] {
      var n := |xs| - 1;
      var q := seq(|xs|, i requires 0 <= i < |xs| => c * xs[i]);
      var p := seq(n, i requires 0 <= i < n => c * xs[..n][i]);
      assert |q[..n]| == |p| && forall j :: 0 <= j < n ==> q[..n][j] == p[j];
      assert q[..n] == p;
      SumScale(xs[..n], c);
    }
  }

  /** The standard deviation is never negative, and zero exactly when all
      values are equal. */
  lemma StdSign(xs: seq<real>, root: real -> real)
    requires |xs| > 0 && IsRoot(root)
    ensures Std(xs, root) >= 0.0
    ensures Std(xs, root) == 0.0 <==> Constant(xs)
  {
    VarianceNonNegative(xs);
    VarianceZero(xs);
  }

  // ---------------------------------------------------------------------------
  // Sorting and the median

  function Insert(x: real, s: seq<real>): (r: seq<real>)
    requires Sorted(s)
    ensures Sorted(r) && multiset(r) == multiset(s) + multiset{x}
    ensures |r| == |s| + 1
  {
    if s == [] then [x]
    else if x <= s[0] then
      assert s == [s[0]] + s[1..];
      [x] + s
    else
      var t := Insert(x, s[1..]);
      InsertStep(x, s, t);
      [s[0]] + t
  }

  /** Putting the head back in front of the tail with `x` inserted. */
  lemma InsertStep(x: real, s: seq<real>, t: seq<real>)
    requires Sorted(s) && s != [] && s[0] < x
    requires Sorted(t) && multiset(t) == multiset(s[1..]) + multiset{x}
    ensures Sorted([s[0]] + t) && multiset([s[0]] + t) == multiset(s) + multiset{x}
  {
    assert s == [s[0]] + s[1..];
    forall i | 0 <= i < |t| ensures s[0] <= t[i] {
      assert t[i] in multiset(t);
      if t[i] != x {
        assert t[i] in multiset(s[1..]);
        var j :| 0 <= j < |s[1..]| && s[1..][j] == t[i];
        assert s[j + 1] == t[i];
      }
    }
  }

  /** The values in ascending order. */
  function SortSeq(xs: seq<real>): (r: seq<real>)
    ensures Sorted(r) && multiset(r) == multiset(xs) && |r| == |xs|
  {
    if xs == [] then []
    else
      var r := Insert(xs[|xs| - 1], SortSeq(xs[..|xs| - 1]));
      LastSplit(xs);
      r
  }

  lemma LastSplit(xs: seq<real>)
    requires xs != []
    ensures multiset(xs) == multiset(xs[..|xs| - 1]) + multiset{xs[|xs| - 1]}
  {
    assert xs == xs[..|xs| - 1] + [xs[|xs| - 1]];
  }

  /** pandas' `median`: the middle value of the sorted values, or the mean of
      the two middle ones; `None` (`NaN`) when there are no values. */
  function Median(xs: seq<real>): (m: Option<real>)
    ensures m.Some? <==> |xs| > 0
  {
    if xs == [] then None
    else
      var s := SortSeq(xs);
      var n := |s|;
      if n % 2 == 1 then Some(s[n / 2]) else Some((s[n / 2 - 1] + s[n / 2]) / 2.0)
  }

  /** The median lies between the least and the greatest value. */
  lemma MedianBounds(xs: seq<real>)
    requires |xs| > 0
    ensures exists i :: 0 <= i < |xs| && xs[i] <= Median(xs).value
    ensures exists i :: 0 <= i < |xs| && Median(xs).value <= xs[i]
  {
    var s := SortSeq(xs);
    var n := |s|;
    var lo := if n % 2 == 1 then n / 2 else n / 2 - 1;
    assert s[lo] <= Median(xs).value <= s[n / 2];
    assert s[lo] in multiset(xs) && s[n / 2] in multiset(xs);
    var i :| 0 <= i < |xs| && xs[i] == s[lo];
    var j :| 0 <= j < |xs| && xs[j] == s[n / 2];
  }

  /** The median of equal values is that value. */
  lemma MedianConstant(xs: seq<real>)
    requires |xs| > 0 && Constant(xs)
    ensures Median(xs) == Some(xs[0])
  {
    var s := SortSeq(xs);
    var n := |s|;
    forall k | 0 <= k < n ensures s[k] == xs[0] {
      assert s[k] in multiset(xs);
    }
  }
}

=== FILE: text.dfy ===
/** Character classes, decimal text and the string searches that Python's
    `str`, `float()`, `int()` and `re` perform on the fields of a listing. */
module Text {
  import opened Wrappers

  /** `\d`, restricted to the ASCII digits. */
  predicate IsDigit(c: char) {
    '0' <= c <= '9'
  }

  /** Python's `str.isspace()`, which is also what `\s` matches in a `str` pattern. */
  predicate IsSpace(c: char) {
    c == ' ' || c == '\t' || c == '\n' || c == '\r' || c == '\U{0B}' || c == '\U{0C}'
    || ('\U{1C}' <= c <= '\U{1F}') || c == '\U{85}' || c == '\U{A0}' || c == '\U{1680}'
    || ('\U{2000}' <= c <= '\U{200A}') || c == '\U{2028}' || c == '\U{2029}'
    || c == '\U{202F}' || c == '\U{205F}' || c == '\U{3000}'
  }

  predicate AllDigits(s: string) {
    forall i :: 0 <= i < |s| ==> IsDigit(s[i])
  }

  predicate NoDigit(s: string) {
    forall i :: 0 <= i < |s| ==> !IsDigit(s[i])
  }

  function DigitValue(c: char): (d: nat)
    requires IsDigit(c)
    ensures d < 10
  {
    (c as int - '0' as int) as nat
  }

  function DigitChar(d: nat): (c: char)
    requires d < 10
    ensures IsDigit(c) && DigitValue(c) == d
  {
    ('0' as int + d) as char
  }

  /** The number a run of decimal digits denotes (most significant first). */
  function DigitsValue(s: string): nat
    requires AllDigits(s)
  {
    if s == [] then 0 else DigitsValue(s[..|s| - 1]) * 10 + DigitValue(s[|s| - 1])
  }

  function Pow10(k: nat): (p: nat)
    ensures p >= 1
  {
    if k == 0 then 1 else 10 * Pow10(k - 1)
  }

  /** Python's `str(n)` for a non-negative integer. */
  function NatText(n: nat): (s: string)
    ensures |s| > 0 && AllDigits(s)
    ensures s[0] == '0' ==> n == 0
  {
    if n < 10 then [DigitChar(n)] else NatText(n / 10) + [DigitChar(n % 10)]
  }

  /** Python's `str(i)` for an integer. */
  function IntText(i: int): (s: string)
    ensures |s| > 0
    ensures i >= 0 ==> AllDigits(s)
    ensures i < 0 ==> s[0] == '-' && AllDigits(s[1..])
  {
    if i < 0 then "-" + NatText(-i) else NatText(i)
  }

  /** Reading back the text of a number gives the number. */
  lemma {:induction false} NatTextValue(n: nat)
    ensures DigitsValue(NatText(n)) == n
  {
    if n >= 10 {
      var s := NatText(n);
      assert s[..|s| - 1] == NatText(n / 10);
      NatTextValue(n / 10);
    }
  }

  /** `s` with every occurrence of `c` removed (Python's `s.replace(c, "")`). */
  function Without(s: string, c: char): (r: string)
    ensures |r| <= |s|
    ensures forall x :: x in r <==> x in s && x != c
  {
    if s == [] then [] else if s[0] == c then Without(s[1..], c) else [s[0]] + Without(s[1..], c)
  }

  lemma WithoutDistributes(a: string, b: string, c: char)
    ensures Without(a + b, c) == Without(a, c) + Without(b, c)
  {
    if a != [] {
      assert (a + b)[1..] == a[1..] + b;
    } else {
      assert a + b == b;
    }
  }

  lemma {:induction false} WithoutAbsent(s: string, c: char)
    requires c !in s
    ensures Without(s, c) == s
  {
    if s != [] {
      assert c !in s[1..];
      WithoutAbsent(s[1..], c);
    }
  }

  /** `s` with leading whitespace removed (`s.lstrip()`). */
  function TrimStart(s: string): (r: string)
    ensures |r| <= |s| && r == s[|s| - |r|..]
    ensures |r| > 0 ==> !IsSpace(r[0])
    ensures forall i :: 0 <= i < |s| - |r| ==> IsSpace(s[i])
  {
    if |s| > 0 && IsSpace(s[0]) then TrimStart(s[1..]) else s
  }

  /** `s` with trailing whitespace removed (`s.rstrip()`). */
  function TrimEnd(s: string): (r: string)
    ensures |r| <= |s| && r == s[..|r|]
    ensures |r| > 0 ==> !IsSpace(r[|r| - 1])
    ensures forall i :: |r| <= i < |s| ==> IsSpace(s[i])
  {
    if |s| > 0 && IsSpace(s[|s| - 1]) then TrimEnd(s[..|s| - 1]) else s
  }

  /** Python's `s.strip()`. */
  function Strip(s: string): string {
    TrimEnd(TrimStart(s))
  }

  lemma StripUnchanged(s: string)
    requires |s| > 0 ==> !IsSpace(s[0]) && !IsSpace(s[|s| - 1])
    ensures Strip(s) == s
  {
  }

  /** The stripped text is a piece of the original: every character kept sits in `s`. */
  lemma StripInside(s: string)
    ensures forall x :: x in Strip(s) ==> x in s
  {
    var t := TrimStart(s);
    assert forall x :: x in t ==> x in s;
  }

  predicate OccursAt(s: string, p: string, k: nat) {
    k + |p| <= |s| && s[k..k + |p|] == p
  }

  function IndexFrom(s: string, p: string, k: nat): (r: Option<nat>)
    requires k <= |s|
    ensures r.Some? ==> k <= r.value && OccursAt(s, p, r.value)
    ensures r.Some? ==> forall j :: k <= j < r.value ==> !OccursAt(s, p, j)
    ensures r.None? ==> forall j :: k <= j ==> !OccursAt(s, p, j)
    decreases |s| - k
  {
    if k + |p| > |s| then None
    else if s[k..k + |p|] == p then Some(k)
    else IndexFrom(s, p, k + 1)
  }

  /** The first position where `p` occurs in `s` (`s.find(p)`), if any. */
  function IndexOf(s: string, p: string): (r: Option<nat>)
    ensures r.Some? ==> OccursAt(s, p, r.value)
    ensures r.Some? ==> forall j :: 0 <= j < r.value ==> !OccursAt(s, p, j)
    ensures r.None? ==> forall j :: 0 <= j ==> !OccursAt(s, p, j)
  {
    IndexFrom(s, p, 0)
  }

  /** Python's `p in s`. */
  predicate Contains(s: string, p: string) {
    IndexOf(s, p).Some?
  }

  lemma ContainsAt(s: string, p: string, k: nat)
    requires OccursAt(s, p, k)
    ensures Contains(s, p)
  {
  }

  /** An unsigned decimal literal: digits, or digits and a point with digits on
      at least one side. */
  function ParseUnsigned(t: string): Option<real> {
    match IndexOf(t, ".")
    case None =>
      if |t| > 0 && AllDigits(t) then Some(DigitsValue(t) as real) else None
    case Some(k) =>
      var whole := t[..k];
      var frac := t[k + 1..];
      if (|whole| > 0 || |frac| > 0) && AllDigits(whole) && AllDigits(frac)
      then Some(DigitsValue(whole) as real + DigitsValue(frac) as real / Pow10(|frac|) as real)
      else None
  }

  /** Python's `float(s)` on text: surrounding whitespace is ignored, then an
      optional sign and an unsigned decimal literal. `None` is the `ValueError`. */
  function ParseDecimal(s: string): (r: Option<real>)
    ensures r.Some? ==> exists i :: 0 <= i < |s| && IsDigit(s[i])
  {
    var t := Strip(s);
    var r := if |t| > 0 && (t[0] == '+' || t[0] == '-') then
      match ParseUnsigned(t[1..])
      case None => None
      case Some(v) => Some(if t[0] == '-' then -v else v)
    else ParseUnsigned(t);
    if r.Some? then
      StripInside(s);
      assert exists i :: 0 <= i < |t| && IsDigit(t[i]) by { ParseNeedsDigit(t); }
      r
    else r
  }

  lemma ParseNeedsDigit(t: string)
    requires (if |t| > 0 && (t[0] == '+' || t[0] == '-') then ParseUnsigned(t[1..]) else ParseUnsigned(t)).Some?
    ensures exists i :: 0 <= i < |t| && IsDigit(t[i])
  {
    var u := if |t| > 0 && (t[0] == '+' || t[0] == '-') then t[1..] else t;
    assert exists i :: 0 <= i < |u| && IsDigit(u[i]) by {
      match IndexOf(u, ".")
      case None =>
        assert IsDigit(u[0]);
      case Some(k) =>
        if k > 0 {
          assert IsDigit(u[..k][0]);
        } else {
          assert IsDigit(u[k + 1..][0]);
        }
    }
    var i :| 0 <= i < |u| && IsDigit(u[i]);
    if u != t {
      assert IsDigit(t[i + 1]);
    }
  }

  /** Python's `int(s)` on text: surrounding whitespace ignored, optional sign, digits. */
  function ParseInt(s: string): (r: Option<int>)
    ensures r.Some? ==> exists i :: 0 <= i < |s| && IsDigit(s[i])
  {
    var t := Strip(s);
    StripInside(s);
    if |t| > 1 && (t[0] == '+' || t[0] == '-') && AllDigits(t[1..]) then
      assert IsDigit(t[1]) && t[1] in s;
      Some(if t[0] == '-' then -(DigitsValue(t[1..]) as int) else DigitsValue(t[1..]))
    else if |t| > 0 && AllDigits(t) then
      assert IsDigit(t[0]) && t[0] in s;
      Some(DigitsValue(t))
    else None
  }

  /** In digits followed by a point, the first point is that one. */
  lemma PointAfterDigits(t: string, rest: string)
    requires AllDigits(t)
    ensures IndexOf(t + "." + rest, ".") == Some(|t|)
  {
    var u := t + "." + rest;
    assert OccursAt(u, ".", |t|);
    forall j | 0 <= j < |t| ensures !OccursAt(u, ".", j) {
      assert u[j..j + 1][0] == t[j];
    }
  }

  /** Text made of digits only has no decimal point. */
  lemma NoPointInDigits(s: string)
    requires AllDigits(s)
    ensures IndexOf(s, ".").None?
  {
    forall j | 0 <= j && j + 1 <= |s| ensures !OccursAt(s, ".", j) {
      assert s[j..j + 1][0] == s[j];
    }
  }

  /** Digits alone are read as the number they spell. */
  lemma ParseDecimalDigits(t: string)
    requires |t| > 0 && AllDigits(t)
    ensures ParseDecimal(t).Some? && ParseDecimal(t).value == DigitsValue(t) as real
  {
    ParseUnsignedDigits(t);
    assert IsDigit(t[0]) && IsDigit(t[|t| - 1]);
    ParseDecimalPlain(t);
  }

  lemma ParseUnsignedDigits(t: string)
    requires |t| > 0 && AllDigits(t)
    ensures ParseUnsigned(t).Some? && ParseUnsigned(t).value == DigitsValue(t) as real
  {
    NoPointInDigits(t);
  }

  /** A minus sign in front of a literal negates it. */
  lemma ParseDecimalNegated(u: string)
    requires |u| > 0 && IsDigit(u[0]) && !IsSpace(u[|u| - 1]) && ParseUnsigned(u).Some?
    ensures ParseDecimal("-" + u).Some? && ParseDecimal("-" + u).value == -ParseUnsigned(u).value
  {
    var s := "-" + u;
    assert s[|s| - 1] == u[|u| - 1];
    StripUnchanged(s);
    assert s[1..] == u;
  }

  /** A decimal number written out with digits only reads back as itself. */
  lemma ParseDecimalNat(n: nat)
    ensures ParseDecimal(NatText(n)).Some? && ParseDecimal(NatText(n)).value == n as real
  {
    ParseDecimalDigits(NatText(n));
    NatTextValue(n);
  }

  /** `int()` of a digit run with no surrounding blanks is the number it spells. */
  lemma ParseIntDigits(t: string)
    requires |t| > 0 && AllDigits(t)
    ensures ParseInt(t) == Some(DigitsValue(t))
  {
    assert IsDigit(t[0]) && IsDigit(t[|t| - 1]);
    StripUnchanged(t);
  }

  /** A stripped minus sign before digits is read as the negated digits. */
  lemma ParseIntSigned(u: string, n: nat)
    requires Strip(u) == u && |u| > 1 && u[0] == '-' && AllDigits(u[1..]) && DigitsValue(u[1..]) == n
    ensures ParseInt(u) == Some(-(n as int))
  {
  }

  lemma ParseIntNat(n: nat)
    ensures ParseInt(NatText(n)) == Some(n)
  {
    ParseIntDigits(NatText(n));
    NatTextValue(n);
  }

  /** The text of a negative integer: a minus sign, then the digits of its magnitude. */
  lemma NegativeText(i: int)
    requires i < 0
    ensures Strip(IntText(i)) == IntText(i) && |IntText(i)| > 1 && IntText(i)[0] == '-'
    ensures AllDigits(IntText(i)[1..]) && DigitsValue(IntText(i)[1..]) == -i
  {
    NegativeTextParts(i);
    NatTextValue(-i);
    NegativeTextStripped(i);
  }

  lemma NegativeTextParts(i: int)
    requires i < 0
    ensures |IntText(i)| > 1 && IntText(i)[0] == '-' && IntText(i)[1..] == NatText(-i)
  {
    assert IntText(i) == "-" + NatText(-i);
  }

  lemma NegativeTextStripped(i: int)
    requires i < 0
    ensures Strip(IntText(i)) == IntText(i)
  {
    var u := IntText(i);
    assert IsDigit(u[|u| - 1]) by {
      assert AllDigits(u[1..]);
      assert u[|u| - 1] == u[1..][|u| - 2];
    }
    StripUnchanged(u);
  }

  /** `int(str(i))` for a negative `i`. */
  lemma ParseIntNegative(i: int)
    requires i < 0
    ensures ParseInt(IntText(i)) == Some(i)
  {
    NegativeText(i);
    ParseIntSigned(IntText(i), -i);
  }

  /** `int(str(i))` is `i`. */
  lemma ParseIntText(i: int)
    ensures ParseInt(IntText(i)) == Some(i)
  {
    if i < 0 {
      ParseIntNegative(i);
    } else {
      ParseIntNat(i);
    }
  }

  /** `int()` refuses a decimal point even between digits. */
  lemma ParseIntPoint(a: string, b: string)
    requires |a| > 0 && AllDigits(a) && |b| > 0 && AllDigits(b)
    ensures ParseInt(a + "." + b).None?
  {
    var t := a + "." + b;
    assert t[0] == a[0] && t[|t| - 1] == b[|b| - 1];
    StripUnchanged(t);
    assert t[|a|] == '.';
    assert t[1..][|a| - 1] == '.';
  }

  /** `float(str(n) + ".0")` is `n`. */
  lemma WholeTextValue(n: int)
    ensures ParseDecimal(IntText(n) + ".0").Some? && ParseDecimal(IntText(n) + ".0").value == n as real
  {
    var m: nat := if n < 0 then -n else n;
    var u := NatText(m) + ".0";
    WholeUnsignedValue(m);
    if n < 0 {
      assert IntText(n) + ".0" == "-" + u;
      ParseDecimalNegated(u);
    } else {
      ParseDecimalPlain(u);
    }
  }

  lemma WholeUnsignedValue(m: nat)
    ensures |NatText(m) + ".0"| > 0 && IsDigit((NatText(m) + ".0")[0])
    ensures (NatText(m) + ".0")[|NatText(m) + ".0"| - 1] == '0'
    ensures ParseUnsigned(NatText(m) + ".0").Some? && ParseUnsigned(NatText(m) + ".0").value == m as real
  {
    var t := NatText(m);
    var u := t + ".0";
    NatTextValue(m);
    PointAfterDigits(t, "0");
    assert u == t + "." + "0";
    assert u[..|t|] == t;
    assert u[|t| + 1..] == "0";
    assert DigitsValue("0") == 0;
  }

  /** `float(str(i))` for a negative `i`. */
  lemma ParseDecimalNegative(i: int)
    requires i < 0
    ensures ParseDecimal(IntText(i)).Some? && ParseDecimal(IntText(i)).value == i as real
  {
    NegativeTextParts(i);
    NegativeTextStripped(i);
    ParseUnsignedDigits(NatText(-i));
    NatTextValue(-i);
    ParseDecimalSigned(IntText(i), (-i) as real);
  }

  /** A stripped minus sign before an unsigned literal is read as its negation. */
  lemma ParseDecimalSigned(u: string, v: real)
    requires Strip(u) == u && |u| > 0 && u[0] == '-' && ParseUnsigned(u[1..]) == Some(v)
    ensures ParseDecimal(u) == Some(-v)
  {
  }

  /** `float(str(i))` is `i`. */
  lemma ParseDecimalInt(i: int)
    ensures ParseDecimal(IntText(i)).Some? && ParseDecimal(IntText(i)).value == i as real
  {
    if i < 0 {
      ParseDecimalNegative(i);
    } else {
      ParseDecimalNat(i);
    }
  }

  lemma NoPointInText(t: string)
    requires '.' !in t
    ensures IndexOf(t, ".").None?
  {
    forall j | 0 <= j && j + 1 <= |t| ensures !OccursAt(t, ".", j) {
      assert t[j..j + 1][0] == t[j];
    }
  }

  /** Unsigned text without surrounding whitespace is parsed as it stands. */
  lemma ParseDecimalPlain(t: string)
    requires |t| > 0 && !IsSpace(t[0]) && !IsSpace(t[|t| - 1]) && t[0] != '+' && t[0] != '-'
    ensures ParseDecimal(t) == ParseUnsigned(t)
  {
    StripUnchanged(t);
  }

  /** Text with neither a point nor only digits is no unsigned literal. */
  lemma ParseUnsignedNone(t: string)
    requires '.' !in t && !AllDigits(t)
    ensures ParseUnsigned(t).None?
  {
    NoPointInText(t);
  }
}

=== FILE: utils.dfy ===
/** The scraper-side helpers `PropertyScraper` and the row checks of
    `DataValidator`: a parallel copy of the field cleaners and the range
    predicates with their missing-value policies. */
module Utils {
  import opened Wrappers
  import opened Errors
  import opened Text
  import opened Cells
  import opened Fields
  import Config

  /** The first digit at or after `k`. */
  function DigitFrom(s: string, k: nat): (r: Option<nat>)
    requires k <= |s|
    ensures r.Some? ==> k <= r.value < |s| && IsDigit(s[r.value])
    ensures r.Some? ==> forall j :: k <= j < r.value ==> !IsDigit(s[j])
    ensures r.None? ==> forall j :: k <= j < |s| ==> !IsDigit(s[j])
    decreases |s| - k
  {
    if k == |s| then None else if IsDigit(s[k]) then Some(k) else DigitFrom(s, k + 1)
  }

  /** The end of the digit run starting at `k`. */
  function DigitRunEnd(s: string, k: nat): (e: nat)
    requires k <= |s|
    ensures k <= e <= |s|
    ensures forall j :: k <= j < e ==> IsDigit(s[j])
    ensures e < |s| ==> !IsDigit(s[e])
    decreases |s| - k
  {
    if k < |s| && IsDigit(s[k]) then DigitRunEnd(s, k + 1) else k
  }

  /** The text `re.search(r'\d+', s)` finds: the maximal digit run at the first digit. */
  function FirstNumber(s: string): (r: Option<string>)
    ensures r.None? <==> NoDigit(s)
    ensures r.Some? ==> |r.value| > 0 && AllDigits(r.value)
  {
    match DigitFrom(s, 0)
    case None => None
    case Some(i) =>
      var e := DigitRunEnd(s, i);
      assert forall j :: 0 <= j < e - i ==> s[i..e][j] == s[i + j];
      Some(s[i..e])
  }

  /** `extract_number`: `None` for a missing or falsy value (including `0`
      and `""`), otherwise the first run of digits once commas are deleted. */
  function ExtractNumber(c: Cell): (r: Option<nat>)
    ensures c.Missing? || !Truthy(c) ==> r.None?
    ensures !c.Missing? && Truthy(c) ==> (r.None? <==> NoDigit(Without(Str(c), ',')))
  {
    if c.Missing? || !Truthy(c) then None
    else
      match FirstNumber(Without(Str(c), ','))
      case None => None
      case Some(d) => Some(DigitsValue(d))
  }

  /** `extract_price`, written as the scraper writes it: the `DH` branch, then
      the `EUR` branch only without `DH`, then `float()`, `None` where it fails.
      It agrees with the preprocessor's `clean_price` on every value. */
  function ExtractPrice(c: Cell): (r: Result<Option<real>, Exc>)
    ensures r == CleanPrice(c)
  {
    if c.Missing? then Success(None)
    else
      var s := Str(c);
      var dh := MarkerStart(s, "DH");
      var eur := MarkerStart(s, "EUR");
      if Contains(s, "DH") && dh.Some? then
        ExtractAgreesDirhams(s, dh.value);
        var x :- RunNumber(Group(s, dh.value));
        Success(Some(x))
      else if !Contains(s, "DH") && Contains(s, "EUR") && eur.Some? then
        ExtractAgreesEuros(s, eur.value);
        var x :- RunNumber(Group(s, eur.value));
        Success(Some(FromEuros(x)))
      else
        ExtractAgreesUnmarked(s);
        Success(ParseDecimal(s))
  }

  lemma ExtractAgreesDirhams(s: string, i: nat)
    requires MarkerStart(s, "DH") == Some(i)
    ensures RunNumber(Group(s, i)).Success? ==> PriceText(s) == Success(Some(RunNumber(Group(s, i)).value))
    ensures RunNumber(Group(s, i)).Failure? ==> PriceText(s) == Failure(RunNumber(Group(s, i)).error)
  {
    DirhamsBranch(s, i);
    PriceTextMarked(s, RunNumber(Group(s, i)));
  }

  lemma ExtractAgreesEuros(s: string, i: nat)
    requires !Contains(s, "DH") && MarkerStart(s, "EUR") == Some(i)
    ensures RunNumber(Group(s, i)).Success? ==> PriceText(s) == Success(Some(FromEuros(RunNumber(Group(s, i)).value)))
    ensures RunNumber(Group(s, i)).Failure? ==> PriceText(s) == Failure(RunNumber(Group(s, i)).error)
  {
    EurosBranch(s, i);
    var m := RunNumber(Group(s, i));
    if m.Success? {
      PriceTextMarked(s, Success(FromEuros(m.value)));
    } else {
      PriceTextMarked(s, m);
    }
  }

  lemma ExtractAgreesUnmarked(s: string)
    requires !(Contains(s, "DH") && MarkerStart(s, "DH").Some?)
    requires !(!Contains(s, "DH") && Contains(s, "EUR") && MarkerStart(s, "EUR").Some?)
    ensures PriceText(s) == Success(ParseDecimal(s))
  {
    assert MarkedPrice(s).None?;
  }

  /** `is_valid_price` with bounds `lo` and `hi`: `False` for a missing value
      or one `float()` rejects, otherwise the inclusive range check. */
  predicate IsValidPrice(c: Cell, lo: real, hi: real) {
    !c.Missing? && NumericValue(c).Some? && lo <= NumericValue(c).value <= hi
  }

  /** `is_valid_surface`: the same policy with the surface bounds. */
  predicate IsValidSurface(c: Cell, lo: real, hi: real) {
    !c.Missing? && NumericValue(c).Some? && lo <= NumericValue(c).value <= hi
  }

  /** Python's `int(x)` of a float: truncation toward zero. */
  function Trunc(x: real): (t: int)
    ensures x >= 0.0 ==> t as real <= x < t as real + 1.0
    ensures x < 0.0 ==> t as real - 1.0 < x <= t as real
  {
    if x >= 0.0 then x.Floor else -((-x).Floor)
  }

  /** Python's `int(value)`; `None` where it raises (a text that is not an
      integer literal, such as "3.5"). */
  function IntValue(c: Cell): (r: Option<int>)
    ensures c.Missing? ==> r.None?
    ensures c.Int? ==> r == Some(c.i)
    ensures c.Text? ==> r == ParseInt(c.s)
  {
    match c
    case Missing => None
    case Text(s) => ParseInt(s)
    case Int(i) => Some(i)
    case Float(x) => Some(Trunc(x))
    case Flag(b) => Some(if b then 1 else 0)
  }

  /** `is_valid_rooms`: a missing count is accepted, one `int()` rejects is
      not, otherwise the truncated count must lie in 0..20. */
  predicate IsValidRooms(c: Cell) {
    c.Missing? || (IntValue(c).Some? && 0 <= IntValue(c).value <= 20)
  }

  // ---------------------------------------------------------------------------
  // Properties

  /** The first digit run of `p + d + rest` is `d` when `p` has no digit and
      `rest` does not continue the run. */
  lemma FirstNumberOf(p: string, d: string, rest: string)
    requires NoDigit(p) && |d| > 0 && AllDigits(d) && (rest == [] || !IsDigit(rest[0]))
    ensures FirstNumber(p + d + rest) == Some(d)
  {
    var s := p + d + rest;
    assert s[|p|] == d[0];
    forall j | 0 <= j < |p| ensures !IsDigit(s[j]) {
      assert s[j] == p[j];
    }
    assert DigitFrom(s, 0) == Some(|p|);
    DigitRunEndOf(s, |p|, |p| + |d|);
    assert s[|p|..|p| + |d|] == d;
  }

  lemma DigitRunEndOf(s: string, k: nat, e: nat)
    requires k <= e <= |s|
    requires forall j :: k <= j < e ==> IsDigit(s[j])
    requires e == |s| || !IsDigit(s[e])
    ensures DigitRunEnd(s, k) == e
    decreases e - k
  {
    if k < e {
      DigitRunEndOf(s, k + 1, e);
    }
  }

  /** A number in comma-free text after digit-free words is read whole. */
  lemma ExtractNumberOf(p: string, d: string, rest: string)
    requires NoDigit(p) && |d| > 0 && AllDigits(d) && (rest == [] || !IsDigit(rest[0]))
    requires ',' !in p + d + rest
    ensures ExtractNumber(Text(p + d + rest)) == Some(DigitsValue(d))
  {
    WithoutAbsent(p + d + rest, ',');
    FirstNumberOf(p, d, rest);
  }

  /** A falsy value gives `None` even when it is a number: `0`, `0.0`, `""`, `False`. */
  lemma ExtractNumberFalsy()
    ensures ExtractNumber(Int(0)).None? && ExtractNumber(Float(0.0)).None?
    ensures ExtractNumber(Text("")).None? && ExtractNumber(Flag(false)).None?
  {
  }

  /** A non-zero integer gives its magnitude. */
  lemma ExtractNumberInt(i: int)
    requires i != 0
    ensures ExtractNumber(Int(i)) == Some(if i < 0 then -i else i)
  {
    var m: nat := if i < 0 then -i else i;
    var t := NatText(m);
    IntTextNoComma(i);
    if i < 0 {
      assert Str(Int(i)) == "-" + t + "";
      FirstNumberOf("-", t, "");
    } else {
      assert Str(Int(i)) == "" + t + "";
      FirstNumberOf("", t, "");
    }
    NatTextValue(m);
  }

  /** An integer's text has no comma to delete. */
  lemma IntTextNoComma(i: int)
    ensures Without(IntText(i), ',') == IntText(i)
  {
    var s := IntText(i);
    forall j | 0 <= j < |s| ensures s[j] != ',' {
      if i < 0 && j > 0 {
        assert s[j] == s[1..][j - 1];
      }
    }
    WithoutAbsent(s, ',');
  }

  /** Commas are deleted before the digits are read, so a thousands
      separator joins the groups around it: `a,b` reads as the number `ab`. */
  lemma ExtractNumberThousands(a: string, b: string, rest: string)
    requires |a| > 0 && AllDigits(a) && AllDigits(b)
    requires ',' !in rest && (rest == [] || !IsDigit(rest[0]))
    ensures ExtractNumber(Text(a + "," + b + rest)) == Some(DigitsValue(a + b))
  {
    var s := a + "," + b + rest;
    assert s[0] == a[0];
    WithoutSeparator(a, b, rest);
    DigitsJoin(a, b);
    FirstNumberOf("", a + b, rest);
    assert "" + (a + b) + rest == a + b + rest;
  }

  lemma WithoutSeparator(a: string, b: string, rest: string)
    requires AllDigits(a) && AllDigits(b) && ',' !in rest
    ensures Without(a + "," + b + rest, ',') == a + b + rest
  {
    DigitsNoComma(a);
    DigitsNoComma(b);
    var sep: string := ",";
    assert Without(sep, ',') == [] by {
      assert sep[0] == ',' && sep[1..] == [];
    }
    WithoutDistributes(a, sep, ',');
    assert Without(a + sep, ',') == a;
    WithoutDistributes(a + sep, b, ',');
    assert Without(a + sep + b, ',') == a + b;
    WithoutDistributes(a + sep + b, rest, ',');
    WithoutAbsent(rest, ',');
  }

  lemma DigitsNoComma(s: string)
    requires AllDigits(s)
    ensures Without(s, ',') == s
  {
    assert ',' !in s by {
      forall j | 0 <= j < |s| ensures s[j] != ',' { }
    }
    WithoutAbsent(s, ',');
  }

  lemma DigitsJoin(a: string, b: string)
    requires AllDigits(a) && AllDigits(b)
    ensures AllDigits(a + b)
  {
    forall j | 0 <= j < |a + b| ensures IsDigit((a + b)[j]) {
      if j >= |a| { assert (a + b)[j] == b[j - |a|]; }
    }
  }

  /** "1,200 m²" gives 1200. */
  lemma ExtractNumberExample()
    ensures ExtractNumber(Text("1,200 m\U{B2}")) == Some(1200)
  {
    ExampleParts();
    ExtractNumberThousands("1", "200", " m\U{B2}");
    ValueExample();
  }

  lemma ExampleParts()
    ensures "1" + "," + "200" + " m\U{B2}" == "1,200 m\U{B2}"
    ensures "1" + "200" == "1200"
  {
  }

  lemma ValueExample()
    ensures DigitsValue("1200") == 1200
  {
    DigitsValueSnoc("1", '2');
    DigitsValueSnoc("12", '0');
    DigitsValueSnoc("120", '0');
    assert "1" + "2" == "12" && "12" + "0" == "120" && "120" + "0" == "1200";
  }

  /** `int(re.sub(r'\D', '', s))` read in one pass: `acc` is the number spelled
      by the digits of `s[..i]` and `seen` whether there was one. */
  function ScanDigits(s: string, i: nat, seen: bool, acc: nat): Option<nat>
    requires i <= |s|
    decreases |s| - i
  {
    if i == |s| then (if seen then Some(acc) else None)
    else if IsDigit(s[i]) then ScanDigits(s, i + 1, true, acc * 10 + DigitValue(s[i]))
    else ScanDigits(s, i + 1, seen, acc)
  }

  /** One more character of a prefix adds its digit, if it is one. */
  lemma DigitsPrefixStep(s: string, i: nat)
    requires i < |s|
    ensures Digits(s[..i + 1]) == Digits(s[..i]) + (if IsDigit(s[i]) then [s[i]] else [])
  {
    assert s[..i + 1] == s[..i] + [s[i]];
    DigitsAppend(s[..i], [s[i]]);
    assert [s[i]][1..] == [];
  }

  /** Scanning from any point whose prefix is summarised by `seen` and `acc`
      gives the integer of all the digits of `s`. */
  lemma {:induction false} ScanDigitsValue(s: string, i: nat, seen: bool, acc: nat)
    requires i <= |s|
    requires seen <==> Digits(s[..i]) != []
    requires acc == DigitsValue(Digits(s[..i]))
    ensures ScanDigits(s, i, seen, acc) == (if Digits(s) == [] then None else Some(DigitsValue(Digits(s))))
    decreases |s| - i
  {
    if i == |s| {
      assert s[..i] == s;
    } else {
      DigitsPrefixStep(s, i);
      if IsDigit(s[i]) {
        DigitsValueSnoc(Digits(s[..i]), s[i]);
        ScanDigitsValue(s, i + 1, true, acc * 10 + DigitValue(s[i]));
      } else {
        assert Digits(s[..i + 1]) == Digits(s[..i]);
        ScanDigitsValue(s, i + 1, seen, acc);
      }
    }
  }

  /** `extract_surface`: `None` for a missing value, else the digits of
      `str(value)` read as one integer, or `None` when there are none. It is
      `clean_surface` with `None` in place of `NaN`. */
  function ExtractSurface(c: Cell): (r: Option<nat>)
    ensures r == CleanSurface(c)
  {
    if c.Missing? then None
    else
      assert Str(c)[..0] == [];
      ScanDigitsValue(Str(c), 0, false, 0);
      ScanDigits(Str(c), 0, false, 0)
  }

  /** A number followed by a digit-free unit extracts to that number. */
  lemma ExtractSurfaceOf(n: nat, unit: string)
    requires NoDigit(unit)
    ensures ExtractSurface(Text(NatText(n) + unit)) == Some(n)
  {
    CleanSurfaceText(n, unit);
  }

  /** Prices: both bounds are accepted, the range is inclusive, and anything
      missing or unreadable is rejected. */
  lemma ValidPriceRange(x: real)
    ensures IsValidPrice(Float(x), Config.PriceMin, Config.PriceMax) <==> 10000.0 <= x <= 100000000.0
    ensures IsValidPrice(Int(x.Floor), Config.PriceMin, Config.PriceMax) <==> 10000 <= x.Floor <= 100000000
  {
  }

  lemma ValidPriceRejects(s: string)
    requires ParseDecimal(s).None?
    ensures !IsValidPrice(Missing, Config.PriceMin, Config.PriceMax)
    ensures !IsValidPrice(Text(s), Config.PriceMin, Config.PriceMax)
  {
  }

  lemma ValidPriceText(n: nat)
    ensures IsValidPrice(Text(NatText(n)), Config.PriceMin, Config.PriceMax) <==> 10000 <= n <= 100000000
  {
    ParseDecimalNat(n);
  }

  lemma ValidSurfaceRange(x: real)
    ensures IsValidSurface(Float(x), Config.SurfaceMin, Config.SurfaceMax) <==> 10.0 <= x <= 10000.0
    ensures IsValidSurface(Int(x.Floor), Config.SurfaceMin, Config.SurfaceMax) <==> 10 <= x.Floor <= 10000
  {
  }

  lemma ValidSurfaceRejects(s: string)
    requires ParseDecimal(s).None?
    ensures !IsValidSurface(Missing, Config.SurfaceMin, Config.SurfaceMax)
    ensures !IsValidSurface(Text(s), Config.SurfaceMin, Config.SurfaceMax)
  {
  }

  /** A float room count is truncated toward zero first, so exactly the
      floats strictly between -1 and 21 pass. */
  lemma ValidRoomsFloat(x: real)
    ensures IsValidRooms(Float(x)) <==> -1.0 < x < 21.0
  {
  }

  lemma ValidRoomsExamples()
    ensures IsValidRooms(Float(20.9)) && IsValidRooms(Float(-0.5)) && IsValidRooms(Missing)
    ensures !IsValidRooms(Int(21)) && !IsValidRooms(Float(21.0)) && !IsValidRooms(Int(-1))
  {
    ValidRoomsFloat(20.9);
    ValidRoomsFloat(-0.5);
    ValidRoomsFloat(21.0);
  }

  /** `int(str(i))` gives back `i`, and so does `int()` of `i` as a float. */
  lemma IntValueRoundTrip(i: int)
    ensures IntValue(Text(IntText(i))) == Some(i)
    ensures IntValue(Float(i as real)) == Some(i)
  {
    ParseIntText(i);
  }

  /** `int()` of a float drops the fraction toward zero: the result has the
      float's sign and lies less than one away from it. */
  lemma IntValueFloat(x: real)
    ensures IntValue(Float(x)).Some?
    ensures x >= 0.0 ==> 0 <= IntValue(Float(x)).value && IntValue(Float(x)).value as real <= x < IntValue(Float(x)).value as real + 1.0
    ensures x < 0.0 ==> IntValue(Float(x)).value <= 0 && IntValue(Float(x)).value as real - 1.0 < x <= IntValue(Float(x)).value as real
  {
  }

  /** `int()` refuses a text with a decimal point, such as "3.5", even
      though `float()` would read it. */
  lemma IntValuePoint(a: string, b: string)
    requires |a| > 0 && AllDigits(a) && |b| > 0 && AllDigits(b)
    ensures IntValue(Text(a + "." + b)).None?
  {
    ParseIntPoint(a, b);
  }

  /** An integer room count passes exactly in 0..20. */
  lemma ValidRoomsInt(i: int)
    ensures IsValidRooms(Int(i)) <==> 0 <= i <= 20
  {
  }
}

=== FILE: wrappers.dfy ===
/** Failure-compatible wrappers used throughout the model: `Option` stands for
    Python's `None` / `NaN`, `Result` for a value or a raised exception. */
module Wrappers {

  datatype Option<+T> = None | Some(value: T) {

    predicate IsFailure() {
      None?
    }

    function PropagateFailure<U>(): Option<U>
      requires None?
    {
      None
    }

    function Extract(): T
      requires Some?
    {
      value
    }

    /** The carried value, or `default` when there is none. */
    function GetOr(default: T): T {
      match this
      case Some(v) => v
      case None => default
    }
  }

  datatype Result<+R, +E> = Success(value: R) | Failure(error: E) {

    predicate IsFailure() {
      Failure?
    }

    function PropagateFailure<U>(): Result<U, E>
      requires Failure?
    {
      Failure(error)
    }

    function Extract(): R
      requires Success?
    {
      value
    }
  }
}

/** The exceptions the modelled code raises, one constructor per cause. */
module Errors {

  datatype Exc =
    /** `ValueError` from `float()` on a matched price run that still holds inner whitespace. */
    | UnparsableRun
    /** `KeyError` when a required column is absent. */
    | MissingColumn(name: string)
    /** `ValueError` from scikit-learn when a table has no rows. */
    | EmptyInput
    /** `ValueError` / `TypeError` when a column that must be numeric holds text. */
    | NotNumeric(name: string)
    /** `TypeError` from scikit-learn's encoder when a categorical column mixes strings with numbers. */
    | MixedCategories(name: string)
    /** `ValueError` raised by transform mode before the encoder or scaler is set. */
    | NotFitted(part: string)
    /** `ValueError` from a fitted transformer given a table of another width. */
    | FeatureCountMismatch
    /** `ValueError` from pandas when reindexing an axis with duplicate labels. */
    | DuplicateLabels
    /** `ValueError` raised when no model of the registry could be loaded. */
    | NoModelLoaded
    /** `ValueError` from numpy broadcasting or from assigning a column of the wrong length. */
    | ShapeMismatch
    /** Whatever a model's own `predict` raised. */
    | ModelFailed(name: string)
}
